=== FILE: README.md ===
# Synthetic e-discovery corpus generator, modelled in Dafny

The system is a script that asks a language model for emails, calendar invitations and chat
conversations, and saves them as an e-discovery test corpus. Alongside it is a small patcher
that adds temperature settings to the scenario configuration. This project models the logic
that is deterministic once its inputs are fixed:

- the email-thread fold and its RFC 5322 threading headers;
- the rate-limit retry wrapper;
- the business-hours timestamp simulator;
- the seeded identifier derivation;
- the Slack, RSMF (Teams) and Webex projections of one conversation, with the Slack merges;
- the prompt helpers: scenario filtering, personnel map, prompt variation and placeholder
  substitution;
- the near-duplicate, blast-recipient and quoting helpers for emails;
- PDF text escaping and word wrap;
- custodian fan-out and the statistics counters;
- the ICS line builder;
- the sequential view of the generation scheduler;
- the YAML temperature patcher.

Every random draw, `uuid4()`, `datetime.now()` and strftime rendering is a parameter. `randint(lo, hi)` is
`lo + d % (hi - lo + 1)` for a free draw `d`, and `choice(xs)` is `xs[d % |xs|]`. Every
language-model call is a scripted outcome. Times are `Stamp(day, hour, minute)`: day 0 is a
Monday and the weekday is `day % 7`. Chat clocks count seconds. Python exceptions are the
`Raised` case of `Base.Result`.

Modules follow the program: `Base` and `Text` hold shared values and string helpers
(Python's `in`, `replace`, `split`, `strip`, `str(n)`). The other modules follow the script's
functions, one module each: `Retry`, `Identity`, `Timestamps`, `Personnel`, `Mail`, `Pdf`,
`Custodians`, `Stats`, `Calendar`, `Chat`, `Slack`, `Rsmf`, `Webex`, `ChatScenario`,
`Threads`, `Prompts`, `Scheduler`, `Patcher`.

## Model

| member | source | states |
|---|---|---|
| Base.RandInt | app.py:1257 | a `randint(lo, hi)` draw lies in `lo..hi` |
| Base.Choice | app.py:291 | a `random.choice` draw is an element of the list |
| Text.ReplaceAll | app.py:558 | `str.replace` leaves a text in which the pattern does not occur unchanged |
| Text.Words | app.py:460 | `split()` gives non-empty words holding no whitespace, and none at all exactly when the text is all whitespace |
| Text.WordsCoverText | app.py:460 | the words, put back together, are exactly the non-whitespace characters of the text, in order |
| Text.Strip | add_temperature_settings.py:37 | `strip()` is a slice of the text whose cut-off ends are all whitespace; it is no longer than the text, and a non-empty result neither starts nor ends with whitespace |
| Text.Lower | app.py:1042 | `lower()` keeps the length and lower-cases each ASCII capital in place |
| Text.LowerAppend | app.py:1336 | lower-casing two texts and joining them is lower-casing the joined text |
| Text.LowerTwice | app.py:1042 | lower-casing is idempotent |
| Retry.CallWithRetry | app.py:351-388 | calls the function between 1 and `max_retries` times. Every call but the last failed with a rate-limit signature. After the k-th failure (0-based) it sleeps `2^(k+1)` s. It returns what the last call returned or raised, and it stops early only on a success or on an error without the signature. With `max_retries <= 0` it raises "Failed after N retries" without calling |
| Retry.SleepsIncrease | app.py:376-378 | the backoff sleeps strictly increase (2, 4, 8, ...) |
| Retry.FirstSuccessReturned | app.py:367-369 | when the first k calls hit the rate limit and call k succeeds, with k below `max_retries`, that value is returned after k sleeps |
| Retry.NonRateLimitedPropagates | app.py:383-385 | an error without "429", "rate_limit" or "quota" propagates from the first call, with no sleep |
| Retry.ExhaustedReraises | app.py:374-382 | after `max_retries` rate-limited failures the last error is re-raised, after `max_retries - 1` sleeps |
| Retry.ThreeRateLimitsThenSuccess | app.py:351-388 | three rate-limit failures and then a value: sleeps 2, 4, 8, four calls, the value returned |
| Identity.DeterministicId | app.py:902-908 | the id is the prefix followed by exactly eight characters of `0-9A-F`, drawn from the seed `sum(ord(c))` |
| Identity.CodeSumPermutation | app.py:905 | the seed depends only on the multiset of the key's characters |
| Identity.AnagramsShareId | app.py:902-908 | keys with the same characters get the same id |
| Identity.DistinctKeysCollide | app.py:902-908 | distinct keys with equal code sums ("ad", "bc") collide, whatever the generator draws |
| Timestamps.AddMinutes | app.py:1242-1251 | adding a `timedelta` moves the minute count by exactly the delta, and a forward delta never moves the date back |
| Timestamps.AddDays | app.py:1271-1279 | adding whole days keeps the time of day |
| Timestamps.Shifted | app.py:1237-1253 | without a (truthy) offset the base is unchanged. Otherwise the delta comes from the urgent/fraud, fraud cool-off, privilege or default branch, and a non-negative offset never moves the date back |
| Timestamps.Snap | app.py:1255-1266 | snapping keeps the date and puts the hour in 8-18, 6-7, or 18-21 (18-23 for fraud or urgent), according to the branch drawn |
| Timestamps.RollToWeekday | app.py:1271-1272 | the weekend loop ends on the first weekday on or after the date, at most two days later |
| Timestamps.WeekendRule | app.py:1268-1280 | without the weekend draw nothing changes. With it the result is Monday to Friday and never earlier. Apart from the Friday-evening move, it is the weekday roll |
| Timestamps.RealisticTimestamp | app.py:1219-1282 | the hour lies in the snapping windows; the date is never before the base (or 100 days before now) for a non-negative offset; the weekend branch gives Monday to Friday |
| Timestamps.FridayEveningMovesToMonday | app.py:1274-1280 | a Friday result at 17:00 or later taking the 70% branch moves exactly three days, to Monday 08-10 |
| Timestamps.WeekendRollsToMonday | app.py:1269-1272 | a Saturday or Sunday rolls to the next Monday, keeping the time of day |
| Timestamps.ReplyCanPrecedeParent | app.py:1255-1257 | a reply snapped on its parent's day can be earlier than the parent: only the date is monotone |
| Timestamps.ZeroOffsetIsNoOffset | app.py:1237 | `hours_offset = 0` is treated exactly like no offset |
| Personnel.Lookup | app.py:267-274 | `d.get(key)` finds a value exactly when the key is entered, and the value is the one stored under it |
| Personnel.Put | app.py:272-273 | assignment overwrites an entered key in place and appends a new key, keeping every other key |
| Personnel.PutLookup | app.py:272-273 | after `d[key] = p` the key maps to `p` and every other key keeps its value |
| Personnel.PutUnique | app.py:272-273 | assignment never creates a second entry for a key |
| Personnel.BuildPersonnelMap | app.py:267-274 | the map has unique keys and at most two entries per person, one under the name and one under the address |
| Personnel.LookupIsLastOwner | app.py:267-274 | looking a key up in the built map finds the last person entered under it, by name or by address |
| Mail.ValidateEmail | app.py:652-660 | an answer is kept exactly when it is present and has all five required keys, and then unchanged |
| Mail.SplitLines | app.py:609 | `splitlines()` gives lines without line boundaries, and no lines for an empty text |
| Mail.SplitLinesJoin | app.py:609 | a text whose only line boundary is `\n`, not ending in one, is rebuilt by joining its lines with `\n` |
| Mail.FormatQuotedBody | app.py:597-611 | the quote starts with the Original Message banner, `From:` and `Sent:` lines, and ends with a blank line and the previous body behind "> " markers |
| Mail.QuoteRoundTrip | app.py:609 | taking the markers off the quoted body gives back exactly the lines of the previous body |
| Mail.UnquoteQuote | app.py:609 | unquoting the quoted lines gives back the lines |
| Mail.QuotedLinesUnbroken | app.py:609 | quoted lines of unbroken lines hold no line feed |
| Mail.ToggleSignature | app.py:554-558 | a body without the mobile signature gets it appended. A body with it loses each non-overlapping occurrence and shrinks by at least its length |
| Mail.AddDisclaimer | app.py:559-562 | the result holds the confidentiality notice and starts with the original body |
| Mail.Reformat | app.py:563-567 | a body with a blank line gets shorter; a body with line breaks but no blank line gains one; a body without line breaks is left as it is |
| Mail.Vary | app.py:554-567 | a variation leaves the body as it was exactly when it adds a notice the body already holds, or reformats a body without line breaks |
| Mail.NearDuplicate | app.py:549-568 | only the body changes, and it is one of the three variations of the original body |
| Mail.RequestIgnored | app.py:552-553 | the requested variation type plays no part: the variation is drawn afresh |
| Mail.DisclaimerIdempotent | app.py:559-562 | adding the notice twice is adding it once |
| Mail.SignatureRoundTrip | app.py:554-558 | toggling the signature on and then off restores a body that lacked it |
| Mail.CollapseUndoesDouble | app.py:563-567 | doubling every line break and then collapsing every blank line gives back the text |
| Mail.ReformatTwice | app.py:563-567 | reformatting a body without blank lines twice gives it back |
| Mail.Grow | app.py:579-583 | the doubling loop gives at least 500 entries, starting with the list and repeating it with its period |
| Mail.HalfPeriod | app.py:580-581 | one doubling step keeps the list's period |
| Mail.DirectoryEmails | app.py:577 | one address per directory entry, in key order, so every person counts twice |
| Mail.InjectBlastRecipients | app.py:570-593 | no result (the loop never ends) exactly when the directory is empty. Otherwise only the recipients change: the old ones are kept in front, followed by 500 blast addresses that cycle through the directory |
| Pdf.Sanitize | app.py:444-455 | the replacement loop is a per-character map to look-alikes, and no typographic character survives it |
| Pdf.LookalikeTable | app.py:444-455 | the ordered table applied pattern by pattern acts like the per-character map |
| Pdf.Escape | app.py:457 | escaping writes each backslash and parenthesis with a leading backslash |
| Pdf.EscapeRoundTrip | app.py:457 | a PDF reader's unescaping recovers the text exactly |
| Pdf.EscapedParensGuarded | app.py:457 | in escaped text no parenthesis stands alone, so the literal string cannot end early |
| Pdf.WrapKeepsWords | app.py:460-473 | the wrap loses, adds and reorders no word, and a line of two or more words is at most 86 characters |
| Pdf.WrapLines | app.py:460-473 | one output line per word group, each the words of its group joined by single spaces, and a line of two or more words is at most 86 characters |
| Pdf.LaterLineCanTake86 | app.py:465-473 | a line after a break can reach 86 characters, one more than the 85-character limit |
| Pdf.LongFirstWordLeavesEmptyLine | app.py:465-473 | a first word longer than 85 characters leaves an empty first line |
| Pdf.ShowLines | app.py:476-477 | the shown text is nine characters per line longer than the lines themselves |
| Pdf.ShowLinesSegments | app.py:476-477 | line k is shown as `(line) Tj T* ` right after the segments of the lines before it |
| Pdf.TextStream | app.py:443-478 | the text stream is the fixed opening, the `Tj T*` segments of the wrapped lines of the sanitized, escaped content, and the fixed closing |
| Custodians.AppendSignature | app.py:719-721 | only the body changes, it grows at its end, and it changes exactly when the draw fires and the sender has a profile with a non-empty signature |
| Custodians.ValidEmails | app.py:845-850 | exactly the addresses of the list that hold an `@` |
| Custodians.CustodianAddresses | app.py:837-871 | exactly the valid addresses of sender, recipients, cc and bcc, each once |
| Custodians.CustodianFolders | app.py:871-877 | each participant address has its folder (the local part); there are no more folders than addresses |
| Custodians.SharedLocalPartSharesFolder | app.py:871-877 | two participant addresses with the same local part share one folder, so fewer folders are written than custodians |
| Stats.Bump | app.py:1924 | `d[key] = d.get(key, 0) + 1` raises that key by one and keeps every other count |
| Stats.RecordEmail | app.py:739-744 | one more email and one more date; nothing recorded is lost, and the counters stay consistent with the dates |
| Stats.RecordCalendar | app.py:893-898 | one more event and one more date; counters stay consistent |
| Stats.RecordChat | app.py:1066-1073 | one more chat, the scenario tag and every sender recorded; counters stay consistent |
| Stats.NoteStressTest | app.py:1925-1926 | the stress test is listed afterwards, earlier ones are kept, and a list without repeats stays without repeats |
| Calendar.ValidateEvent | app.py:662-670 | an answer is kept exactly when it is present and has all five required keys |
| Calendar.IcsFileName | app.py:884 | the file name ends in `.ics`, starts with the given name, and is left alone when it already ends in `.ics` |
| Calendar.IcsFileNameIdempotent | app.py:884 | naming twice is naming once |
| Calendar.EscapeLineFeeds | app.py:889 | the source's DESCRIPTION escaping leaves no line feed |
| Calendar.LineFeedEscapingCollides | app.py:889 | two different descriptions, a line break and a literal backslash-n, are written the same |
| Calendar.EscapeText | app.py:889 | full TEXT escaping (section 3.3.11 of RFC 5545) leaves no line feed |
| Calendar.EscapeTextRoundTrip | app.py:889 | a calendar reader recovers every description from the full escaping |
| Calendar.EscapeTextInjective | app.py:889 | distinct descriptions are written differently |
| Calendar.AttendeeLines | app.py:888 | one `ATTENDEE` line per attendee, in order, with name and address |
| Calendar.EventLines | app.py:885-889 | 13 lines plus one per attendee, framed by `BEGIN`/`END` of `VCALENDAR` and `VEVENT`, with the UID at the generator's domain, one `ATTENDEE` line per attendee and the given DESCRIPTION text |
| Calendar.IcsLines | app.py:885-889 | as written: the DESCRIPTION line carries the description with only its line feeds escaped, holds no line feed, and a description without line feeds is written as it is |
| Calendar.IcsDescriptionsCollide | app.py:889 | as written, an event described "a" LF "b" and one described "a\nb" get identical files |
| Calendar.CorrectedIcsLines | app.py:885-889 | the corrected builder writes the description with full TEXT escaping and agrees with the written one on every other line |
| Calendar.EventLastsOneHour | app.py:886-887 | DTEND is exactly one hour after DTSTART |
| Calendar.DescriptionRecoverable | app.py:889 | with the corrected builder the DESCRIPTION line decodes back to the event's description |
| Chat.ValidateChat | app.py:672-702 | a chat answer is used exactly when present with a `messages` list, and the list is unchanged |
| Chat.LengthGap | app.py:983-989 | pauses of 5-30 s below 30 characters, 20-120 s below 100, 60-300 s otherwise |
| Chat.Clock | app.py:978-989 | each message's time is the previous one's plus its pause |
| Chat.ClockIncreasing | app.py:983-991 | with pauses of at least `lo` seconds, times run strictly forward, at least `lo` apart per step |
| Chat.LengthGaps | app.py:981-989 | each message's pause is drawn by the length of its body and lies in 5-300 s |
| Chat.Dedup | app.py:1086-1095 | each address once, in order of first appearance, the first sender first |
| Chat.DedupDistinct | app.py:1086-1095 | a list without repetitions is left as it is |
| Chat.UniqueSenders | app.py:1086-1095 | at most one participant per message, no address twice, each a sender of the conversation |
| Chat.UniqueSendersCover | app.py:1086-1095 | every sender of the conversation is a participant |
| Chat.UniqueSendersFirstName | app.py:1086-1095 | each participant carries the name of that address's first message |
| Chat.UniqueSendersNamed | app.py:1086-1090 | every participant is a sender, with the name given by the first message from its address |
| Chat.Seconds | app.py:991 | a start time counts whole minutes: the seconds count is a multiple of 60 whose quotient is the minute count |
| Chat.SecondsFaithful | app.py:991 | distinct start times are distinct instants, and adding minutes adds sixty times as many seconds |
| Chat.DateText | app.py:1108 | `%Y-%m-%d` holds a `-` |
| Chat.ClockText | app.py:1108 | `%H:%M:%S` holds only digits and colons |
| Slack.MakeUser | app.py:926-934 | a user entry exists exactly when the name has a first word (`split()[0]` raises otherwise). Its id is the seeded `U` id of the key |
| Slack.DirectoryUsers | app.py:925-939 | one user per directory key, in order, so one per name and one per address; raises when any name is blank |
| Slack.MergeUsers | app.py:942-953 | without a file the new list is written. With one, every existing entry is kept in front and only new users with an absent id are appended; afterwards every new user's id is present |
| Slack.Filter | app.py:947-949 | exactly the incoming users whose id is not listed |
| Slack.MergeUsersIdempotent | app.py:942-953 | merging the same directory again adds nothing |
| Slack.MergeUsersAppendsNew | app.py:942-953 | when all ids are new, they are appended as they are |
| Slack.KeepChannelChars | app.py:956 | only characters of `[a-z0-9-_]` remain, and a name of such characters is kept as it is |
| Slack.ChannelName | app.py:956 | the channel name has at most 21 characters, all of `[a-z0-9-_]` |
| Slack.ChannelNameIdempotent | app.py:956 | normalising a channel name again changes nothing |
| Slack.AddChannel | app.py:960-974 | a channel is added only when no channel carries its id; it is then appended with the first user (or `U00000000`) as creator and every user as member, and the list is otherwise unchanged |
| Slack.AddChannelIdempotent | app.py:960-974 | adding the same channel twice is adding it once |
| Slack.ChannelPresent | app.py:960-974 | afterwards some channel carries the channel's id, whether it was added or already there |
| Slack.ThreadKeysTs | app.py:1015 | every earlier index is a key holding that message's `ts` |
| Slack.ThreadKeysUser | app.py:1016 | every earlier index's `_user` companion holds that message's user id |
| Slack.ThreadKeys | app.py:1015-1016 | every key is the index of an earlier message or that index's `_user` companion |
| Slack.Threading | app.py:1009-1012 | a message is threaded exactly when its non-empty `thread_ts` is a known key; without a thread there is no parent user |
| Slack.ReplyToEarlierMessage | app.py:1009-1016 | a reply naming an earlier message's index is threaded under that message's `ts`, with its user as parent |
| Slack.ForwardReferenceIgnored | app.py:1009-1016 | a key naming the message itself or a later one threads nothing |
| Slack.UserKeyThreadsUnderUserId | app.py:1009-1016 | a `_user` key is accepted too: the message is threaded under a user id and has no parent user |
| Slack.SenderIds | app.py:992-993 | each message's user is the seeded `U` id of its sender address |
| Slack.IsJoinNotice | app.py:1042 | a join notice has between 6 and 49 characters |
| Slack.JoinNoticeIgnoresCase | app.py:1042 | a text and its lower-cased form are judged alike |
| Slack.Sample | app.py:1026 | `random.sample` gives k entries drawn without replacement from the pool |
| Slack.ReactionOf | app.py:1018-1031 | the reaction fires with chance 30% below 20 characters and 15% otherwise (the same rule the Teams events use). A firing reaction raises exactly when there are no users (`randint(1, 0)`); otherwise it names one of the given emojis or reaction types and 1 to 3 users drawn without replacement from the list, never more than there are |
| Slack.Edited | app.py:1033-1039 | an edit is recorded exactly when the 10% draw fires on a message over 50 characters, 30 to 300 s after it |
| Slack.SlackMessages | app.py:976-1047 | the messages are built exactly when no message fails: a sender name without a first word, or a firing reaction with no users. The error is the first failing message's. There is one message per chat entry, with its text, its user id, its reaction and edit, and `thread_ts` and parent user looked up among the earlier messages' keys only; times strictly increase |
| Slack.ThreadsOnlyUnderEarlierMessages | app.py:1009-1016 | a reply naming an earlier message's index is threaded under that message's `ts` and user; naming itself or a later one threads nothing |
| Slack.Insert | app.py:1061-1062 | insertion keeps every entry and adds the new one |
| Slack.InsertSorted | app.py:1062 | inserting into a sorted log keeps it sorted |
| Slack.SortByTs | app.py:1062 | the sort is a permutation and orders by `ts` |
| Slack.SortSortedUnchanged | app.py:1062 | a log already in order is left exactly as it is |
| Slack.AppendToLog | app.py:1061-1062 | the daily log holds the old and the new messages (as a multiset), sorted by `ts`, whichever order they arrived in |
| Slack.AppendAfterEarlierLog | app.py:1061-1062 | when every old entry precedes the new messages, the log is the old one followed by the new |
| Slack.SlackExport | app.py:910-1075 | the export fails exactly when a directory name has no first word or a message fails against the merged user list, and a failure leaves the log and the statistics as they were. Otherwise the users and channel are merged, the daily log gains the conversation, and one chat is counted |
| Slack.ReactionWithoutUsersRaises | app.py:1019-1025 | with no users at all, a message whose reaction fires makes the export raise, and nothing is counted |
| Slack.SenderEmails | app.py:1072-1073 | every sender address (or its absence) is recorded as a custodian |
| Rsmf.NoZoneSuffixAdded | app.py:1108-1110 | the local stamp's date holds `-`, so the `Z` is never appended and the stamp has no zone |
| Rsmf.IsoTimestamp | app.py:1108-1109 | the stamp is the local date, `T` and the clock, with at most one character appended |
| Rsmf.EventParticipant | app.py:1112 | an event names a participant exactly when its message gives an address that some participant has, and then it is that address |
| Rsmf.Participants | app.py:1084-1095 | distinct senders, id = address, and every sender (default `unknown@chat.com`) present |
| Rsmf.ParticipantsAreSenders | app.py:1086-1095 | conversely, every participant is a sender, with the display name of the first message from its address |
| Rsmf.FirstSenderFirst | app.py:1084-1095 | the first participant is the first message's sender |
| Rsmf.RsmfManifest | app.py:1077-1143 | one event per message, with its body, its given sender as participant, its timestamp from the message clock, the reaction drawn over the participant ids, and an edit stamp exactly when the edit draw fires. The folder is the first sender's local part and the file is `<base>.rsmf` |
| Rsmf.TeamsReactorsAreParticipants | app.py:1114-1123 | an event has a reaction exactly when the reaction draw fires; its type is one of the five Teams types and its 1 to 3 users are all participant ids |
| Rsmf.EditedAfterSent | app.py:1125-1128 | an event is edited exactly when the 10% draw fires on a message longer than 50 characters, and its edit stamp is 30 to 300 seconds after the message's own time |
| Rsmf.MissingSenderHasNoParticipant | app.py:1088-1112 | a message without `sender_email` is filed as `unknown@chat.com` among the participants, but its event has no participant |
| Rsmf.RecordRsmf | app.py:1150-1156 | one more chat, and every sender recorded as a custodian; counters stay consistent |
| Webex.Title | app.py:1171 | `title()`: a letter following a letter is lower-cased, any other letter upper-cased, nothing else changes |
| Webex.ApiTime | app.py:1174 | the API time starts with the date and `T`, ends with `.000Z`, and without that suffix is the RSMF stamp of the same time |
| Webex.TitleIdempotent | app.py:1171 | title-casing a title changes nothing |
| Webex.RoomTitle | app.py:1171 | the room title has the name's length, every `_` becomes a space, and no `_` remains |
| Webex.WebexGaps | app.py:1193 | pauses of 5 to 120 s, whatever the message length |
| Webex.Participants | app.py:1177-1188 | distinct senders (default `unknown@webex.com`), each with its seeded id and the shared creation time, and every sender present |
| Webex.ParticipantsAreSenders | app.py:1177-1188 | conversely, every participant is a sender, with the display name of the first message from its address |
| Webex.Messages | app.py:1190-1202 | one message per chat entry, in the room, from its sender's person id, with its text |
| Webex.WebexExportOf | app.py:1167-1202 | the room id is the seeded id of the name and the title its title-case. The room is created at the start and last active one hour later, and the participants (created 30 days before the start) and messages are as above |
| Webex.WebexClockIncreasing | app.py:1190-1194 | message times run strictly forward, at least five seconds apart |
| Webex.RecordWebex | app.py:1208-1215 | one more chat and the room title as a scenario; every sender is a custodian |
| ChatScenario.RunExports | app.py:1419-1433 | the scenario raises exactly when the Slack export is asked for and fails. On success it returns 1, counts one chat per export named, and produces the Teams and Webex exports exactly when named; an unnamed Slack export leaves the workspace alone |
| ChatScenario.PromptStep | app.py:1410-1411 | an empty prompt list raises; otherwise the first prompt is randomized |
| ChatScenario.GenerateChatScenario | app.py:1408-1433 | a raising prompt step raises with nothing exported or counted. Otherwise the result is 0 exactly when the answer has no message list, and then nothing is exported or counted; it raises exactly when the Slack export is asked for and fails |
| ChatScenario.EmptyPromptListRaises | app.py:1410 | `prompts[0]` on an empty list raises, leaving the workspace and statistics alone |
| ChatScenario.AllFormatsCountThree | app.py:1421-1431 | with format `all`, one chat bumps the chat counter three times |
| ChatScenario.UnknownFormatStillCounts | app.py:1418-1433 | a format name no branch knows exports nothing and still reports one item |
| Threads.IdDomain | app.py:1320-1327 | the Message-ID domain is the text between the sender's first and second `@`, or `synthetic.local` without one |
| Threads.MessageId | app.py:1320-1327 | the id is the uuid in angle brackets followed by `@`, the domain and `>` |
| Threads.MessageIdsDistinct | app.py:1320-1327 | distinct uuids give distinct Message-IDs, whatever the senders |
| Threads.ShapeReply | app.py:1315-1318 | a reply subject starts with `re:` in some case, is kept when it already does, and is otherwise `Re: ` plus the previous subject. The body is the answer followed by the quote of the previous message; nothing else changes |
| Threads.UrgencyAcrossSubjectAndBody | app.py:1335-1337 | the urgency keyword search runs over subject and body joined without a separator, so a keyword split between them counts |
| Threads.IsUrgent | app.py:1336-1337 | urgent exactly when a keyword occurs in the lower-cased subject followed by the body |
| Threads.Draft | app.py:1303-1318 | after a first message the draft is a reply to the previous stored message; the first message is the answer as given unless made a near-duplicate |
| Threads.NextSaved | app.py:1315-1347 | the saved message replies to the previous id, references the earlier ids joined by spaces, is numbered `<base>_<k>`, is dated no earlier day than its parent, and is stored with the signature step applied |
| Threads.AdvanceSaves | app.py:1291-1350 | a step saves exactly one message when it is not skipped and the answer has every key; otherwise the state is unchanged |
| Threads.AdvanceKeeps | app.py:1291-1350 | one step keeps threading, reply shaping, date order and numbering |
| Threads.Thread | app.py:1291-1350 | earlier messages stay and each step adds at most one message |
| Threads.ThreadKeeps | app.py:1288-1350 | the loop keeps threading, reply shaping, date order, numbering and counter consistency |
| Threads.GenerateEmailThread | app.py:1286-1351 | the thread raises exactly when some step is plain text (`AttributeError` on `.get`, skipped or not) or is not skipped and fails to randomize its prompt; the messages saved are then those of the steps before the first such one. Otherwise the returned count is the number of saved messages, at most one per prompt. Message k >= 1 has In-Reply-To = id of message k-1 and References = all earlier ids joined by spaces, and the first has neither. Every reply quotes the previous stored message, dates never go back a day, and files are numbered 1, 2, ... |
| Threads.PromptFailureKeepsEarlierMessages | app.py:1291-1297 | when step k is the first whose prompt raises, the thread raises that step's exception and keeps exactly the messages of the steps before k |
| Threads.StepError | app.py:1291-1297 | a plain-text step raises `AttributeError` before its skip draw; a skipped mapping raises nothing; any other step raises exactly when its prompt randomization does |
| Threads.PlainTextPromptRaises | app.py:1291-1292 | a thread whose first prompt is plain text raises `AttributeError` and saves nothing |
| Threads.FirstMessageStartsThread | app.py:1328-1333 | in a linked thread the first message has only a Message-ID |
| Threads.ThreadCountsEmails | app.py:739-744 | the statistics gain exactly one email per saved message |
| Prompts.SignalTagsOf | app.py:217-243 | every tag comes from the table entry of a listed type |
| Prompts.KeepMatching | app.py:249-257 | an order-preserving subsequence keeping every matching scenario with its multiplicity and nothing else |
| Prompts.FilterScenariosByType | app.py:199-257 | an empty or `all` filter returns the list unchanged. Otherwise the result is the ordered subsequence of scenarios whose description holds a selected tag |
| Prompts.SignalTagsAreNotNoise | app.py:217-247 | no signal type contributes the noise tag `(S3)` |
| Prompts.NoiseUnlessOnly | app.py:229-247 | noise tags are searched for exactly when noise is requested and the filter is not an `_only` name |
| Prompts.UnknownNamesAddNoTags | app.py:239-243 | adding an unknown type name to a non-empty list changes nothing |
| Prompts.AllOnlySelectsNothing | app.py:214-247 | `all_only` loses its suffix, becomes `all`, names no type and drops the noise, so nothing is selected |
| Prompts.FirstStarter | app.py:280-281 | the first base starter the prompt begins with, or none exactly when it begins with none |
| Prompts.AddPromptVariation | app.py:276-286 | a prompt without a base starter is unchanged; otherwise the starter word is replaced by the opening made of a drawn starter and a drawn filler, and the rest of the prompt follows as it was |
| Prompts.UnknownLevelIsMedium | app.py:282-283 | a level the tables do not name varies like `medium` |
| Prompts.LowVariationKeepsAStarter | app.py:278-285 | at level `low` a varied prompt again opens with a base starter |
| Prompts.Sample | app.py:308 | `random.sample(pool, 2)` gives entries at two distinct positions |
| Prompts.PickPair | app.py:307-319 | the pair is one of the attempts' samples, and it is acceptable exactly when some attempt from here on was |
| Prompts.SelfMailOnlyWhenForced | app.py:307-319 | the sender and recipient resolve to one address only when all ten samples did |
| Prompts.Value | app.py:324-325 | a variable is found exactly when some entry has that key |
| Prompts.Substitute | app.py:323-328 | with no placeholder present the prompt is unchanged; with every non-pool value list non-empty it succeeds; a raise needs some non-pool variable with an empty list |
| Prompts.SubstituteByTurns | app.py:323-328 | the loop raises IndexError exactly when, at some variable in dictionary order, its placeholder is present in the prompt as substituted so far and its value list is empty; otherwise it returns the prompt after every variable's turn |
| Prompts.SubstitutePresent | app.py:325-327 | a present placeholder with an empty list raises; with a non-empty list the placeholder is replaced (`str.replace`) by one value chosen from that list, and the loop goes on with the next variable |
| Prompts.ValueMayRebuildPlaceholder | app.py:326-327 | replacing `{a}` in `{{a}}` by the value `a` leaves `{a}` in the prompt, so no contract can promise that a substituted placeholder is gone |
| Prompts.Varied | app.py:290-296 | raises exactly when a template list is empty; a single template on a first run is used as it is |
| Prompts.GetRandomizedPrompt | app.py:288-330 | raises when the template choice does, or when the sender/recipient pair is wanted from a pool of fewer than two (`random.sample`). It raises only in those cases or when some variable other than the pool has no values. Without variables the varied template is returned. With the pair wanted, `{sender}` and `{recipient}` are replaced by the picked pair before the other placeholders; without it only the other placeholders are filled |
| Prompts.PairFilledFromPool | app.py:304-321 | with only a pool of two or more names, a prompt holding both placeholders gets them filled from two distinct pool positions |
| Scheduler.Worker | app.py:1841-1888 | the report carries the scenario id; a stress test is reported exactly for a saved blast-email scenario with a description; items are reported only when the generator returned them |
| Scheduler.Occurrences | app.py:1909-1915 | one occurrence per submitted scenario |
| Scheduler.OccurrenceIsPriorPlusTwo | app.py:1841-1915 | a scenario id that appears once in a pass is run as occurrence prior + 2 |
| Scheduler.Reports | app.py:1909-1920 | one report per submitted scenario, from its own worker |
| Scheduler.Collect | app.py:1919-1931 | the count gains every report's items. Each id's run count rises by its number of reports, each description is triggered, each stress test is noted, and nothing recorded is lost |
| Scheduler.Pass | app.py:1890-1934 | the run number rises by one and every submitted id's run count rises |
| Scheduler.Schedule | app.py:1890-1934 | the loop finishes only at the target and reports unfinished only below it. It crashes only when some scenario lacks `base_filename`. Neither the count nor the run number goes back |
| Scheduler.MissingIdSurvivesShuffle | app.py:1892-1893 | a shuffle keeps every scenario, so one without an id is still there |
| Scheduler.ZeroYieldNeverFinishes | app.py:1890-1934 | workers that never save leave the loop unfinished whatever the number of passes |
| Scheduler.BlastScenarioNoted | app.py:1866-1926 | a saved blast-email scenario notes its stress test |
| Patcher.IndentIrrelevant | add_temperature_settings.py:25 | indentation does not matter to the scenario pattern |
| Patcher.ScenarioStartNamesKind | add_temperature_settings.py:25 | a scenario line names one of the four kinds in double quotes |
| Patcher.BlockEnd | add_temperature_settings.py:32-48 | the look-ahead stops at the first closing line (non-blank, not a comment, indented no deeper), or at the end |
| Patcher.End | add_temperature_settings.py:27-48 | a block spans at least its own line |
| Patcher.LastDescription | add_temperature_settings.py:38-46 | the description kept is the last line of the block holding `description:`, and there is none exactly when no line holds it |
| Patcher.FirstDescription | add_temperature_settings.py:63-68 | the first line of the block holding `description:`, and none exactly when no line holds it |
| Patcher.SettingsLines | add_temperature_settings.py:70-80 | two lines: `llm_settings:` two columns deeper than the scenario, then the temperature two columns deeper again |
| Patcher.Settings | add_temperature_settings.py:51-80 | the insertion for a block that needs one carries the temperature its description selects |
| Patcher.TemperatureTellsSignal | add_temperature_settings.py:57-61 | signal and noise blocks get different temperature lines |
| Patcher.SearchModified | add_temperature_settings.py:63-68 | the search raises exactly when it runs past the lines written so far without finding a description |
| Patcher.AsWrittenRaisesOnFirstInsertion | add_temperature_settings.py:20-91 | as written, the patcher raises IndexError exactly when some block needs a temperature, and otherwise returns the file unchanged with 0 changes |
| Patcher.AsWrittenOutcome | add_temperature_settings.py:11-91 | the whole file: IndexError when a block needs a temperature, the lines unchanged and 0 changes otherwise |
| Patcher.NeedsNonEmptyBlock | add_temperature_settings.py:51 | a block that needs a temperature has a line after its first |
| Patcher.InsertAfter | add_temperature_settings.py:63-68 | the intended insertion point is the block's first description line |
| Patcher.CopyStep | add_temperature_settings.py:20-80 | copying a line emits it and then the insertions due after it; the queue keeps the other pending insertions and adds, for a block that needs one, its settings aimed at its first description line |
| Patcher.IntendedFrom | add_temperature_settings.py:20-84 | the copy loop keeps every line in order and adds two lines per block that needs a temperature |
| Patcher.AddTemperature | add_temperature_settings.py:11-91 | the corrected patcher keeps every input line in order, adds two lines per change, and makes one change per block needing a temperature; a file needing none is returned unchanged; the output is the whole-file schedule of insertions |
| Patcher.SettingsFollowDescription | add_temperature_settings.py:63-80 | for every block that needs a temperature, its two settings lines follow the copy of its first description line, behind only the settings of earlier blocks aimed at the same line, so directly after it when there are none |
| Patcher.CopyPosition | add_temperature_settings.py:20-22 | any two input lines appear in the corrected output as copied, the later one at the later position |
| Patcher.RunPatched | add_temperature_settings.py:20-84 | the copy loop driven by the schedule of insertions ends with the whole-file output, from any point it is resumed |
| Patcher.CorrectionOnlyMattersWhenNeeded | add_temperature_settings.py:11-91 | the written and corrected patchers agree on a file with nothing to add; otherwise the written one raises where the corrected one changes something |
| Patcher.NeedCountPositive | add_temperature_settings.py:51 | a block needing a temperature makes the change count positive |
| Patcher.ProcessFiles | add_temperature_settings.py:100-109 | one outcome per file, in order, whether the earlier ones failed or not, and the total is the sum of the changes |
| Patcher.PatchFile | add_temperature_settings.py:105-109 | a missing file raises FileNotFoundError; a read file raises IndexError exactly when one of its blocks needs a temperature, and otherwise reports 0 changes |
| Patcher.TotalAlwaysZero | add_temperature_settings.py:100-109 | with the patcher as written the reported total is always 0 |

## Left out

- File and network I/O: opening, writing and zipping files, the containers, and the Azure OpenAI client. Each language-model answer is an input.
- Interactive configuration prompts, YAML loading, the certification report printing and the protocol-document template: terminal I/O and fixed text.
- Attachments (PDF object and xref layout with fixed offsets, docx, xlsx), `EmailMessage` assembly, X-Mailer and other metadata headers, and the large-log byte blob: library wrappers and binary output. Only the PDF text stream is modelled.
- `generate_standalone_email`, `generate_calendar_event` and `get_sender_name_from_prompt`: the scheduler treats a scenario's generator as an opaque worker function. The thread builder, the chat scenario and the calendar line builder are modelled.
- `get_temperature_for_scenario` and every probability threshold: floating point. Each branch outcome is a boolean or integer draw.
- Thread pool, locks and `as_completed` ordering: concurrency. The scheduler runs each worker right after its submission and collects reports in submission order.
- Global PRNG reseeding in `get_deterministic_id`, the Mersenne Twister, `uuid4`, `datetime.now` and strftime: opaque inputs. The id suffix is an uninterpreted function of the seed.
- Seconds of a `datetime` in the timestamp simulator: every step either carries them unchanged or is given minutes only.
- Slack avatar hashes, block ids and client message ids: random decoration that no other part reads.
- The language-model JSON is taken as well typed. Recipients are pairs (app.py:601, app.py:726), a `body` is a string whenever present (a `null` body would make `len()` raise at app.py:980 and app.py:1098), and a `sender_email` that is present but `null` (on which the Slack export's `split('@')` would raise) is treated as absent and replaced by the default address.
- Text.Lower: models `str.lower()` on ASCII letters only; other letters are left as they are.
- Webex.Title: models `str.title()` on ASCII letters only.
- A thread prompt that is a mapping without `prompt_templates`: the source then uses the mapping itself as the prompt text; the model has only plain texts and template lists.
- Slack.SortByTs: states that the result is a sorted permutation, not that the sort is stable.
- Prompts.Substitute: does not promise that no placeholder remains after its turn, because a chosen value can rebuild one (Prompts.ValueMayRebuildPlaceholder); it promises that every occurrence present is replaced in one left-to-right pass.
- Chat.DateText: states only the characters of `%Y-%m-%d`, not the field values, since the calendar rendering is an input.
- Chat.ClockText: states only the characters of `%H:%M:%S`.
- Scheduler.Schedule: the shuffles are supplied, one per pass; when they run out the loop is reported unfinished, because the source loops forever on passes that save nothing.
- Mail.InjectBlastRecipients: the non-terminating loop on an empty directory is modelled as no result.

## Findings

| source | as written | input that shows it | evidently intended | confidence | as-written member | corrected member |
|---|---|---|---|---|---|---|
| app.py:889 | the DESCRIPTION line escapes only line feeds | the descriptions "a" LF "b" and "a\nb" (a literal backslash and `n`) produce the same calendar file | TEXT escaping of section 3.3.11 of RFC 5545: backslash, semicolon, comma and line feed, so every description can be recovered | not executed | Calendar.IcsDescriptionsCollide | Calendar.DescriptionRecoverable |
| add_temperature_settings.py:63-68 | the insertion search indexes `modified[k]` for `k` from `i + 1`, but `modified` holds only the lines up to `i` plus earlier insertions | any file with a scenario block that has a `description:` line and no `llm_settings:` raises IndexError, so no file is ever patched and the total is 0 | insert the two settings lines after the block's first description line, keeping every input line | not executed | Patcher.AsWrittenRaisesOnFirstInsertion | Patcher.SettingsFollowDescription |

=== FILE: base.dfy ===
/** Small value types shared by every component of the corpus generator. */
module Base {

  /** Python's `None` / a present value. */
  datatype Option<+T> = None | Some(value: T) {
    function GetOr(default: T): T {
      match this
      case Some(v) => v
      case None => default
    }
  }

  /** A computation that either returns a value or raises a Python exception. */
  datatype Result<+T> = Ok(value: T) | Raised(error: string)

  /** `randint(lo, hi)` driven by a free draw `d`: every value of `lo..hi` is reachable. */
  function RandInt(lo: int, hi: int, d: nat): (r: int)
    requires lo <= hi
    ensures lo <= r <= hi
  {
    lo + d % (hi - lo + 1)
  }

  /** `random.choice(xs)` driven by a free draw `d`. */
  function Choice<T>(xs: seq<T>, d: nat): (r: T)
    requires |xs| > 0
    ensures r in xs
  {
    xs[d % |xs|]
  }

  /** Number of elements of `xs` satisfying `p`. */
  function CountWhere<T>(xs: seq<T>, p: T -> bool): nat {
    if |xs| == 0 then 0 else (if p(xs[0]) then 1 else 0) + CountWhere(xs[1..], p)
  }

  function Sum(xs: seq<nat>): nat {
    if |xs| == 0 then 0 else xs[0] + Sum(xs[1..])
  }

  lemma {:induction false} SumAppend(xs: seq<nat>, ys: seq<nat>)
    ensures Sum(xs + ys) == Sum(xs) + Sum(ys)
  {
    if |xs| == 0 {
      assert xs + ys == ys;
    } else {
      assert (xs + ys)[1..] == xs[1..] + ys;
      SumAppend(xs[1..], ys);
    }
  }

  /** `a` can be obtained from `b` by deleting elements. */
  predicate SubsequenceOf<T(==)>(a: seq<T>, b: seq<T>)
    decreases |b|
  {
    if |a| == 0 then true
    else if |b| == 0 then false
    else if a[0] == b[0] then SubsequenceOf(a[1..], b[1..])
    else SubsequenceOf(a, b[1..])
  }

  lemma {:induction false} SubsequenceDropHead<T>(a: seq<T>, b: seq<T>)
    requires |a| > 0 && SubsequenceOf(a, b)
    ensures SubsequenceOf(a[1..], b)
    decreases |b|, 0
  {
    if a[0] == b[0] {
      SubsequenceSkip(a[1..], b[1..], b[0]);
    } else {
      SubsequenceDropHead(a, b[1..]);
      SubsequenceSkip(a[1..], b[1..], b[0]);
    }
  }

  /** A subsequence of the tail is a subsequence of the whole. */
  lemma {:induction false} SubsequenceSkip<T>(a: seq<T>, b: seq<T>, x: T)
    requires SubsequenceOf(a, b)
    ensures SubsequenceOf(a, [x] + b)
    decreases |b|, 1
  {
    assert ([x] + b)[1..] == b;
    if |a| > 0 && a[0] == x {
      SubsequenceDropHead(a, b);
    }
  }

  /** A subsequence followed by a subsequence is a subsequence of the concatenation. */
  lemma {:induction false} SubsequenceConcat<T>(a: seq<T>, b: seq<T>, a2: seq<T>, b2: seq<T>)
    requires SubsequenceOf(a, b) && SubsequenceOf(a2, b2)
    ensures SubsequenceOf(a + a2, b + b2)
    decreases |b|
  {
    if |a| == 0 {
      assert a + a2 == a2;
      SubsequenceOfLonger(a2, b, b2);
    } else if a[0] == b[0] {
      SubsequenceConcat(a[1..], b[1..], a2, b2);
      assert (a + a2)[1..] == a[1..] + a2 && (b + b2)[1..] == b[1..] + b2;
    } else {
      SubsequenceConcat(a, b[1..], a2, b2);
      assert (b + b2)[1..] == b[1..] + b2;
    }
  }

  lemma {:induction false} SubsequenceOfLonger<T>(a: seq<T>, c: seq<T>, b: seq<T>)
    requires SubsequenceOf(a, b)
    ensures SubsequenceOf(a, c + b)
    decreases |c|
  {
    if |c| > 0 {
      SubsequenceOfLonger(a, c[1..], b);
      assert c + b == [c[0]] + (c[1..] + b);
      SubsequenceSkip(a, c[1..] + b, c[0]);
    } else {
      assert c + b == b;
    }
  }

  lemma {:induction false} SubsequenceRefl<T>(a: seq<T>)
    ensures SubsequenceOf(a, a)
  {
    if |a| > 0 {
      SubsequenceRefl(a[1..]);
    }
  }

  /** The first index from `from` on, below `n`, where `p` holds; `n` when there is none. */
  function FirstWhere(n: nat, p: nat -> bool, from: nat): (k: nat)
    requires from <= n
    ensures from <= k <= n
    ensures forall j | from <= j < k :: !p(j)
    ensures k < n ==> p(k)
    decreases n - from
  {
    if from == n then n else if p(from) then from else FirstWhere(n, p, from + 1)
  }

  /** Every element stands in relation `P` to the one before it. */
  predicate Chained<T>(xs: seq<T>, P: (T, T) -> bool) {
    forall k | 1 <= k < |xs| :: P(xs[k - 1], xs[k])
  }

  lemma ChainedSnoc<T>(xs: seq<T>, x: T, P: (T, T) -> bool)
    requires Chained(xs, P)
    requires |xs| > 0 ==> P(xs[|xs| - 1], x)
    ensures Chained(xs + [x], P)
  {
    var s := xs + [x];
    forall k | 1 <= k < |s| ensures P(s[k - 1], s[k]) {
      assert s[k - 1] == xs[k - 1];
      if k < |xs| {
        assert s[k] == xs[k];
      }
    }
  }

  /** Every element stands in relation `P` to its position. */
  predicate Indexed<T>(xs: seq<T>, P: (nat, T) -> bool) {
    forall k | 0 <= k < |xs| :: P(k, xs[k])
  }

  lemma IndexedSnoc<T>(xs: seq<T>, x: T, P: (nat, T) -> bool)
    requires Indexed(xs, P) && P(|xs|, x)
    ensures Indexed(xs + [x], P)
  {
    var s := xs + [x];
    forall k | 0 <= k < |s| ensures P(k, s[k]) {
      if k < |xs| {
        assert s[k] == xs[k];
      }
    }
  }
}

=== FILE: calendar.dfy ===
/**
 `create_and_save_calendar_event` as a builder of the lines of an iCalendar VEVENT
 (RFC 5545). The UID, the DTSTAMP text and the rendering of a time as
 `%Y%m%dT%H%M%SZ` are inputs.
 */
module Calendar {

  import opened Base
  import opened Text
  import opened Timestamps
  import opened Mail

  /** A calendar answer of the model; the keys were checked by `ValidateEvent`. */
  datatype Event = Event(summary: string, description: string, organizerName: string,
                         organizerEmail: string, attendees: seq<Address>)

  datatype RawEvent = RawEvent(keys: set<string>, content: Event)

  /** `generate_calendar_content_from_llm`: present, with every required key. */
  function ValidateEvent(raw: Option<RawEvent>): (r: Option<Event>)
    ensures r.Some? <==> raw.Some? && {"summary", "description", "organizer_name", "organizer_email", "attendees"} <= raw.value.keys
    ensures r.Some? ==> r.value == raw.value.content
  {
    if raw.Some? && "summary" in raw.value.keys && "description" in raw.value.keys
       && "organizer_name" in raw.value.keys && "organizer_email" in raw.value.keys
       && "attendees" in raw.value.keys
    then Some(raw.value.content)
    else None
  }

  /** The saved file name: `.ics` is appended unless already there. */
  function IcsFileName(name: string): (r: string)
    ensures EndsWith(r, ".ics")
    ensures EndsWith(name, ".ics") ==> r == name
    ensures StartsWith(r, name)
  {
    if EndsWith(name, ".ics") then name
    else
      var r := name + ".ics";
      assert r[|r| - 4..] == ".ics" && r[..|name|] == name;
      r
  }

  lemma IcsFileNameIdempotent(name: string)
    ensures IcsFileName(IcsFileName(name)) == IcsFileName(name)
  {
  }

  // ---------------------------------------------------------------------------
  // DESCRIPTION escaping

  /** The source's escaping: each line feed becomes the two characters `\n`, nothing else. */
  function EscapeLineFeeds(s: string): (r: string)
    ensures '\n' !in r
  {
    SubstChar(s, '\n', "\\n")
  }

  /** Two different descriptions, a line break and a literal backslash-n, come out the same, so
      a reader of the file cannot tell them apart. */
  lemma LineFeedEscapingCollides()
    ensures EscapeLineFeeds("a\nb") == EscapeLineFeeds("a\\nb")
    ensures "a\nb" != "a\\nb"
  {
    assert EscapeLineFeeds("a\nb") == "a\\nb";
    assert EscapeLineFeeds("a\\nb") == "a\\nb";
  }

  /** TEXT escaping of section 3.3.11 of RFC 5545: backslash, semicolon, comma and line feed. */
  function EscapeTextChar(c: char): string {
    if c == '\\' then "\\\\"
    else if c == ';' then "\\;"
    else if c == ',' then "\\,"
    else if c == '\n' then "\\n"
    else [c]
  }

  function EscapeText(s: string): (r: string)
    ensures '\n' !in r
  {
    if |s| == 0 then "" else EscapeTextChar(s[0]) + EscapeText(s[1..])
  }

  /** A reader's decoding of an RFC 5545 TEXT value. */
  function UnescapeText(s: string): string
    decreases |s|
  {
    if |s| == 0 then ""
    else if s[0] == '\\' && |s| >= 2 then
      [if s[1] == 'n' || s[1] == 'N' then '\n' else s[1]] + UnescapeText(s[2..])
    else [s[0]] + UnescapeText(s[1..])
  }

  /** With full escaping the reader recovers every description. */
  lemma {:induction false} EscapeTextRoundTrip(s: string)
    ensures UnescapeText(EscapeText(s)) == s
    decreases |s|
  {
    if |s| > 0 {
      EscapeTextRoundTrip(s[1..]);
      UnescapeEscapedChar(s[0], EscapeText(s[1..]));
      assert s == [s[0]] + s[1..];
    }
  }

  /** The reader decodes one escaped character and goes on with the rest. */
  lemma UnescapeEscapedChar(c: char, rest: string)
    ensures UnescapeText(EscapeTextChar(c) + rest) == [c] + UnescapeText(rest)
  {
    var e := EscapeTextChar(c);
    if |e| == 2 {
      assert (e + rest)[2..] == rest;
    } else {
      assert (e + rest)[1..] == rest;
    }
  }

  lemma EscapeTextInjective(a: string, b: string)
    requires EscapeText(a) == EscapeText(b)
    ensures a == b
  {
    EscapeTextRoundTrip(a);
    EscapeTextRoundTrip(b);
  }

  // ---------------------------------------------------------------------------
  // The VEVENT

  function AttendeeLines(xs: seq<Address>): (r: seq<string>)
    ensures |r| == |xs|
    ensures forall i | 0 <= i < |xs| :: r[i] == "ATTENDEE;CN=" + xs[i].name + ";ROLE=REQ-PARTICIPANT:mailto:" + xs[i].email
  {
    if |xs| == 0 then []
    else ["ATTENDEE;CN=" + xs[0].name + ";ROLE=REQ-PARTICIPANT:mailto:" + xs[0].email] + AttendeeLines(xs[1..])
  }

  const EventHours := 1

  /** The lines of the file around an already escaped description; the end is one hour after
      the start. */
  function EventLines(e: Event, description: string, uid: string, stamp: string, start: Time,
                      render: Time -> string): (lines: seq<string>)
    ensures |lines| == 13 + |e.attendees|
    ensures lines[0] == "BEGIN:VCALENDAR" && lines[3] == "BEGIN:VEVENT"
    ensures lines[|lines| - 2] == "END:VEVENT" && lines[|lines| - 1] == "END:VCALENDAR"
    ensures lines[4] == "UID:" + uid + "@mygenerator.com"
    ensures forall i | 0 <= i < |e.attendees| ::
              lines[7 + i] == "ATTENDEE;CN=" + e.attendees[i].name + ";ROLE=REQ-PARTICIPANT:mailto:" + e.attendees[i].email
    ensures var n := |e.attendees|;
            lines[7 + n] == "DTSTART:" + render(start)
            && lines[8 + n] == "DTEND:" + render(AddMinutes(start, 60 * EventHours))
    ensures lines[10 + |e.attendees|] == "DESCRIPTION:" + description
  {
    var head := ["BEGIN:VCALENDAR", "VERSION:2.0", "PRODID:-//MySyntheticDataGenerator//EN", "BEGIN:VEVENT",
                 "UID:" + uid + "@mygenerator.com", "DTSTAMP:" + stamp,
                 "ORGANIZER;CN=" + e.organizerName + ":mailto:" + e.organizerEmail];
    var tail := ["DTSTART:" + render(start), "DTEND:" + render(AddMinutes(start, 60 * EventHours)),
                 "SUMMARY:" + e.summary, "DESCRIPTION:" + description,
                 "END:VEVENT", "END:VCALENDAR"];
    head + AttendeeLines(e.attendees) + tail
  }

  /** The file as the source writes it: the DESCRIPTION line escapes line feeds only. */
  function IcsLines(e: Event, uid: string, stamp: string, start: Time, render: Time -> string): (lines: seq<string>)
    ensures |lines| == 13 + |e.attendees|
    ensures lines[0] == "BEGIN:VCALENDAR" && lines[|lines| - 1] == "END:VCALENDAR"
    ensures lines[10 + |e.attendees|] == "DESCRIPTION:" + EscapeLineFeeds(e.description)
    ensures '\n' !in lines[10 + |e.attendees|]
    ensures ('\n' !in e.description) ==> lines[10 + |e.attendees|] == "DESCRIPTION:" + e.description
  {
    NoLineFeedUnchanged(e.description);
    var lines := EventLines(e, EscapeLineFeeds(e.description), uid, stamp, start, render);
    NoLineFeedAfterPrefix("DESCRIPTION:", EscapeLineFeeds(e.description));
    lines
  }

  /** A text without line feeds is written as it is. */
  lemma NoLineFeedUnchanged(s: string)
    ensures '\n' !in s ==> EscapeLineFeeds(s) == s
  {
    if '\n' !in s {
      SubstCharAbsent(s, '\n', "\\n");
    }
  }

  lemma NoLineFeedAfterPrefix(p: string, s: string)
    requires '\n' !in p && '\n' !in s
    ensures '\n' !in p + s
  {
    assert forall i | 0 <= i < |p + s| :: (p + s)[i] == if i < |p| then p[i] else s[i - |p|];
  }

  /** The file with the DESCRIPTION escaped as TEXT, as section 3.3.11 of RFC 5545 requires. */
  function CorrectedIcsLines(e: Event, uid: string, stamp: string, start: Time, render: Time -> string): (lines: seq<string>)
    ensures |lines| == 13 + |e.attendees|
    ensures lines[0] == "BEGIN:VCALENDAR" && lines[|lines| - 1] == "END:VCALENDAR"
    ensures lines[10 + |e.attendees|] == "DESCRIPTION:" + EscapeText(e.description)
    ensures '\n' !in lines[10 + |e.attendees|]
    ensures forall i | 0 <= i < |lines| && i != 10 + |e.attendees| :: lines[i] == IcsLines(e, uid, stamp, start, render)[i]
  {
    var lines := EventLines(e, EscapeText(e.description), uid, stamp, start, render);
    NoLineFeedAfterPrefix("DESCRIPTION:", EscapeText(e.description));
    lines
  }

  /** The event lasts exactly one hour. */
  lemma EventLastsOneHour(start: Time)
    ensures ToMinutes(AddMinutes(start, 60 * EventHours)) == ToMinutes(start) + 60
  {
  }

  /** As written, two events differing only in a line break against a literal backslash-n
      produce the same file. */
  lemma IcsDescriptionsCollide(e: Event, uid: string, stamp: string, start: Time, render: Time -> string)
    ensures IcsLines(e.(description := "a\nb"), uid, stamp, start, render)
            == IcsLines(e.(description := "a\\nb"), uid, stamp, start, render)
  {
    LineFeedEscapingCollides();
  }

  /** With TEXT escaping the DESCRIPTION line decodes to the event's description. */
  lemma DescriptionRecoverable(e: Event, uid: string, stamp: string, start: Time, render: Time -> string)
    ensures var lines := CorrectedIcsLines(e, uid, stamp, start, render);
            var d := lines[10 + |e.attendees|];
            StartsWith(d, "DESCRIPTION:") && UnescapeText(d[|"DESCRIPTION:"|..]) == e.description
  {
    var lines := CorrectedIcsLines(e, uid, stamp, start, render);
    var d := lines[10 + |e.attendees|];
    assert d[|"DESCRIPTION:"|..] == EscapeText(e.description);
    EscapeTextRoundTrip(e.description);
  }
}

=== FILE: chat.dfy ===
/**
 What the three chat exports share: the model's chat answer, the message-length dependent
 pauses between messages, the list of distinct senders, and the ISO rendering of a time.
 Chat clocks count seconds; `start` is the chat's start time in seconds.
 */
module Chat {

  import opened Base
  import opened Text
  import opened Timestamps

  /** One entry of the answer's `messages` list; each key may be missing. */
  datatype ChatMessage = ChatMessage(senderName: Option<string>, senderEmail: Option<string>,
                                     body: Option<string>, threadTs: Option<string>)

  /** A parsed chat answer: whether it has a `messages` key holding a list, and that list. */
  datatype RawChat = RawChat(hasMessageList: bool, messages: seq<ChatMessage>)

  /** `generate_chat_content_from_llm`. */
  function ValidateChat(raw: Option<RawChat>): (r: Option<seq<ChatMessage>>)
    ensures r.Some? <==> raw.Some? && raw.value.hasMessageList
    ensures r.Some? ==> r.value == raw.value.messages
  {
    match raw
    case Some(c) => if c.hasMessageList then Some(c.messages) else None
    case None => None
  }

  function BodyText(m: ChatMessage): string {
    m.body.GetOr("")
  }

  // ---------------------------------------------------------------------------
  // Pauses

  /** The pause before a message of `length` characters, in seconds: 5-30 below 30
      characters, 20-120 below 100, 60-300 otherwise. */
  function LengthGap(length: nat, d: nat): (g: nat)
    ensures length < 30 ==> 5 <= g <= 30
    ensures 30 <= length < 100 ==> 20 <= g <= 120
    ensures 100 <= length ==> 60 <= g <= 300
  {
    if length < 30 then RandInt(5, 30, d) else if length < 100 then RandInt(20, 120, d) else RandInt(60, 300, d)
  }

  /** The clock after each message: each one `gap(i)` seconds after the one before. */
  function Clock(start: int, gaps: seq<nat>): (times: seq<int>)
    ensures |times| == |gaps|
    ensures forall i | 0 <= i < |gaps| :: times[i] == (if i == 0 then start else times[i - 1]) + gaps[i]
    decreases |gaps|
  {
    if |gaps| == 0 then []
    else
      var rest := Clock(start + gaps[0], gaps[1..]);
      [start + gaps[0]] + rest
  }

  /** With pauses of at least `lo` seconds the clock runs strictly forward. */
  lemma {:induction false} ClockIncreasing(start: int, gaps: seq<nat>, lo: nat)
    requires lo > 0 && forall i | 0 <= i < |gaps| :: gaps[i] >= lo
    ensures forall i, j | 0 <= i < j < |gaps| :: Clock(start, gaps)[i] + lo * (j - i) <= Clock(start, gaps)[j]
    ensures forall i | 0 <= i < |gaps| :: start + lo * (i + 1) <= Clock(start, gaps)[i]
  {
    var t := Clock(start, gaps);
    forall j | 0 <= j < |gaps|
      ensures forall i | 0 <= i < j :: t[i] + lo * (j - i) <= t[j]
      ensures start + lo * (j + 1) <= t[j]
    {
      ClockStep(start, gaps, lo, j);
    }
  }

  lemma {:induction false} ClockStep(start: int, gaps: seq<nat>, lo: nat, j: nat)
    requires lo > 0 && forall i | 0 <= i < |gaps| :: gaps[i] >= lo
    requires j < |gaps|
    ensures forall i | 0 <= i < j :: Clock(start, gaps)[i] + lo * (j - i) <= Clock(start, gaps)[j]
    ensures start + lo * (j + 1) <= Clock(start, gaps)[j]
    decreases j
  {
    var t := Clock(start, gaps);
    if j > 0 {
      ClockStep(start, gaps, lo, j - 1);
      assert t[j] == t[j - 1] + gaps[j];
      forall i | 0 <= i < j
        ensures t[i] + lo * (j - i) <= t[j]
      {
        if i < j - 1 {
          assert t[i] + lo * (j - 1 - i) <= t[j - 1];
        }
      }
    }
  }

  /** The pauses of a conversation drawn by message length. */
  function LengthGaps(msgs: seq<ChatMessage>, draws: seq<nat>): (gaps: seq<nat>)
    requires |draws| == |msgs|
    ensures |gaps| == |msgs|
    ensures forall i | 0 <= i < |msgs| :: gaps[i] == LengthGap(|BodyText(msgs[i])|, draws[i])
    ensures forall i | 0 <= i < |msgs| :: 5 <= gaps[i] <= 300
  {
    seq(|msgs|, i requires 0 <= i < |msgs| => LengthGap(|BodyText(msgs[i])|, draws[i]))
  }

  // ---------------------------------------------------------------------------
  // Distinct senders

  predicate Distinct(xs: seq<string>) {
    forall i, j | 0 <= i < j < |xs| :: xs[i] != xs[j]
  }

  /** The loop of `unique_senders` over addresses: `seen` grows by each address not yet in it. */
  function DedupFrom(xs: seq<string>, seen: seq<string>): (r: seq<string>)
    requires Distinct(seen)
    ensures Distinct(r)
    ensures forall a :: a in r <==> a in seen || a in xs
    ensures |seen| <= |r| <= |seen| + |xs| && r[..|seen|] == seen
    decreases |xs|
  {
    if |xs| == 0 then seen
    else if xs[0] in seen then DedupFrom(xs[1..], seen)
    else
      var r := DedupFrom(xs[1..], seen + [xs[0]]);
      assert r[..|seen|] == r[..|seen| + 1][..|seen|];
      r
  }

  /** Each address once, in order of first appearance. */
  function Dedup(xs: seq<string>): (r: seq<string>)
    ensures Distinct(r) && |r| <= |xs|
    ensures forall a :: a in r <==> a in xs
    ensures |xs| > 0 ==> |r| > 0 && r[0] == xs[0]
  {
    if |xs| == 0 then []
    else
      var r := DedupFrom(xs[1..], [xs[0]]);
      assert r[..1] == [xs[0]];
      r
  }

  /** A list without repetitions is left as it is. */
  lemma {:induction false} DedupFromDistinct(xs: seq<string>, seen: seq<string>)
    requires Distinct(seen) && Distinct(seen + xs)
    ensures DedupFrom(xs, seen) == seen + xs
    decreases |xs|
  {
    if |xs| > 0 {
      assert xs[0] == (seen + xs)[|seen|];
      assert xs[0] !in seen by {
        forall i | 0 <= i < |seen| ensures seen[i] != xs[0] {
          assert seen[i] == (seen + xs)[i];
        }
      }
      assert seen + xs == (seen + [xs[0]]) + xs[1..];
      DedupFromDistinct(xs[1..], seen + [xs[0]]);
    }
  }

  lemma DedupDistinct(xs: seq<string>)
    requires Distinct(xs)
    ensures Dedup(xs) == xs
  {
    if |xs| > 0 {
      assert [xs[0]] + xs[1..] == xs;
      DedupFromDistinct(xs[1..], [xs[0]]);
    }
  }

  /** The email a message is filed under, with the export's default. */
  function SenderOf(m: ChatMessage, defaultEmail: string): string {
    m.senderEmail.GetOr(defaultEmail)
  }

  function Senders(msgs: seq<ChatMessage>, defaultEmail: string): (r: seq<string>)
    ensures |r| == |msgs|
    ensures forall i | 0 <= i < |msgs| :: r[i] == SenderOf(msgs[i], defaultEmail)
  {
    seq(|msgs|, i requires 0 <= i < |msgs| => SenderOf(msgs[i], defaultEmail))
  }

  /** Where `e` first occurs in `xs`. */
  function FirstIndex(xs: seq<string>, e: string): (i: nat)
    requires e in xs
    ensures i < |xs| && xs[i] == e && e !in xs[..i]
  {
    if xs[0] == e then 0
    else
      var i := FirstIndex(xs[1..], e);
      assert xs[..i + 1] == [xs[0]] + xs[1..][..i];
      i + 1
  }

  /** The name of the first message from an address that occurs among the senders. */
  function FirstName(msgs: seq<ChatMessage>, defaultEmail: string, defaultName: string, email: string): string
    requires email in Senders(msgs, defaultEmail)
  {
    msgs[FirstIndex(Senders(msgs, defaultEmail), email)].senderName.GetOr(defaultName)
  }

  /** `unique_senders`: every sending address once, in order of first appearance, each with
      the name of its first message (`defaultName` when that message has none). */
  function UniqueSenders(msgs: seq<ChatMessage>, defaultEmail: string, defaultName: string): (r: seq<(string, string)>)
    ensures |r| <= |msgs|
    ensures forall i, j | 0 <= i < j < |r| :: r[i].0 != r[j].0
    ensures forall k | 0 <= k < |r| :: r[k].0 in Senders(msgs, defaultEmail)
  {
    var emails := Dedup(Senders(msgs, defaultEmail));
    seq(|emails|, k requires 0 <= k < |emails| => (emails[k], FirstName(msgs, defaultEmail, defaultName, emails[k])))
  }

  /** Every sender of the conversation is among the participants. */
  lemma UniqueSendersCover(msgs: seq<ChatMessage>, defaultEmail: string, defaultName: string, i: nat)
    requires i < |msgs|
    ensures exists k | 0 <= k < |UniqueSenders(msgs, defaultEmail, defaultName)| ::
              UniqueSenders(msgs, defaultEmail, defaultName)[k].0 == SenderOf(msgs[i], defaultEmail)
  {
    var senders := Senders(msgs, defaultEmail);
    var emails := Dedup(senders);
    var r := UniqueSenders(msgs, defaultEmail, defaultName);
    assert senders[i] in emails;
    var k :| 0 <= k < |emails| && emails[k] == senders[i];
    assert r[k].0 == emails[k];
  }

  /** `name` is the name given by the first message from `email` (`defaultName` when that
      message has none). */
  predicate FirstNamed(msgs: seq<ChatMessage>, defaultEmail: string, defaultName: string, email: string, name: string) {
    exists i | 0 <= i < |msgs| ::
      && SenderOf(msgs[i], defaultEmail) == email && msgs[i].senderName.GetOr(defaultName) == name
      && forall h | 0 <= h < i :: SenderOf(msgs[h], defaultEmail) != email
  }

  /** Every participant is a sender, named by its first message. */
  lemma UniqueSendersNamed(msgs: seq<ChatMessage>, defaultEmail: string, defaultName: string)
    ensures var r := UniqueSenders(msgs, defaultEmail, defaultName);
            forall k | 0 <= k < |r| :: FirstNamed(msgs, defaultEmail, defaultName, r[k].0, r[k].1)
  {
    var r := UniqueSenders(msgs, defaultEmail, defaultName);
    forall k | 0 <= k < |r| ensures FirstNamed(msgs, defaultEmail, defaultName, r[k].0, r[k].1) {
      UniqueSendersFirstName(msgs, defaultEmail, defaultName, k);
    }
  }

  /** Each participant carries the name of the first message from that address. */
  lemma UniqueSendersFirstName(msgs: seq<ChatMessage>, defaultEmail: string, defaultName: string, k: nat)
    requires k < |UniqueSenders(msgs, defaultEmail, defaultName)|
    ensures exists i | 0 <= i < |msgs| ::
              && UniqueSenders(msgs, defaultEmail, defaultName)[k] == (SenderOf(msgs[i], defaultEmail), msgs[i].senderName.GetOr(defaultName))
              && forall h | 0 <= h < i :: SenderOf(msgs[h], defaultEmail) != SenderOf(msgs[i], defaultEmail)
  {
    var senders := Senders(msgs, defaultEmail);
    var r := UniqueSenders(msgs, defaultEmail, defaultName);
    var i := FirstIndex(senders, r[k].0);
    forall h | 0 <= h < i ensures SenderOf(msgs[h], defaultEmail) != SenderOf(msgs[i], defaultEmail) {
      assert senders[..i][h] == senders[h];
    }
  }

  // ---------------------------------------------------------------------------
  // ISO rendering

  /** A start time on the seconds clock of the chats. */
  function Seconds(t: Time): (r: int)
    ensures r % 60 == 0 && r / 60 == ToMinutes(t)
  {
    WholeMinutes(ToMinutes(t));
    ToMinutes(t) * 60
  }

  lemma WholeMinutes(m: int)
    ensures (m * 60) % 60 == 0 && (m * 60) / 60 == m
  {
    var q, r := (m * 60) / 60, (m * 60) % 60;
    assert m * 60 == 60 * q + r;
    assert 60 * (m - q) == r;
  }

  /** Distinct start times are distinct instants, and moving a start by some minutes moves
      its instant by sixty times as many seconds. */
  lemma SecondsFaithful(t: Time, u: Time, delta: int)
    ensures Seconds(t) == Seconds(u) ==> t == u
    ensures Seconds(AddMinutes(t, delta)) == Seconds(t) + 60 * delta
  {
    if Seconds(t) == Seconds(u) {
      ToMinutesInjective(t, u);
    }
  }

  /** A broken-down calendar time, as `strftime` sees it. */
  datatype Civil = Civil(year: nat, month: nat, day: nat, hour: nat, minute: nat, second: nat)

  /** `n` in decimal, left-padded with zeros to `width`. */
  function ZeroPad(n: nat, width: nat): (r: string)
    ensures |r| >= width
    ensures forall i | 0 <= i < |r| :: IsDigit(r[i])
  {
    var s := NatToString(n);
    if |s| >= width then s else seq(width - |s|, _ => '0') + s
  }

  /** `%Y-%m-%d`. */
  function DateText(c: Civil): (r: string)
    ensures '-' in r
  {
    var y := ZeroPad(c.year, 4);
    var r := y + "-" + ZeroPad(c.month, 2) + "-" + ZeroPad(c.day, 2);
    assert r[|y|] == '-';
    r
  }

  /** `%H:%M:%S`. */
  function ClockText(c: Civil): (r: string)
    ensures forall i | 0 <= i < |r| :: IsDigit(r[i]) || r[i] == ':'
  {
    ZeroPad(c.hour, 2) + ":" + ZeroPad(c.minute, 2) + ":" + ZeroPad(c.second, 2)
  }
}

=== FILE: chatscenario.dfy ===
/**
 `generate_chat_scenario`: one chat answer of the model exported to the formats the run
 asks for. The exports are called in the order Slack, Teams (RSMF), Webex; an exception
 in the Slack export propagates out of the scenario.
 */
module ChatScenario {

  import opened Base
  import opened Identity
  import opened Timestamps
  import Personnel
  import opened Chat
  import opened Stats
  import Slack
  import Rsmf
  import Webex
  import Prompts

  predicate WantsSlack(format: string) { format == "slack" || format == "all" }
  predicate WantsTeams(format: string) { format == "teams" || format == "all" }
  predicate WantsWebex(format: string) { format == "webex" || format == "all" }

  /** How many exports a format names. */
  function ExportCount(format: string): nat {
    (if WantsSlack(format) then 1 else 0) + (if WantsTeams(format) then 1 else 0) + (if WantsWebex(format) then 1 else 0)
  }

  /** Everything the exports draw: pauses for each export, the seeded id suffixes and the
      local calendar. */
  datatype ChatDraws = ChatDraws(slack: seq<nat>, decorations: seq<Slack.Decoration>, teams: seq<nat>,
                                 teamsDecorations: seq<Slack.Decoration>, webex: seq<nat>, ids: nat -> Suffix, calendar: int -> Civil)

  predicate DrawsFit(msgs: seq<ChatMessage>, d: ChatDraws) {
    |d.slack| == |msgs| && |d.decorations| == |msgs| && |d.teams| == |msgs| && |d.teamsDecorations| == |msgs| && |d.webex| == |msgs|
  }

  datatype ChatRun = ChatRun(result: Result<nat>, workspace: Slack.Workspace, stats: Stats,
                             rsmf: Option<Rsmf.Manifest>, webex: Option<Webex.WebexExport>)

  /** The scenario after the answer was checked: returns 1 whenever the answer had a message
      list, whichever formats (possibly none) were named. */
  function RunExports(format: string, msgs: seq<ChatMessage>, ws: Slack.Workspace, dir: Personnel.Directory,
                      base: string, start: Time, d: ChatDraws, s: Stats): (r: ChatRun)
    requires DrawsFit(msgs, d)
    ensures r.result.Raised? <==> WantsSlack(format) && Slack.SlackExport(ws, dir, base, msgs, start, d.slack, d.decorations, d.ids, s).error.Some?
    ensures r.result.Ok? ==> r.result.value == 1
    ensures Consistent(s) ==> Consistent(r.stats)
    ensures r.result.Ok? ==> r.stats.rsmfChats == s.rsmfChats + ExportCount(format)
    ensures r.result.Raised? ==> r.stats == s
    ensures r.rsmf.Some? <==> r.result.Ok? && WantsTeams(format)
    ensures r.webex.Some? <==> r.result.Ok? && WantsWebex(format)
    ensures !WantsSlack(format) ==> r.workspace == ws
  {
    var slack := if WantsSlack(format) then Slack.SlackExport(ws, dir, base, msgs, start, d.slack, d.decorations, d.ids, s)
                 else Slack.Outcome(ws, s, None);
    if slack.error.Some? then ChatRun(Raised(slack.error.value), slack.workspace, s, None, None)
    else
      var s1 := slack.stats;
      var teams := if WantsTeams(format) then Some(Rsmf.RsmfManifest(base, msgs, Seconds(start), d.teams, d.teamsDecorations, d.calendar)) else None;
      var s2 := if WantsTeams(format) then Rsmf.RecordRsmf(s1, msgs, start) else s1;
      var webex := if WantsWebex(format) then Some(Webex.WebexExportOf(base, msgs, Seconds(start), d.webex, d.ids, d.calendar)) else None;
      var s3 := if WantsWebex(format) then Webex.RecordWebex(s2, base, msgs, start) else s2;
      ChatRun(Ok(1), slack.workspace, s3, teams, webex)
  }

  const NoPrompt := "IndexError: list index out of range"

  /** `prompts[0]` randomized by `get_randomized_prompt`: an empty prompt list raises, and so
      does every failure of the randomization. */
  function PromptStep(prompts: seq<Prompts.Template>, vars: Prompts.Variables, dir: Personnel.Directory,
                      runCount: int, pd: Prompts.PromptDraws): (r: Result<string>)
    ensures |prompts| == 0 ==> r == Raised(NoPrompt)
    ensures |prompts| > 0 ==> r == Prompts.GetRandomizedPrompt(prompts[0], vars, dir, runCount, pd)
  {
    if |prompts| == 0 then Raised(NoPrompt) else Prompts.GetRandomizedPrompt(prompts[0], vars, dir, runCount, pd)
  }

  /** The whole scenario. The prompt is randomized before the model is asked, so its exception
      leaves everything untouched; then 0 when the answer is missing or has no message list. */
  function GenerateChatScenario(format: string, prompts: seq<Prompts.Template>, vars: Prompts.Variables,
                                runCount: int, pd: Prompts.PromptDraws, raw: Option<RawChat>,
                                ws: Slack.Workspace, dir: Personnel.Directory,
                                base: string, start: Time, d: ChatDraws, s: Stats): (r: ChatRun)
    requires raw.Some? ==> DrawsFit(raw.value.messages, d)
    ensures PromptStep(prompts, vars, dir, runCount, pd).Raised? ==>
              r == ChatRun(Raised(PromptStep(prompts, vars, dir, runCount, pd).error), ws, s, None, None)
    ensures r.result == Ok(0) <==> PromptStep(prompts, vars, dir, runCount, pd).Ok? && ValidateChat(raw).None?
    ensures r.result.Raised? <==>
              || PromptStep(prompts, vars, dir, runCount, pd).Raised?
              || (&& ValidateChat(raw).Some? && WantsSlack(format)
                  && Slack.SlackExport(ws, dir, base, raw.value.messages, start, d.slack, d.decorations, d.ids, s).error.Some?)
    ensures r.result.Ok? ==> r.result.value <= 1
    ensures ValidateChat(raw).None? ==> r.stats == s && r.workspace == ws && r.rsmf.None? && r.webex.None?
    ensures Consistent(s) ==> Consistent(r.stats)
  {
    match PromptStep(prompts, vars, dir, runCount, pd)
    case Raised(e) => ChatRun(Raised(e), ws, s, None, None)
    case Ok(_) =>
      match ValidateChat(raw)
      case None => ChatRun(Ok(0), ws, s, None, None)
      case Some(msgs) => RunExports(format, msgs, ws, dir, base, start, d, s)
  }

  /** An empty prompt list raises `IndexError` before anything is asked or written. */
  lemma EmptyPromptListRaises(format: string, vars: Prompts.Variables, runCount: int, pd: Prompts.PromptDraws,
                              raw: Option<RawChat>, ws: Slack.Workspace, dir: Personnel.Directory,
                              base: string, start: Time, d: ChatDraws, s: Stats)
    requires raw.Some? ==> DrawsFit(raw.value.messages, d)
    ensures var r := GenerateChatScenario(format, [], vars, runCount, pd, raw, ws, dir, base, start, d, s);
            r.result == Raised(NoPrompt) && r.stats == s && r.workspace == ws
  {
  }

  /** With `all`, a successful run counts three chats. */
  lemma AllFormatsCountThree(msgs: seq<ChatMessage>, ws: Slack.Workspace, dir: Personnel.Directory,
                             base: string, start: Time, d: ChatDraws, s: Stats)
    requires DrawsFit(msgs, d)
    requires RunExports("all", msgs, ws, dir, base, start, d, s).result.Ok?
    ensures RunExports("all", msgs, ws, dir, base, start, d, s).stats.rsmfChats == s.rsmfChats + 3
  {
  }

  /** A format name the scenario does not know exports nothing and still reports one item. */
  lemma UnknownFormatStillCounts(format: string, msgs: seq<ChatMessage>, ws: Slack.Workspace, dir: Personnel.Directory,
                                 base: string, start: Time, d: ChatDraws, s: Stats)
    requires DrawsFit(msgs, d)
    requires !WantsSlack(format) && !WantsTeams(format) && !WantsWebex(format)
    ensures RunExports(format, msgs, ws, dir, base, start, d, s) == ChatRun(Ok(1), ws, s, None, None)
  {
  }
}

=== FILE: custodians.dfy ===
/**
 The pure parts of `create_and_save_email`: the sender's signature appended to the body, and
 the custodian fan-out that writes one copy of the message per valid participant address
 into a folder named after the address's local part.
 */
module Custodians {

  import opened Base
  import opened Text
  import Personnel
  import opened Mail

  const SignatureSeparator := "\n\n-- \n"

  /** The sender's profile signature, appended when the profile has one and the draw
      (`random() < 0.6`) says so. */
  function AppendSignature(e: Email, d: Personnel.Directory, draw: bool): (r: Email)
    ensures r.(body := e.body) == e
    ensures StartsWith(r.body, e.body)
    ensures r != e <==> draw && Personnel.Lookup(d, e.senderEmail).Some?
                        && Personnel.Lookup(d, e.senderEmail).value.signature != ""
  {
    match Personnel.Lookup(d, e.senderEmail)
    case Some(p) =>
      if p.signature != "" && draw then
        var body := e.body + SignatureSeparator + p.signature;
        assert body[..|e.body|] == e.body;
        assert |body| > |e.body|;
        e.(body := body)
      else e
    case None => e
  }

  /** An address that may own a folder: it holds an `@`. */
  predicate ValidAddress(a: string) {
    '@' in a
  }

  function ValidEmails(xs: seq<Address>): (r: seq<string>)
    ensures forall a :: a in r <==> ValidAddress(a) && exists i | 0 <= i < |xs| :: xs[i].email == a
  {
    if |xs| == 0 then []
    else
      var rest := ValidEmails(xs[1..]);
      assert forall i | 1 <= i < |xs| :: xs[i] == xs[1..][i - 1];
      (if ValidAddress(xs[0].email) then [xs[0].email] else []) + rest
  }

  /** `all_custodians`: the sender, then recipients, cc and bcc, keeping valid addresses. */
  function CustodianList(e: Email): seq<string> {
    (if ValidAddress(e.senderEmail) then [e.senderEmail] else [])
      + ValidEmails(e.recipients) + ValidEmails(e.cc) + ValidEmails(e.bcc)
  }

  predicate Participant(e: Email, a: string) {
    || a == e.senderEmail
    || (exists i | 0 <= i < |e.recipients| :: e.recipients[i].email == a)
    || (exists i | 0 <= i < |e.cc| :: e.cc[i].email == a)
    || (exists i | 0 <= i < |e.bcc| :: e.bcc[i].email == a)
  }

  /** `set(all_custodians)`: every valid address taking part in the message, once. */
  function CustodianAddresses(e: Email): (r: set<string>)
    ensures forall a :: a in r <==> ValidAddress(a) && Participant(e, a)
  {
    var xs := CustodianList(e);
    set a | a in xs
  }

  /** The folder of an address: `address.split('@')[0]`. */
  function Folder(a: string): string {
    Before(a, '@')
  }

  /** The folders the message is written into. */
  function CustodianFolders(e: Email): (r: set<string>)
    ensures forall f | f in r :: '@' !in f
    ensures |r| <= |CustodianAddresses(e)|
    ensures forall a | ValidAddress(a) && Participant(e, a) :: Folder(a) in r
  {
    var addrs := CustodianAddresses(e);
    ImageNoLarger(addrs);
    set a | a in addrs :: Folder(a)
  }

  lemma ImageNoLarger(s: set<string>)
    ensures |set a | a in s :: Folder(a)| <= |s|
    decreases |s|
  {
    if s != {} {
      var x :| x in s;
      var rest := s - {x};
      ImageNoLarger(rest);
      assert (set a | a in s :: Folder(a)) == (set a | a in rest :: Folder(a)) + {Folder(x)};
    }
  }

  lemma {:induction false} ImageSmallerOnCollision(s: set<string>, x: string, y: string)
    requires x in s && y in s && x != y && Folder(x) == Folder(y)
    ensures |set a | a in s :: Folder(a)| < |s|
  {
    var rest := s - {x};
    ImageNoLarger(rest);
    assert (set a | a in s :: Folder(a)) == (set a | a in rest :: Folder(a));
  }

  /** Two participant addresses with the same local part share one folder, so the message is
      written to fewer folders than there are addresses and one copy overwrites the other. */
  lemma SharedLocalPartSharesFolder(e: Email, a: string, b: string)
    requires ValidAddress(a) && Participant(e, a) && ValidAddress(b) && Participant(e, b)
    requires a != b && Folder(a) == Folder(b)
    ensures |CustodianFolders(e)| < |CustodianAddresses(e)|
  {
    ImageSmallerOnCollision(CustodianAddresses(e), a, b);
  }
}

=== FILE: identity.dfy ===
/**
 The identity deriver (`get_deterministic_id`). The seed is the sum of the key's code
 points; the eight-character suffix the reseeded generator draws from that seed is an
 uninterpreted function of the seed, passed in as `draw`.
 */
module Identity {

  const HexAlphabet := "0123456789ABCDEF"

  /** Eight characters over `0-9A-F`: what `random.choices(HexAlphabet, k=8)` can produce. */
  type Suffix = s: string | |s| == 8 && forall i | 0 <= i < |s| :: s[i] in HexAlphabet
    witness "00000000"

  /** `sum(ord(c) for c in key)`. */
  function CodeSum(key: string): nat {
    if |key| == 0 then 0 else key[0] as nat + CodeSum(key[1..])
  }

  /** `get_deterministic_id(key, prefix)`: the prefix, then the suffix drawn from the key's seed. */
  function DeterministicId(key: string, prefix: string, draw: nat -> Suffix): (id: string)
    ensures |id| == |prefix| + 8
    ensures id[..|prefix|] == prefix
    ensures forall i | |prefix| <= i < |id| :: id[i] in HexAlphabet
    ensures id[|prefix|..] == draw(CodeSum(key))
  {
    prefix + draw(CodeSum(key))
  }

  // ---------------------------------------------------------------------------
  // Properties

  lemma {:induction false} CodeSumAppend(a: string, b: string)
    ensures CodeSum(a + b) == CodeSum(a) + CodeSum(b)
  {
    if |a| == 0 {
      assert a + b == b;
    } else {
      assert (a + b)[1..] == a[1..] + b;
      CodeSumAppend(a[1..], b);
    }
  }

  /** Removing the character at `i` removes its code from the sum. */
  lemma CodeSumRemove(s: string, i: nat)
    requires i < |s|
    ensures CodeSum(s) == s[i] as nat + CodeSum(s[..i] + s[i + 1..])
  {
    var tail := [s[i]] + s[i + 1..];
    SplitAt(s, i);
    CodeSumCons(s[i], s[i + 1..]);
    CodeSumAppend(s[..i], tail);
    CodeSumAppend(s[..i], s[i + 1..]);
  }

  lemma SplitAt(s: string, i: nat)
    requires i < |s|
    ensures s == s[..i] + ([s[i]] + s[i + 1..])
  {
  }

  lemma CodeSumCons(c: char, t: string)
    ensures CodeSum([c] + t) == c as nat + CodeSum(t)
  {
    assert ([c] + t)[1..] == t;
  }

  lemma MultisetRemove(s: string, i: nat)
    requires i < |s|
    ensures multiset(s[..i] + s[i + 1..]) == multiset(s) - multiset{s[i]}
  {
    assert s == s[..i] + [s[i]] + s[i + 1..];
    assert multiset(s) == multiset(s[..i]) + multiset{s[i]} + multiset(s[i + 1..]);
  }

  /** Where the first character of `a` sits in a permutation `b` of it, and what is left. */
  lemma MatchFirst(a: string, b: string) returns (i: nat)
    requires multiset(a) == multiset(b) && |a| > 0
    ensures i < |b| && b[i] == a[0]
    ensures multiset(a[1..]) == multiset(b[..i] + b[i + 1..])
  {
    assert a[0] in multiset(b);
    i :| 0 <= i < |b| && b[i] == a[0];
    MultisetRemove(b, i);
    MultisetRemove(a, 0);
    assert a[..0] + a[1..] == a[1..];
  }

  /** The seed only depends on the multiset of characters of the key. */
  lemma {:induction false} CodeSumPermutation(a: string, b: string)
    requires multiset(a) == multiset(b)
    ensures CodeSum(a) == CodeSum(b)
    decreases |a|
  {
    if |a| == 0 {
      assert |b| == |multiset(b)| == 0;
    } else {
      var i := MatchFirst(a, b);
      CodeSumRemove(b, i);
      CodeSumPermutation(a[1..], b[..i] + b[i + 1..]);
    }
  }

  /** Keys with the same characters, such as anagrams, receive the same identifier. */
  lemma AnagramsShareId(a: string, b: string, prefix: string, draw: nat -> Suffix)
    requires multiset(a) == multiset(b)
    ensures DeterministicId(a, prefix, draw) == DeterministicId(b, prefix, draw)
  {
    CodeSumPermutation(a, b);
  }

  /** Distinct keys with equal code sums collide whatever the generator draws: "ad" and "bc"
      (97 + 100 == 98 + 99) get the same identifier. */
  lemma DistinctKeysCollide(prefix: string, draw: nat -> Suffix)
    ensures "ad" != "bc"
    ensures DeterministicId("ad", prefix, draw) == DeterministicId("bc", prefix, draw)
  {
    assert CodeSum("ad") == 197 == CodeSum("bc");
  }
}

=== FILE: mail.dfy ===
/**
 Email content as the generator handles it between the model's JSON answer and the files:
 validation of the answer, the reply quote, near-duplicate variations and the
 "blast" stress test that floods the recipient list.
 */
module Mail {

  import opened Base
  import opened Text
  import Personnel

  /** A `[name, address]` pair of a recipient list. */
  datatype Address = Address(name: string, email: string)

  /** An email dict; an absent `cc_recipients` / `bcc_recipients` key is an empty list. */
  datatype Email = Email(subject: string, body: string, senderName: string, senderEmail: string,
                         recipients: seq<Address>, cc: seq<Address>, bcc: seq<Address>)

  /** A parsed model answer: the keys the JSON object holds, and their values. */
  datatype RawEmail = RawEmail(keys: set<string>, content: Email)

  const RequiredKeys: seq<string> := ["subject", "body", "sender_name", "sender_email", "recipients"]

  predicate HasAll(keys: set<string>, names: seq<string>) {
    forall k | 0 <= k < |names| :: names[k] in keys
  }

  /** `generate_email_content_from_llm`: an answer is kept only when it is present and carries
      every required key. */
  function ValidateEmail(raw: Option<RawEmail>): (r: Option<Email>)
    ensures r.Some? <==> raw.Some? && {"subject", "body", "sender_name", "sender_email", "recipients"} <= raw.value.keys
    ensures r.Some? ==> r.value == raw.value.content
  {
    if raw.Some? && HasAll(raw.value.keys, RequiredKeys) then
      RequiredKeysAsSet(raw.value.keys);
      Some(raw.value.content)
    else
      if raw.Some? then RequiredKeysAsSet(raw.value.keys); None else None
  }

  lemma RequiredKeysAsSet(keys: set<string>)
    ensures HasAll(keys, RequiredKeys) <==> {"subject", "body", "sender_name", "sender_email", "recipients"} <= keys
  {
    assert RequiredKeys[0] == "subject" && RequiredKeys[1] == "body" && RequiredKeys[2] == "sender_name";
    assert RequiredKeys[3] == "sender_email" && RequiredKeys[4] == "recipients";
  }

  // ---------------------------------------------------------------------------
  // Reply quote

  /** The line boundaries of Python's `str.splitlines` (`\r\n` counts as one). */
  predicate IsLineBreak(c: char) {
    c == '\n' || c == '\r' || c == '\U{0B}' || c == '\U{0C}' || ('\U{1C}' <= c <= '\U{1E}')
    || c == '\U{85}' || c == '\U{2028}' || c == '\U{2029}'
  }

  function LineLength(s: string): (n: nat)
    ensures n <= |s|
    ensures forall i | 0 <= i < n :: !IsLineBreak(s[i])
    ensures n < |s| ==> IsLineBreak(s[n])
  {
    if |s| == 0 || IsLineBreak(s[0]) then 0 else 1 + LineLength(s[1..])
  }

  /** A line holding no line boundary. */
  predicate Unbroken(line: string) {
    forall i | 0 <= i < |line| :: !IsLineBreak(line[i])
  }

  /** Python `s.splitlines()`: no trailing empty line, and `""` has no lines. */
  function SplitLines(s: string): (lines: seq<string>)
    ensures forall k | 0 <= k < |lines| :: Unbroken(lines[k])
    ensures |s| > 0 <==> |lines| > 0
    decreases |s|
  {
    if |s| == 0 then [] else [s[..LineLength(s)]] + SplitLines(AfterLine(s))
  }

  /** What follows the first line and its boundary. */
  function AfterLine(s: string): (r: string)
    requires |s| > 0
    ensures |r| < |s|
    ensures LineLength(s) < |s| && s[LineLength(s)] == '\n' ==> r == s[LineLength(s) + 1..]
  {
    var n := LineLength(s);
    if n == |s| then ""
    else
      var width := if s[n] == '\r' && n + 1 < |s| && s[n + 1] == '\n' then 2 else 1;
      s[n + width..]
  }

  /** Text whose only line boundary is `\n`. */
  predicate OnlyNewlines(s: string) {
    forall i | 0 <= i < |s| :: IsLineBreak(s[i]) ==> s[i] == '\n'
  }

  /** Splitting at a `\n`: the first line, then the lines of the rest. */
  lemma SplitLinesAtNewline(s: string)
    requires LineLength(s) < |s| && s[LineLength(s)] == '\n'
    ensures SplitLines(s) == [s[..LineLength(s)]] + SplitLines(s[LineLength(s) + 1..])
  {
    assert AfterLine(s) == s[LineLength(s) + 1..];
  }

  /** Text whose only line boundary is `\n` and that does not end with one is rebuilt by
      joining its lines with `\n`. */
  lemma {:induction false} SplitLinesJoin(s: string)
    requires OnlyNewlines(s)
    requires |s| > 0 ==> s[|s| - 1] != '\n'
    ensures Join(SplitLines(s), "\n") == s
    decreases |s|
  {
    if |s| > 0 {
      var n := LineLength(s);
      if n < |s| {
        OnlyNewlinesRest(s);
        SplitLinesJoin(s[n + 1..]);
        JoinFirstLine(s);
      } else {
        SingleLine(s);
      }
    }
  }

  lemma SingleLine(s: string)
    requires |s| > 0 && LineLength(s) == |s|
    ensures Join(SplitLines(s), "\n") == s
  {
    assert AfterLine(s) == "";
    assert SplitLines("") == [];
    assert s[..LineLength(s)] == s;
    assert SplitLines(s) == [s] + [];
  }

  /** Past the first line boundary of such a text there is more of it, and it is of the
      same kind. */
  lemma OnlyNewlinesRest(s: string)
    requires OnlyNewlines(s) && |s| > 0 && s[|s| - 1] != '\n' && LineLength(s) < |s|
    ensures s[LineLength(s)] == '\n' && LineLength(s) + 1 < |s|
    ensures var rest := s[LineLength(s) + 1..]; OnlyNewlines(rest) && rest[|rest| - 1] != '\n'
  {
    var n := LineLength(s);
    var rest := s[n + 1..];
    forall i | 0 <= i < |rest| ensures IsLineBreak(rest[i]) ==> rest[i] == '\n' {
      assert rest[i] == s[n + 1 + i];
    }
  }

  /** The join step: the first line, a `\n`, and the rejoined rest give back the text. */
  lemma JoinFirstLine(s: string)
    requires LineLength(s) + 1 < |s| && s[LineLength(s)] == '\n'
    requires Join(SplitLines(s[LineLength(s) + 1..]), "\n") == s[LineLength(s) + 1..]
    ensures Join(SplitLines(s), "\n") == s
  {
    var n := LineLength(s);
    SplitLinesAtNewline(s);
    JoinCons(s[..n], SplitLines(s[n + 1..]), "\n");
    Around(s, n);
  }

  lemma Around(s: string, n: nat)
    requires n < |s|
    ensures s == s[..n] + [s[n]] + s[n + 1..]
  {
  }

  lemma JoinCons(x: string, tail: seq<string>, sep: string)
    requires |tail| > 0
    ensures Join([x] + tail, sep) == x + sep + Join(tail, sep)
  {
    assert ([x] + tail)[1..] == tail;
  }

  function AddressText(a: Address): string {
    a.name + " <" + a.email + ">"
  }

  function AddressList(xs: seq<Address>): string {
    Join(seq(|xs|, i requires 0 <= i < |xs| => AddressText(xs[i])), ", ")
  }

  const QuoteMarker := "> "
  const OriginalMessage := "\n\n-----Original Message-----\n"

  function QuoteLines(lines: seq<string>): (r: seq<string>)
    ensures |r| == |lines|
    ensures forall k | 0 <= k < |r| :: r[k] == QuoteMarker + lines[k]
  {
    if |lines| == 0 then [] else [QuoteMarker + lines[0]] + QuoteLines(lines[1..])
  }

  /** Every line of the body behind a "> " marker. */
  function QuotedBody(body: string): string {
    Join(QuoteLines(SplitLines(body)), "\n")
  }

  /** Take the marker off each line that carries one. */
  function UnquoteLines(fields: seq<string>): (lines: seq<string>)
    ensures |lines| == |fields|
  {
    if |fields| == 0 then []
    else
      var f := fields[0];
      [if StartsWith(f, QuoteMarker) then f[|QuoteMarker|..] else f] + UnquoteLines(fields[1..])
  }

  lemma {:induction false} UnquoteQuote(lines: seq<string>)
    ensures UnquoteLines(QuoteLines(lines)) == lines
  {
    if |lines| > 0 {
      var q := QuoteLines(lines);
      assert q[1..] == QuoteLines(lines[1..]);
      assert (QuoteMarker + lines[0])[|QuoteMarker|..] == lines[0];
      UnquoteQuote(lines[1..]);
    }
  }

  lemma QuotedLinesUnbroken(lines: seq<string>)
    requires forall k | 0 <= k < |lines| :: Unbroken(lines[k])
    ensures forall k | 0 <= k < |lines| :: '\n' !in QuoteLines(lines)[k]
  {
    var quoted := QuoteLines(lines);
    forall k | 0 <= k < |lines|
      ensures '\n' !in quoted[k]
    {
      assert quoted[k] == QuoteMarker + lines[k];
      assert forall i | 0 <= i < |quoted[k]| :: quoted[k][i] == '>' || quoted[k][i] == ' ' || quoted[k][i] == lines[k][i - 2];
    }
  }

  /** Take the markers off the lines of a quote. */
  function Unquote(quote: string): seq<string> {
    UnquoteLines(SplitOn(quote, '\n'))
  }

  /** The quote of a non-empty body holds exactly the body's lines, each behind its marker. */
  lemma QuoteRoundTrip(body: string)
    requires |body| > 0
    ensures Unquote(QuotedBody(body)) == SplitLines(body)
  {
    var lines := SplitLines(body);
    var quoted := QuoteLines(lines);
    QuotedLinesUnbroken(lines);
    SplitJoin(quoted, '\n');
    UnquoteQuote(lines);
  }

  /** `format_quoted_body(previous, date)`; `dateText` is the strftime rendering of the date. */
  function FormatQuotedBody(prev: Email, dateText: string): (r: string)
    ensures StartsWith(r, OriginalMessage + "From: " + prev.senderName + " <" + prev.senderEmail + ">\nSent: " + dateText)
    ensures EndsWith(r, "\n\n" + QuotedBody(prev.body))
  {
    var head := OriginalMessage + "From: " + prev.senderName + " <" + prev.senderEmail + ">\nSent: " + dateText;
    var cc := if |prev.cc| > 0 then "\nCc: " + AddressList(prev.cc) else "";
    var tail := "\n\n" + QuotedBody(prev.body);
    var r := head + "\nTo: " + AddressList(prev.recipients) + cc + "\nSubject: " + prev.subject + tail;
    assert r[..|head|] == head;
    assert r[|r| - |tail|..] == tail;
    r
  }

  // ---------------------------------------------------------------------------
  // Near duplicates

  datatype Variation = Signature | Disclaimer | Formatting

  const VariationOptions: seq<Variation> := [Signature, Disclaimer, Formatting]

  const MobileSignature := "\n\nSent from my iPhone"

  const ConfidentialityNotice :=
    "\n\n---\nThis email and any attachments are confidential and intended solely for the use of the individual or entity to whom they are addressed."

  /** Append the mobile signature, or strip every copy of it if there is one. */
  function ToggleSignature(body: string): (r: string)
    ensures !Contains(body, MobileSignature) ==> r == body + MobileSignature
    ensures Contains(body, MobileSignature) ==> |r| <= |body| - |MobileSignature|
  {
    ReplaceAllShrinks(body, MobileSignature, "");
    if Contains(body, MobileSignature) then ReplaceAll(body, MobileSignature, "") else body + MobileSignature
  }

  /** Append the notice unless it is already there. */
  function AddDisclaimer(body: string): (r: string)
    ensures Contains(r, ConfidentialityNotice)
    ensures StartsWith(r, body)
  {
    if Contains(body, ConfidentialityNotice) then body
    else
      ContainsSuffix(body, ConfidentialityNotice);
      body + ConfidentialityNotice
  }

  /** Collapse blank lines if there are any, otherwise double every line break. */
  function Reformat(body: string): (r: string)
    ensures Contains(body, "\n\n") ==> |r| < |body|
    ensures !Contains(body, "\n\n") && '\n' in body ==> Contains(r, "\n\n")
    ensures '\n' !in body ==> r == body
  {
    ReplaceAllShrinks(body, "\n\n", "\n");
    ReplaceCharIsSubst(body, '\n', "\n\n");
    ContainsFirstChar(body, "\n\n");
    ContainsFirstChar(body, "\n");
    if Contains(body, "\n\n") then ReplaceAll(body, "\n\n", "\n")
    else
      BlankLineWhenDoubled(body);
      ReplaceAll(body, "\n", "\n\n")
  }

  /** A variation leaves the body as it was exactly when it adds a notice the body already
      holds, or reformats a body without line breaks. */
  function Vary(body: string, v: Variation): (r: string)
    ensures r == body <==> (v == Disclaimer && Contains(body, ConfidentialityNotice)) || (v == Formatting && '\n' !in body)
  {
    match v
    case Signature => ToggleSignature(body)
    case Disclaimer => AddDisclaimer(body)
    case Formatting => Reformat(body)
  }

  /** `create_near_duplicate(email, variation_type)`: the variation is drawn afresh, so the
      requested one plays no part; only the body changes. */
  function NearDuplicate(e: Email, requested: Variation, draw: nat): (r: Email)
    ensures r.(body := e.body) == e
    ensures exists v | v in VariationOptions :: r.body == Vary(e.body, v)
  {
    var v := Choice(VariationOptions, draw);
    e.(body := Vary(e.body, v))
  }

  lemma RequestIgnored(e: Email, a: Variation, b: Variation, draw: nat)
    ensures NearDuplicate(e, a, draw) == NearDuplicate(e, b, draw)
  {
  }

  /** Adding the notice twice is adding it once. */
  lemma DisclaimerIdempotent(body: string)
    ensures AddDisclaimer(AddDisclaimer(body)) == AddDisclaimer(body)
  {
  }

  /** The signature overlaps itself nowhere: no proper prefix is also a suffix. */
  lemma SignatureBorderFree()
    ensures forall k | 0 < k < |MobileSignature| :: MobileSignature[k..] != MobileSignature[..|MobileSignature| - k]
  {
    var s := MobileSignature;
    forall k | 0 < k < |s|
      ensures s[k..] != s[..|s| - k]
    {
      if k == 1 {
        assert s[k..][|s| - k - 1] == 'e' != 'n' == s[..|s| - k][|s| - k - 1];
      } else {
        assert s[k] != '\n';
        assert s[k..][0] != s[..|s| - k][0];
      }
    }
  }

  /** Toggling the signature on and off again restores a body that lacked it. */
  lemma SignatureRoundTrip(body: string)
    requires !Contains(body, MobileSignature)
    ensures ToggleSignature(ToggleSignature(body)) == body
  {
    var sig := MobileSignature;
    ContainsSuffix(body, sig);
    SignatureBorderFree();
    forall i | 0 <= i < |body| && |body| < i + |sig|
      ensures !OccursAt(body + sig, sig, i)
    {
      var k := |body| - i;
      var window := (body + sig)[i..i + |sig|];
      assert window[k..] == (body + sig)[|body|..i + |sig|] == sig[..|sig| - k];
      assert sig[k..] != sig[..|sig| - k];
    }
    ReplaceAllSplit(body, sig, sig, "");
    assert ReplaceAll(sig, sig, "") == "" + ReplaceAll(sig[|sig|..], sig, "");
  }

  /** Doubling every line break and then collapsing every pair gives the text back. */
  lemma {:induction false} CollapseUndoesDouble(s: string)
    ensures ReplaceAll(ReplaceAll(s, "\n", "\n\n"), "\n\n", "\n") == s
    decreases |s|
  {
    ReplaceCharIsSubst(s, '\n', "\n\n");
    CollapseSubst(s);
  }

  lemma {:induction false} CollapseSubst(s: string)
    ensures ReplaceAll(SubstChar(s, '\n', "\n\n"), "\n\n", "\n") == s
    decreases |s|
  {
    if |s| > 0 {
      var rest := SubstChar(s[1..], '\n', "\n\n");
      CollapseSubst(s[1..]);
      if s[0] == '\n' {
        assert SubstChar(s, '\n', "\n\n") == "\n\n" + rest;
        CollapseBreak(rest);
      } else {
        assert SubstChar(s, '\n', "\n\n") == [s[0]] + rest;
        CollapseOther(s[0], rest);
      }
      assert s == [s[0]] + s[1..];
    }
  }

  lemma CollapseBreak(rest: string)
    ensures ReplaceAll("\n\n" + rest, "\n\n", "\n") == "\n" + ReplaceAll(rest, "\n\n", "\n")
  {
    assert ("\n\n" + rest)[2..] == rest;
  }

  lemma CollapseOther(c: char, rest: string)
    requires c != '\n'
    ensures ReplaceAll([c] + rest, "\n\n", "\n") == [c] + ReplaceAll(rest, "\n\n", "\n")
  {
    var t := [c] + rest;
    assert |t| >= 2 ==> t[..2][0] != "\n\n"[0];
    assert t[1..] == rest;
  }

  lemma {:induction false} DoubledHasBlankLine(s: string)
    requires '\n' in s
    ensures Contains(SubstChar(s, '\n', "\n\n"), "\n\n")
    decreases |s|
  {
    var r := SubstChar(s, '\n', "\n\n");
    if s[0] == '\n' {
      assert OccursAt(r, "\n\n", 0);
    } else {
      assert '\n' in s[1..];
      DoubledHasBlankLine(s[1..]);
      ContainsInTail(r, "\n\n");
    }
  }

  lemma BlankLineWhenDoubled(s: string)
    ensures '\n' in s ==> Contains(SubstChar(s, '\n', "\n\n"), "\n\n")
  {
    if '\n' in s {
      DoubledHasBlankLine(s);
    }
  }

  /** Reformatting a body without blank lines twice gives it back. */
  lemma ReformatTwice(body: string)
    requires !Contains(body, "\n\n")
    ensures Reformat(Reformat(body)) == body
  {
    ReplaceCharIsSubst(body, '\n', "\n\n");
    var doubled := ReplaceAll(body, "\n", "\n\n");
    if '\n' in body {
      DoubledHasBlankLine(body);
      CollapseUndoesDouble(body);
    } else {
      assert !Contains(body, "\n") by {
        forall i | 0 <= i <= |body| - 1
          ensures !OccursAt(body, "\n", i)
        {
          assert body[i..i + 1][0] == body[i];
        }
      }
    }
  }

  // ---------------------------------------------------------------------------
  // Blast recipients

  const BlastSize := 500

  /** `while len(xs) < 500: xs.extend(xs)`: `xs` repeated, so the result starts with `xs` and
      repeats with period `|xs|`. */
  function Grow(xs: seq<string>): (r: seq<string>)
    requires |xs| > 0
    ensures |r| >= BlastSize && |r| >= |xs|
    ensures r[..|xs|] == xs
    ensures forall i | |xs| <= i < |r| :: r[i] == r[i - |xs|]
    decreases BlastSize - |xs|
  {
    if |xs| >= BlastSize then xs
    else
      var r := Grow(xs + xs);
      forall i | |xs| <= i < |r|
        ensures r[i] == r[i - |xs|]
      {
        HalfPeriod(r, xs, i);
      }
      r
  }

  /** A sequence that starts with `xs + xs` and has period `2|xs|` has period `|xs|`. */
  lemma {:induction false} HalfPeriod(r: seq<string>, xs: seq<string>, i: nat)
    requires 0 < |xs| && 2 * |xs| <= |r| && r[..2 * |xs|] == xs + xs
    requires forall j | 2 * |xs| <= j < |r| :: r[j] == r[j - 2 * |xs|]
    requires |xs| <= i < |r|
    ensures r[i] == r[i - |xs|]
    decreases i
  {
    var n := |xs|;
    assert forall j | 0 <= j < 2 * n :: r[j] == (xs + xs)[j];
    if i >= 2 * n {
      HalfPeriod(r, xs, i - n);
    }
  }

  /** Every address of the directory, in key order: a person entered under name and address
      shows up twice. */
  function DirectoryEmails(d: Personnel.Directory): (es: seq<string>)
    ensures |es| == |d|
    ensures forall i | 0 <= i < |d| :: es[i] == d[i].1.email
  {
    if |d| == 0 then [] else [d[0].1.email] + DirectoryEmails(d[1..])
  }

  function BlastAddress(d: Personnel.Directory, email: string): Address {
    match Personnel.Lookup(d, email)
    case Some(p) => Address(p.name, email)
    case None => Address("Employee", email)
  }

  /** `inject_blast_recipients(email, personnel_map)`. `None` stands for the doubling loop that
      never ends when the directory holds no address. Otherwise 500 entries are appended,
      cycling through the directory's addresses. */
  function InjectBlastRecipients(e: Email, d: Personnel.Directory): (r: Option<Email>)
    ensures r.None? <==> |d| == 0
    ensures r.Some? ==> r.value.(recipients := e.recipients) == e
    ensures r.Some? ==> |r.value.recipients| == |e.recipients| + BlastSize
    ensures r.Some? ==> r.value.recipients[..|e.recipients|] == e.recipients
    ensures r.Some? ==> forall i | 0 <= i < BlastSize && i < |d| ::
              r.value.recipients[|e.recipients| + i].email == d[i].1.email
    ensures r.Some? ==> forall i | |e.recipients| + |d| <= i < |e.recipients| + BlastSize ::
              r.value.recipients[i] == r.value.recipients[i - |d|]
  {
    if |d| == 0 then None
    else
      var emails := DirectoryEmails(d);
      var target := Grow(emails)[..BlastSize];
      assert forall i | 0 <= i < BlastSize && i < |d| :: target[i] == emails[i];
      var added := seq(BlastSize, i requires 0 <= i < BlastSize => BlastAddress(d, target[i]));
      Some(e.(recipients := e.recipients + added))
  }
}

=== FILE: patcher.dfy ===
/**
 The configuration patcher `add_temperature_to_file`: a line scanner over a YAML file (each
 line keeps its `\n`) that gives every scenario block without `llm_settings:` a temperature
 chosen from its description. Reading and writing the file are left out: the patcher is a
 function from the lines read to the lines written and the number of changes, or the
 exception raised.
 */
module Patcher {

  import opened Base
  import opened Text

  // ---------------------------------------------------------------------------
  // Recognising a scenario block

  const Kinds := ["thread", "standalone", "chat", "calendar_event"]

  /** `re.match(r'^\s*-\s+type:\s+"(thread|standalone|chat|calendar_event)"', line)`: every
      whitespace run is followed by a character that is not whitespace, so matching each run
      greedily is the only way to match. */
  predicate ScenarioStart(line: string) {
    var s1 := line[LeadingSpace(line)..];
    && |s1| > 0 && s1[0] == '-'
    && var s2 := s1[1..];
       && LeadingSpace(s2) > 0
       && var s3 := s2[LeadingSpace(s2)..];
          && StartsWith(s3, "type:")
          && var s4 := s3[5..];
             && LeadingSpace(s4) > 0
             && exists k | 0 <= k < |Kinds| :: StartsWith(s4[LeadingSpace(s4)..], "\"" + Kinds[k] + "\"")
  }

  lemma LeadingSpaceCons(c: char, s: string)
    requires IsSpace(c)
    ensures LeadingSpace([c] + s) == 1 + LeadingSpace(s)
  {
    assert ([c] + s)[1..] == s;
  }

  /** A scenario line names one of the four kinds, in double quotes. */
  lemma ScenarioStartNamesKind(line: string)
    ensures ScenarioStart(line) ==> exists k | 0 <= k < |Kinds| :: Contains(line, "\"" + Kinds[k] + "\"")
  {
    if ScenarioStart(line) {
      var s1 := line[LeadingSpace(line)..];
      var s2 := s1[1..];
      var s3 := s2[LeadingSpace(s2)..];
      var s4 := s3[5..];
      var s5 := s4[LeadingSpace(s4)..];
      var a := LeadingSpace(line) + 1;
      assert s2 == line[a..];
      var b := a + LeadingSpace(s2) + 5;
      assert s4 == line[b..];
      var q := b + LeadingSpace(s4);
      assert s5 == line[q..];
      var k :| 0 <= k < |Kinds| && StartsWith(s5, "\"" + Kinds[k] + "\"");
      StartsWithInSuffix(line, q, "\"" + Kinds[k] + "\"");
    }
  }

  lemma StartsWithInSuffix(line: string, q: nat, pat: string)
    requires q <= |line| && StartsWith(line[q..], pat)
    ensures Contains(line, pat)
  {
    assert line[q..q + |pat|] == line[q..][..|pat|];
    assert OccursAt(line, pat, q);
  }

  /** Indentation does not matter to the scenario pattern. */
  lemma IndentIrrelevant(line: string)
    ensures ScenarioStart(" " + line) <==> ScenarioStart(line)
  {
    LeadingSpaceCons(' ', line);
    var l := " " + line;
    assert l[LeadingSpace(l)..] == line[LeadingSpace(line)..];
  }

  /** `len(line) - len(line.lstrip())`. */
  function Indent(line: string): nat {
    LeadingSpace(line)
  }

  /** A line that closes the block opened at indentation `indent`: not blank, not a comment,
      and indented no deeper. */
  predicate EndsBlock(line: string, indent: nat) {
    Indent(line) <= indent && Strip(line) != "" && !StartsWith(Strip(line), "#")
  }

  /** The index `j` where the look-ahead stops: the first closing line after `k - 1`, or the
      end of the file. */
  function BlockEnd(lines: seq<string>, indent: nat, k: nat): (j: nat)
    requires k <= |lines|
    ensures k <= j <= |lines|
    ensures forall m | k <= m < j :: !EndsBlock(lines[m], indent)
    ensures j < |lines| ==> EndsBlock(lines[j], indent)
    decreases |lines| - k
  {
    if k == |lines| || EndsBlock(lines[k], indent) then k else BlockEnd(lines, indent, k + 1)
  }

  /** The block of the scenario starting at line `i` runs over lines `i + 1 .. End(lines, i)`. */
  function End(lines: seq<string>, i: nat): (j: nat)
    requires i < |lines|
    ensures i < j <= |lines|
  {
    BlockEnd(lines, Indent(lines[i]), i + 1)
  }

  predicate HasLlmSettings(lines: seq<string>, lo: nat, hi: nat)
    requires lo <= hi <= |lines|
  {
    exists m | lo <= m < hi :: Contains(lines[m], "llm_settings:")
  }

  /** The description the look-ahead keeps: the last line of the range holding `description:`. */
  function LastDescription(lines: seq<string>, lo: nat, hi: nat): (r: Option<nat>)
    requires lo <= hi <= |lines|
    ensures r.Some? ==> lo <= r.value < hi && Contains(lines[r.value], "description:")
    ensures r.Some? ==> forall m | r.value < m < hi :: !Contains(lines[m], "description:")
    ensures r.None? <==> (forall m | lo <= m < hi :: !Contains(lines[m], "description:"))
    decreases hi
  {
    if lo == hi then None
    else if Contains(lines[hi - 1], "description:") then Some(hi - 1)
    else LastDescription(lines, lo, hi - 1)
  }

  /** Where the insertion was meant to go: after the first line of the range holding
      `description:`. */
  function FirstDescription(lines: seq<string>, lo: nat, hi: nat): (r: Option<nat>)
    requires lo <= hi <= |lines|
    ensures r.Some? ==> lo <= r.value < hi && Contains(lines[r.value], "description:")
    ensures r.Some? ==> forall m | lo <= m < r.value :: !Contains(lines[m], "description:")
    ensures r.None? <==> (forall m | lo <= m < hi :: !Contains(lines[m], "description:"))
    decreases |lines| - lo
  {
    if lo == hi then None
    else if Contains(lines[lo], "description:") then Some(lo)
    else FirstDescription(lines, lo + 1, hi)
  }

  /** The scenario starting at line `i` has a description and no `llm_settings:`. */
  predicate Needs(lines: seq<string>, i: nat)
    requires i < |lines|
  {
    && ScenarioStart(lines[i])
    && !HasLlmSettings(lines, i + 1, End(lines, i))
    && LastDescription(lines, i + 1, End(lines, i)).Some?
  }

  const SignalTags := ["(S1)", "(S2)", "(S_HR)", "(S3)", "(HR5)", "(HR6)", "(HR7)", "(HR8)",
                       "(S1A)", "(S1B)", "(S2A)", "(S2B)", "(S2C)", "(S2D)"]

  predicate IsSignal(description: string) {
    exists k | 0 <= k < |SignalTags| :: Contains(description, SignalTags[k])
  }

  /** `f"{temp}"` of 0.4 and 0.95. */
  function Temperature(signal: bool): string {
    if signal then "0.4" else "0.95"
  }

  function Spaces(n: nat): (r: string)
    ensures |r| == n && forall k | 0 <= k < n :: r[k] == ' '
  {
    if n == 0 then "" else " " + Spaces(n - 1)
  }

  /** The two lines added to a block indented `indent` columns. */
  function SettingsLines(indent: nat, signal: bool): (r: seq<string>)
    ensures |r| == 2
    ensures r[0] == Spaces(indent + 2) + "llm_settings:\n"
    ensures StartsWith(r[1], Spaces(indent + 4) + "temperature: " + Temperature(signal) + "  # ")
  {
    var head := Spaces(indent + 2) + "  temperature: " + Temperature(signal) + "  # ";
    var tail := (if signal then "Signal: Lower temp for consistency" else "Noise: Higher temp for variety") + "\n";
    HeadIndent(indent, signal);
    StartsWithHead(head, tail);
    [Spaces(indent + 2) + "llm_settings:\n", head + tail]
  }

  /** The temperature line is indented two columns past `llm_settings:`. */
  lemma HeadIndent(indent: nat, signal: bool)
    ensures Spaces(indent + 2) + "  temperature: " + Temperature(signal) + "  # "
         == Spaces(indent + 4) + "temperature: " + Temperature(signal) + "  # "
  {
    var pad, key := Spaces(indent + 2), "temperature: ";
    SpacesAdd(indent + 2, 2);
    assert Spaces(2) == "  ";
    assert "  temperature: " == "  " + key;
    ConcatAssoc(pad, "  ", key);
  }

  lemma ConcatAssoc<T>(a: seq<T>, b: seq<T>, c: seq<T>)
    ensures a + (b + c) == a + b + c
  {
  }

  lemma StartsWithHead(head: string, tail: string)
    ensures StartsWith(head + tail, head)
  {
    assert (head + tail)[..|head|] == head;
  }

  lemma {:induction false} SpacesAdd(a: nat, b: nat)
    ensures Spaces(a + b) == Spaces(a) + Spaces(b)
  {
    if a > 0 {
      SpacesAdd(a - 1, b);
    } else {
      assert Spaces(a) + Spaces(b) == Spaces(b);
    }
  }

  /** The description line a block's temperature is taken from. */
  function Description(lines: seq<string>, i: nat): string
    requires i < |lines| && Needs(lines, i)
  {
    lines[LastDescription(lines, i + 1, End(lines, i)).value]
  }

  /** The insertion for the block opened at line `i`: two columns deeper than the scenario
      line, with 0.4 for a description carrying a signal tag and 0.95 otherwise. */
  function Settings(lines: seq<string>, i: nat): (r: seq<string>)
    requires i < |lines| && Needs(lines, i)
    ensures |r| == 2
    ensures r[0] == Spaces(Indent(lines[i]) + 2) + "llm_settings:\n"
    ensures StartsWith(r[1], Spaces(Indent(lines[i]) + 4) + "temperature: " + Temperature(IsSignal(Description(lines, i))) + "  # ")
  {
    SettingsLines(Indent(lines[i]), IsSignal(Description(lines, i)))
  }

  /** The temperatures differ, so the inserted text tells signal from noise. */
  lemma TemperatureTellsSignal(indent: nat)
    ensures SettingsLines(indent, true)[1] != SettingsLines(indent, false)[1]
  {
    var p := Spaces(indent + 4) + "temperature: ";
    var a, b := SettingsLines(indent, true)[1], SettingsLines(indent, false)[1];
    assert a[|p| + 3] == ' ' && b[|p| + 3] == '5';
  }

  // ---------------------------------------------------------------------------
  // The patcher as written

  /** The search `for k in range(i+1, j): if 'description:' in modified[k]`, which indexes the
      output list built so far and raises `IndexError` past its end. */
  function SearchModified(modified: seq<string>, k: nat, j: nat): (r: Result<Option<nat>>)
    ensures r.Ok? && r.value.Some? ==> k <= r.value.value < |modified| && r.value.value < j
    ensures r.Raised? <==> k < j && |modified| < j && forall m | k <= m < |modified| :: !Contains(modified[m], "description:")
    decreases j - k
  {
    if k >= j then Ok(None)
    else if k >= |modified| then Raised("IndexError")
    else if Contains(modified[k], "description:") then Ok(Some(k))
    else SearchModified(modified, k + 1, j)
  }

  /** The loop of `add_temperature_to_file` from line `i`, with the output so far. */
  function AsWrittenFrom(lines: seq<string>, i: nat, modified: seq<string>, changes: nat): (r: Result<(seq<string>, nat)>)
    requires i <= |lines|
    decreases |lines| - i
  {
    if i == |lines| then Ok((modified, changes))
    else
      var m := modified + [lines[i]];
      if !Needs(lines, i) then AsWrittenFrom(lines, i + 1, m, changes)
      else
        match SearchModified(m, i + 1, End(lines, i))
        case Raised(e) => Raised(e)
        case Ok(None) => AsWrittenFrom(lines, i + 1, m, changes)
        case Ok(Some(k)) =>
          if k == 0 then AsWrittenFrom(lines, i + 1, m, changes)
          else AsWrittenFrom(lines, i + 1, m[..k + 1] + Settings(lines, i) + m[k + 1..], changes + 1)
  }

  function AddTemperatureAsWritten(lines: seq<string>): Result<(seq<string>, nat)> {
    AsWrittenFrom(lines, 0, [], 0)
  }

  predicate NeedsFrom(lines: seq<string>, i: nat)
    requires i <= |lines|
  {
    exists k | i <= k < |lines| :: Needs(lines, k)
  }

  /** As written, the first block that needs a temperature makes the search read one line past
      the output built so far, so the patcher raises `IndexError` before writing anything; when
      no block needs one it writes the file back unchanged and reports no change. */
  lemma {:induction false} AsWrittenRaisesOnFirstInsertion(lines: seq<string>, i: nat)
    requires i <= |lines|
    ensures NeedsFrom(lines, i) ==> AsWrittenFrom(lines, i, lines[..i], 0) == Raised("IndexError")
    ensures !NeedsFrom(lines, i) ==> AsWrittenFrom(lines, i, lines[..i], 0) == Ok((lines, 0))
    decreases |lines| - i
  {
    if i == |lines| {
      assert lines[..i] == lines;
    } else {
      var m := lines[..i] + [lines[i]];
      assert m == lines[..i + 1];
      if Needs(lines, i) {
        var j := End(lines, i);
        assert i + 1 < j;
        assert SearchModified(m, i + 1, j) == Raised("IndexError");
      } else {
        AsWrittenRaisesOnFirstInsertion(lines, i + 1);
        assert NeedsFrom(lines, i) <==> NeedsFrom(lines, i + 1);
      }
    }
  }

  /** A block that needs a temperature has a description line after its first line. */
  lemma NeedsNonEmptyBlock(lines: seq<string>, i: nat)
    requires i < |lines| && Needs(lines, i)
    ensures i + 1 < End(lines, i)
  {
  }

  lemma AsWrittenOutcome(lines: seq<string>)
    ensures NeedsFrom(lines, 0) ==> AddTemperatureAsWritten(lines) == Raised("IndexError")
    ensures !NeedsFrom(lines, 0) ==> AddTemperatureAsWritten(lines) == Ok((lines, 0))
  {
    assert lines[..0] == [];
    AsWrittenRaisesOnFirstInsertion(lines, 0);
  }

  // ---------------------------------------------------------------------------
  // The patcher as intended: the two lines follow the first description line of the block

  /** An insertion waiting for its line to be copied. */
  datatype Pending = Pending(target: nat, text: seq<string>)

  function Due(pending: seq<Pending>, p: nat): (r: seq<string>) {
    if |pending| == 0 then []
    else (if pending[0].target == p then pending[0].text else []) + Due(pending[1..], p)
  }

  function Later(pending: seq<Pending>, p: nat): (r: seq<Pending>) {
    if |pending| == 0 then []
    else (if pending[0].target == p then [] else [pending[0]]) + Later(pending[1..], p)
  }

  /** What stays queued was queued before and is not for line `p`. */
  lemma {:induction false} LaterKeeps(pending: seq<Pending>, p: nat)
    ensures forall q | q in Later(pending, p) :: q in pending && q.target != p
  {
    if |pending| > 0 {
      LaterKeeps(pending[1..], p);
      assert Later(pending, p) == (if pending[0].target == p then [] else [pending[0]]) + Later(pending[1..], p);
    }
  }

  /** Insertions still waiting after line `p` is copied are for lines after it. */
  lemma LaterWaiting(lines: seq<string>, p: nat, pending: seq<Pending>)
    requires Waiting(lines, p, pending)
    ensures Waiting(lines, p + 1, Later(pending, p))
  {
    LaterKeeps(pending, p);
  }

  lemma {:induction false} DueLength(pending: seq<Pending>, p: nat)
    requires forall q | q in pending :: |q.text| == 2
    ensures |Due(pending, p)| + 2 * |Later(pending, p)| == 2 * |pending|
  {
    if |pending| > 0 {
      DueLength(pending[1..], p);
    }
  }

  lemma {:induction false} NoneDue(pending: seq<Pending>, p: nat)
    requires forall q | q in pending :: q.target > p
    ensures Due(pending, p) == [] && Later(pending, p) == pending
  {
    if |pending| > 0 {
      NoneDue(pending[1..], p);
    }
  }

  /** Which lines open a block that needs a temperature. */
  function NeedFlags(lines: seq<string>): (f: seq<bool>)
    ensures |f| == |lines| && forall i | 0 <= i < |lines| :: f[i] == Needs(lines, i)
  {
    seq(|lines|, i requires 0 <= i < |lines| => Needs(lines, i))
  }

  function CountTrue(f: seq<bool>, p: nat): nat
    requires p <= |f|
  {
    if p == 0 then 0 else CountTrue(f, p - 1) + (if f[p - 1] then 1 else 0)
  }

  lemma {:induction false} CountTrueGrows(f: seq<bool>, p: nat, q: nat)
    requires p <= q <= |f|
    ensures CountTrue(f, p) <= CountTrue(f, q)
    decreases q
  {
    if p < q {
      CountTrueGrows(f, p, q - 1);
    }
  }

  /** With no block that needs a temperature among the first `n` lines, none is counted. */
  lemma {:induction false} NoNeedsNoCount(lines: seq<string>, n: nat)
    requires n <= |lines|
    ensures (forall k | 0 <= k < n :: !Needs(lines, k)) ==> NeedCount(lines, n) == 0
    decreases n
  {
    if n > 0 {
      NoNeedsNoCount(lines, n - 1);
    }
  }

  /** The number of blocks among the first `p` lines that need a temperature. */
  function NeedCount(lines: seq<string>, p: nat): nat
    requires p <= |lines|
  {
    CountTrue(NeedFlags(lines), p)
  }

  /** The insertions waiting at line `p` are for lines still to be copied. */
  predicate Waiting(lines: seq<string>, p: nat, pending: seq<Pending>) {
    forall q | q in pending :: p <= q.target < |lines| && |q.text| == 2
  }

  /** The line the insertion for the block opened at `i` was meant to follow: its first
      description line. */
  function InsertAfter(lines: seq<string>, i: nat): (t: nat)
    requires i < |lines| && Needs(lines, i)
    ensures i < t < End(lines, i) && Contains(lines[t], "description:")
    ensures forall m | i < m < t :: !Contains(lines[m], "description:")
  {
    FirstDescription(lines, i + 1, End(lines, i)).value
  }

  /** The insertion line `p` schedules: its block's settings, aimed at the block's first
      description line, when the block needs them. */
  function Insertion(lines: seq<string>, p: nat): (r: seq<Pending>)
    requires p < |lines|
    ensures |r| == (if Needs(lines, p) then 1 else 0)
    ensures forall q | q in r :: p < q.target < |lines| && |q.text| == 2
  {
    if Needs(lines, p) then [Pending(InsertAfter(lines, p), Settings(lines, p))] else []
  }

  /** One turn of the copy loop at line `p`: the output gains the line and the insertions
      due after it, and the line's own insertion joins the queue when its block needs one. */
  function CopyStep(lines: seq<string>, p: nat, out: seq<string>, pending: seq<Pending>): (r: (seq<string>, seq<Pending>))
    requires p < |lines| && Waiting(lines, p, pending)
    ensures r.0 == out + [lines[p]] + Due(pending, p)
    ensures Waiting(lines, p + 1, r.1)
    ensures r.1 == Later(pending, p) + Insertion(lines, p)
    ensures |r.0| + 2 * |r.1| == |out| + 2 * |pending| + 1 + (if Needs(lines, p) then 2 else 0)
    ensures pending == [] && !Needs(lines, p) ==> r == (out + [lines[p]], [])
  {
    DueLength(pending, p);
    var later := Later(pending, p);
    LaterWaiting(lines, p, pending);
    assert pending == [] ==> out + [lines[p]] + Due(pending, p) == out + [lines[p]];
    (out + [lines[p]] + Due(pending, p), later + Insertion(lines, p))
  }

  lemma NothingWaitingAtEnd(lines: seq<string>, pending: seq<Pending>)
    ensures Waiting(lines, |lines|, pending) ==> pending == []
  {
    if |pending| > 0 {
      assert pending[0] in pending;
    }
  }

  /** The copy loop from line `p`: copy the line, then the insertions due after it, then
      schedule this line's own insertion if it opens a block that needs one. */
  function IntendedFrom(lines: seq<string>, p: nat, out: seq<string>, pending: seq<Pending>, changes: nat): (r: (seq<string>, nat))
    requires p <= |lines| && Waiting(lines, p, pending)
    requires |out| + 2 * |pending| == p + 2 * changes
    requires SubsequenceOf(lines[..p], out)
    requires changes == NeedCount(lines, p)
    ensures |r.0| == |lines| + 2 * r.1
    ensures r.1 == NeedCount(lines, |lines|)
    ensures SubsequenceOf(lines, r.0)
    ensures NeedCount(lines, |lines|) == changes && pending == [] && out == lines[..p] ==> r == (lines, changes)
    ensures r.0 == Run(lines, Insertions(lines), p, out, pending)
    decreases |lines| - p
  {
    if p == |lines| then
      NothingWaitingAtEnd(lines, pending);
      assert lines[..p] == lines;
      (out, changes)
    else
      var next := CopyStep(lines, p, out, pending);
      CopyStepKeeps(lines, p, out, pending, changes);
      RunCopyStep(lines, p, out, pending);
      IntendedFrom(lines, p + 1, next.0, next.1, changes + (if Needs(lines, p) then 1 else 0))
  }

  /** One turn of the copy loop keeps what the loop maintains: the queue is still waiting,
      the counts add up, the input so far is kept in order, and with nothing to insert the
      output is the input so far. */
  lemma CopyStepKeeps(lines: seq<string>, p: nat, out: seq<string>, pending: seq<Pending>, changes: nat)
    requires p < |lines| && Waiting(lines, p, pending)
    requires |out| + 2 * |pending| == p + 2 * changes
    requires SubsequenceOf(lines[..p], out)
    requires changes == NeedCount(lines, p)
    ensures var next := CopyStep(lines, p, out, pending);
            var changes' := changes + (if Needs(lines, p) then 1 else 0);
            && Waiting(lines, p + 1, next.1)
            && |next.0| + 2 * |next.1| == p + 1 + 2 * changes'
            && SubsequenceOf(lines[..p + 1], next.0)
            && changes' == NeedCount(lines, p + 1)
            && (!Needs(lines, p) && pending == [] && out == lines[..p] ==> next == (lines[..p + 1], []) && changes' == changes)
            && (NeedCount(lines, |lines|) == changes ==> !Needs(lines, p))
  {
    NeedCountStep(lines, p);
    CopyStepOrder(lines, p, out, pending);
    assert lines[..p + 1] == lines[..p] + [lines[p]];
  }

  lemma NeedCountStep(lines: seq<string>, p: nat)
    requires p < |lines|
    ensures NeedCount(lines, p + 1) == NeedCount(lines, p) + (if Needs(lines, p) then 1 else 0)
    ensures NeedCount(lines, |lines|) == NeedCount(lines, p) ==> !Needs(lines, p)
  {
    CountStep(NeedFlags(lines), p);
  }

  lemma CountStep(f: seq<bool>, p: nat)
    requires p < |f|
    ensures CountTrue(f, p + 1) == CountTrue(f, p) + (if f[p] then 1 else 0)
    ensures CountTrue(f, |f|) == CountTrue(f, p) ==> !f[p]
  {
    CountTrueGrows(f, p + 1, |f|);
  }

  lemma CopyStepOrder(lines: seq<string>, p: nat, out: seq<string>, pending: seq<Pending>)
    requires p < |lines| && Waiting(lines, p, pending)
    requires SubsequenceOf(lines[..p], out)
    ensures SubsequenceOf(lines[..p + 1], CopyStep(lines, p, out, pending).0)
  {
    assert lines[..p + 1] == lines[..p] + [lines[p]];
    SubsequenceAfter(lines[..p], out, lines[p], Due(pending, p));
  }

  lemma SubsequenceAfter(a: seq<string>, b: seq<string>, x: string, extra: seq<string>)
    requires SubsequenceOf(a, b)
    ensures SubsequenceOf(a + [x], b + [x] + extra)
  {
    assert ([x] + extra)[0] == x && ([x] + extra)[1..] == extra;
    assert SubsequenceOf([x], [x] + extra);
    SubsequenceConcat(a, b, [x], [x] + extra);
    assert b + ([x] + extra) == b + [x] + extra;
  }

  /** `add_temperature_to_file` as intended: every input line is kept, in order, each block
      that needs a temperature gains two lines, and a file with no such block is written back
      as read. */
  function AddTemperature(lines: seq<string>): (r: (seq<string>, nat))
    ensures SubsequenceOf(lines, r.0)
    ensures |r.0| == |lines| + 2 * r.1
    ensures r.1 == NeedCount(lines, |lines|)
    ensures (forall k | 0 <= k < |lines| :: !Needs(lines, k)) ==> r == (lines, 0)
    ensures r.0 == Patched(lines, Insertions(lines), |lines|)
  {
    assert lines[..0] == [];
    NoNeedsNoCount(lines, |lines|);
    RunPatched(lines, Insertions(lines), 0);
    IntendedFrom(lines, 0, [], [], 0)
  }

  /** A block that needs a temperature makes the change count positive. */
  lemma NeedCountPositive(lines: seq<string>, k: nat)
    requires k < |lines| && Needs(lines, k)
    ensures NeedCount(lines, |lines|) > 0
  {
    NeedCountStep(lines, k);
    CountTrueGrows(NeedFlags(lines), k + 1, |lines|);
  }

  /** The correction changes nothing on a file with nothing to add; on any other file the
      patcher as written raises where the corrected one makes at least one change. */
  lemma CorrectionOnlyMattersWhenNeeded(lines: seq<string>)
    ensures !NeedsFrom(lines, 0) ==> AddTemperatureAsWritten(lines) == Ok(AddTemperature(lines))
    ensures NeedsFrom(lines, 0) ==> AddTemperatureAsWritten(lines).Raised? && AddTemperature(lines).1 > 0
  {
    AsWrittenOutcome(lines);
    if NeedsFrom(lines, 0) {
      var k :| 0 <= k < |lines| && Needs(lines, k);
      NeedCountPositive(lines, k);
    }
  }

  // ---------------------------------------------------------------------------
  // Where the corrected patcher puts the settings

  /** `[f(0), ..., f(n - 1)]`. */
  function Tabulate<T>(f: nat -> T, n: nat): (r: seq<T>)
    ensures |r| == n
  {
    if n == 0 then [] else Tabulate(f, n - 1) + [f(n - 1)]
  }

  lemma {:induction false} TabulateAt<T>(f: nat -> T, n: nat, k: nat)
    requires k < n
    ensures Tabulate(f, n)[k] == f(k)
  {
    AppendAt(Tabulate(f, n - 1), f(n - 1), k);
    if k < n - 1 {
      TabulateAt(f, n - 1, k);
    }
  }

  /** Line `k`'s insertion, for every line of the file. */
  function ScheduleOf(lines: seq<string>): nat -> seq<Pending> {
    (k: nat) => if k < |lines| then Insertion(lines, k) else []
  }

  /** The insertion each line schedules. */
  function Insertions(lines: seq<string>): (ins: seq<seq<Pending>>)
    ensures |ins| == |lines|
  {
    Tabulate(ScheduleOf(lines), |lines|)
  }

  lemma AppendAt<T>(s: seq<T>, x: T, k: nat)
    requires k <= |s|
    ensures (s + [x])[k] == if k == |s| then x else s[k]
  {
  }

  /** Entry `k` of the list is line `k`'s insertion. */
  lemma InsertionAt(lines: seq<string>, k: nat)
    requires k < |lines|
    ensures Insertions(lines)[k] == Insertion(lines, k)
  {
    TabulateAt(ScheduleOf(lines), |lines|, k);
  }


  /** The queue once lines `0 .. p - 1` are copied, given each line's insertion: the
      insertions not yet due, in block order. */
  function Queue(ins: seq<seq<Pending>>, p: nat): (q: seq<Pending>)
    requires p <= |ins|
    decreases p
  {
    if p == 0 then [] else Later(Queue(ins, p - 1), p - 1) + ins[p - 1]
  }

  /** The settings meant to follow line `t`: those of every block among the first `n` lines
      whose first description line is `t`, in block order. A nested block can share its
      first description line with the block around it. */
  function InsertedAt(ins: seq<seq<Pending>>, t: nat, n: nat): (r: seq<string>)
    requires n <= |ins|
    decreases n
  {
    if n == 0 then [] else InsertedAt(ins, t, n - 1) + Due(ins[n - 1], t)
  }

  /** The intended output for the first `p` lines: every line, each followed by the settings
      meant to follow it. Line `t` is only ever the insertion point of an earlier block. */
  function Patched(lines: seq<string>, ins: seq<seq<Pending>>, p: nat): (r: seq<string>)
    requires p <= |lines| == |ins|
    decreases p
  {
    if p == 0 then [] else Patched(lines, ins, p - 1) + [lines[p - 1]] + InsertedAt(ins, p - 1, p - 1)
  }

  lemma {:induction false} DueAppend(a: seq<Pending>, b: seq<Pending>, t: nat)
    ensures Due(a + b, t) == Due(a, t) + Due(b, t)
  {
    if |a| > 0 {
      assert (a + b)[1..] == a[1..] + b;
      DueAppend(a[1..], b, t);
    } else {
      assert a + b == b;
    }
  }

  lemma DueOne(q: Pending, t: nat)
    ensures Due([q], t) == (if q.target == t then q.text else [])
  {
    assert [q][1..] == [];
  }

  /** Dropping the insertions due at `p` leaves those due at any other line as they were. */
  lemma {:induction false} DueLater(q: seq<Pending>, p: nat, t: nat)
    requires t != p
    ensures Due(Later(q, p), t) == Due(q, t)
  {
    if |q| > 0 {
      DueLater(q[1..], p, t);
      var head := if q[0].target == p then [] else [q[0]];
      DueAppend(head, Later(q[1..], p), t);
      DueOne(q[0], t);
    }
  }

  /** The queue after `p` lines holds, for every later line `t`, exactly the settings meant
      to follow `t` from the blocks opened so far. */
  lemma {:induction false} QueueDue(ins: seq<seq<Pending>>, p: nat, t: nat)
    requires p <= |ins| && p <= t
    ensures Due(Queue(ins, p), t) == InsertedAt(ins, t, p)
    decreases p
  {
    if p > 0 {
      var q := Queue(ins, p - 1);
      QueueDue(ins, p - 1, t);
      DueAppend(Later(q, p - 1), ins[p - 1], t);
      DueLater(q, p - 1, t);
      assert Due(Queue(ins, p), t) == Due(q, t) + Due(ins[p - 1], t);
    }
  }

  /** The copy loop driven by a schedule `ins` fixed in advance: line `p` queues `ins[p]`. */
  function Run(lines: seq<string>, ins: seq<seq<Pending>>, p: nat, out: seq<string>, pending: seq<Pending>): seq<string>
    requires p <= |lines| == |ins|
    decreases |lines| - p
  {
    if p == |lines| then out
    else Run(lines, ins, p + 1, out + [lines[p]] + Due(pending, p), Later(pending, p) + ins[p])
  }

  lemma RunStep(lines: seq<string>, ins: seq<seq<Pending>>, p: nat, out: seq<string>, queue: seq<Pending>)
    requires p < |lines| == |ins|
    ensures Run(lines, ins, p, out, queue) == Run(lines, ins, p + 1, out + [lines[p]] + Due(queue, p), Later(queue, p) + ins[p])
  {
  }

  lemma RunCopyStep(lines: seq<string>, p: nat, out: seq<string>, pending: seq<Pending>)
    requires p < |lines| && Waiting(lines, p, pending)
    ensures var next := CopyStep(lines, p, out, pending);
            Run(lines, Insertions(lines), p, out, pending) == Run(lines, Insertions(lines), p + 1, next.0, next.1)
  {
    InsertionAt(lines, p);
    RunStep(lines, Insertions(lines), p, out, pending);
  }

  /** Driven by any schedule, the loop started on the intended output and queue of the first
      `p` lines ends with the intended output of the whole file. */
  lemma {:induction false} RunPatched(lines: seq<string>, ins: seq<seq<Pending>>, p: nat)
    requires p <= |lines| == |ins|
    ensures Run(lines, ins, p, Patched(lines, ins, p), Queue(ins, p)) == Patched(lines, ins, |lines|)
    decreases |lines| - p
  {
    if p < |lines| {
      RunStep(lines, ins, p, Patched(lines, ins, p), Queue(ins, p));
      PatchedStep(lines, ins, p);
      RunPatched(lines, ins, p + 1);
    }
  }

  /** One turn of the copy loop takes the intended output and queue of `p` lines to those
      of `p + 1` lines. */
  lemma PatchedStep(lines: seq<string>, ins: seq<seq<Pending>>, p: nat)
    requires p < |lines| == |ins|
    ensures Patched(lines, ins, p) + [lines[p]] + Due(Queue(ins, p), p) == Patched(lines, ins, p + 1)
    ensures Later(Queue(ins, p), p) + ins[p] == Queue(ins, p + 1)
  {
    QueueDue(ins, p, p);
  }

  lemma PrefixTrans<T>(a: seq<T>, b: seq<T>, c: seq<T>)
    requires a <= b && b <= c
    ensures a <= c
  {
  }

  lemma {:induction false} PatchedPrefix(lines: seq<string>, ins: seq<seq<Pending>>, p: nat, q: nat)
    requires p <= q <= |lines| == |ins|
    ensures Patched(lines, ins, p) <= Patched(lines, ins, q)
    decreases q
  {
    if p < q {
      PatchedPrefix(lines, ins, p, q - 1);
      PrefixTrans(Patched(lines, ins, p), Patched(lines, ins, q - 1), Patched(lines, ins, q));
    }
  }

  lemma {:induction false} InsertedAtNone(ins: seq<seq<Pending>>, t: nat, n: nat)
    requires n <= |ins|
    requires forall k | 0 <= k < n :: Due(ins[k], t) == []
    ensures InsertedAt(ins, t, n) == []
    decreases n
  {
    if n > 0 {
      InsertedAtNone(ins, t, n - 1);
    }
  }

  /** In the intended output line `t` sits at `|Patched(lines, ins, t)|`, and these
      positions increase with `t`. */
  lemma PatchedPositions(lines: seq<string>, ins: seq<seq<Pending>>, t: nat, u: nat)
    requires t < u < |lines| == |ins|
    ensures var out := Patched(lines, ins, |lines|);
            && |Patched(lines, ins, t)| < |Patched(lines, ins, u)| < |out|
            && out[|Patched(lines, ins, t)|] == lines[t] && out[|Patched(lines, ins, u)|] == lines[u]
  {
    var out := Patched(lines, ins, |lines|);
    PatchedPrefix(lines, ins, t + 1, u);
    PatchedPrefix(lines, ins, u + 1, |lines|);
    assert out[|Patched(lines, ins, u)|] == Patched(lines, ins, u + 1)[|Patched(lines, ins, u)|];
    assert out[|Patched(lines, ins, t)|] == Patched(lines, ins, u + 1)[|Patched(lines, ins, t)|]
                                         == Patched(lines, ins, t + 1)[|Patched(lines, ins, t)|];
  }

  /** Every input line `t` is copied to position `|Patched(lines, Insertions(lines), t)|` of
      the corrected output, and these positions increase with `t`. */
  lemma CopyPosition(lines: seq<string>, t: nat, u: nat)
    requires t < u < |lines|
    ensures var out := AddTemperature(lines).0;
            var ins := Insertions(lines);
            && |Patched(lines, ins, t)| < |Patched(lines, ins, u)| < |out|
            && out[|Patched(lines, ins, t)|] == lines[t] && out[|Patched(lines, ins, u)|] == lines[u]
  {
    PatchedPositions(lines, Insertions(lines), t, u);
  }

  /** Line `k` aims its settings at line `t` exactly when it opens a block that needs them
      and `t` is that block's first description line. */
  lemma DueInsertion(lines: seq<string>, k: nat, t: nat)
    requires k < |lines|
    ensures Needs(lines, k) && InsertAfter(lines, k) == t ==> Due(Insertion(lines, k), t) == Settings(lines, k)
    ensures !(Needs(lines, k) && InsertAfter(lines, k) == t) ==> Due(Insertion(lines, k), t) == []
  {
    if Needs(lines, k) {
      DueOne(Pending(InsertAfter(lines, k), Settings(lines, k)), t);
    }
  }

  /** In the intended output the settings a line `k` aims at line `t` come right after the
      copy of `t`, behind those of the earlier lines aiming at `t`. */
  lemma PatchedInsertion(lines: seq<string>, ins: seq<seq<Pending>>, k: nat, t: nat)
    requires k < t < |lines| == |ins|
    ensures Follows(Patched(lines, ins, |lines|), |Patched(lines, ins, t)|, lines[t],
                    |InsertedAt(ins, t, k)|, Due(ins[k], t))
  {
    var out, a, b := Patched(lines, ins, |lines|), Patched(lines, ins, t), InsertedAt(ins, t, t);
    PatchedAround(lines, ins, t);
    InsertedAtFrom(ins, t, k, t);
    Located(out, a, lines[t], b, InsertedAt(ins, t, k), Due(ins[k], t));
  }

  /** The intended output begins with that of the first `t` lines, line `t`, and what is
      inserted after it. */
  lemma PatchedAround(lines: seq<string>, ins: seq<seq<Pending>>, t: nat)
    requires t < |lines| == |ins|
    ensures Patched(lines, ins, t) + [lines[t]] + InsertedAt(ins, t, t) <= Patched(lines, ins, |lines|)
  {
    PatchedUnfold(lines, ins, t);
    PatchedPrefix(lines, ins, t + 1, |lines|);
    SamePrefix(Patched(lines, ins, t) + [lines[t]] + InsertedAt(ins, t, t), Patched(lines, ins, t + 1),
               Patched(lines, ins, |lines|));
  }

  lemma PatchedUnfold(lines: seq<string>, ins: seq<seq<Pending>>, t: nat)
    requires t < |lines| == |ins|
    ensures Patched(lines, ins, t + 1) == Patched(lines, ins, t) + [lines[t]] + InsertedAt(ins, t, t)
  {
  }

  lemma SamePrefix<T>(a: seq<T>, b: seq<T>, c: seq<T>)
    requires a == b && b <= c
    ensures a <= c
  {
  }

  /** What is inserted after line `t` by the first `n` lines begins with the insertions of
      the lines before `k`, then that of line `k`. */
  lemma {:induction false} InsertedAtFrom(ins: seq<seq<Pending>>, t: nat, k: nat, n: nat)
    requires k < n <= |ins|
    ensures InsertedAt(ins, t, k) + Due(ins[k], t) <= InsertedAt(ins, t, n)
    decreases n
  {
    if n == k + 1 {
      InsertedAtStep(ins, t, k);
    } else {
      InsertedAtFrom(ins, t, k, n - 1);
      InsertedAtStep(ins, t, n - 1);
      PrefixTrans(InsertedAt(ins, t, k) + Due(ins[k], t), InsertedAt(ins, t, n - 1), InsertedAt(ins, t, n));
    }
  }

  lemma InsertedAtStep(ins: seq<seq<Pending>>, t: nat, k: nat)
    requires k < |ins|
    ensures InsertedAt(ins, t, k + 1) == InsertedAt(ins, t, k) + Due(ins[k], t)
  {
  }

  /** Where the parts of a known prefix sit in a sequence. */
  lemma Located<T>(out: seq<T>, a: seq<T>, x: T, b: seq<T>, e: seq<T>, d: seq<T>)
    requires a + [x] + b <= out && e + d <= b
    ensures Follows(out, |a|, x, |e|, d)
  {
    var w := a + [x] + b;
    assert out[|a|] == w[|a|];
    assert out[|a| + 1 + |e|..|a| + 1 + |e| + |d|] == w[|a| + 1 + |e|..|a| + 1 + |e| + |d|];
    assert w[|a| + 1 + |e|..|a| + 1 + |e| + |d|] == b[|e|..|e| + |d|];
    assert b[|e|..|e| + |d|] == (e + d)[|e|..];
  }

  /** In `out`, `line` sits at position `j` and `s` follows it after `e` other lines. */
  predicate Follows<T(==)>(out: seq<T>, j: nat, line: T, e: nat, s: seq<T>) {
    j + 1 + e + |s| <= |out| && out[j] == line && out[j + 1 + e..j + 1 + e + |s|] == s
  }

  /** The settings of a block that needs them come right after the copy of its first
      description line, behind only the settings of earlier blocks that share that line;
      when no earlier block shares it, they follow the line directly. */
  lemma SettingsFollowDescription(lines: seq<string>, i: nat)
    requires i < |lines| && Needs(lines, i)
    ensures var ins := Insertions(lines);
            var t := InsertAfter(lines, i);
            Follows(AddTemperature(lines).0, |Patched(lines, ins, t)|, lines[t], |InsertedAt(ins, t, i)|, Settings(lines, i))
    ensures var t := InsertAfter(lines, i);
            (forall k | 0 <= k < i && Needs(lines, k) :: InsertAfter(lines, k) != t) ==> InsertedAt(Insertions(lines), t, i) == []
  {
    SettingsPlaced(lines, i);
    NoEarlierSharer(lines, i);
  }

  lemma SettingsPlaced(lines: seq<string>, i: nat)
    requires i < |lines| && Needs(lines, i)
    ensures var ins := Insertions(lines);
            var t := InsertAfter(lines, i);
            Follows(Patched(lines, ins, |lines|), |Patched(lines, ins, t)|, lines[t], |InsertedAt(ins, t, i)|, Settings(lines, i))
  {
    var ins, t, s := Insertions(lines), InsertAfter(lines, i), Settings(lines, i);
    InsertionOfNeedy(lines, i);
    SettingsInPatched(lines, ins, i, t, s);
  }

  lemma NoEarlierSharer(lines: seq<string>, i: nat)
    requires i < |lines| && Needs(lines, i)
    ensures var t := InsertAfter(lines, i);
            (forall k | 0 <= k < i && Needs(lines, k) :: InsertAfter(lines, k) != t) ==> InsertedAt(Insertions(lines), t, i) == []
  {
    var ins := Insertions(lines);
    var t := InsertAfter(lines, i);
    if forall k | 0 <= k < i && Needs(lines, k) :: InsertAfter(lines, k) != t {
      forall k | 0 <= k < i ensures Due(ins[k], t) == [] {
        InsertionAt(lines, k);
        DueInsertion(lines, k, t);
      }
      InsertedAtNone(ins, t, i);
    }
  }

  lemma SettingsInPatched(lines: seq<string>, ins: seq<seq<Pending>>, i: nat, t: nat, s: seq<string>)
    requires i < t < |lines| == |ins| && ins[i] == [Pending(t, s)] && |s| == 2
    ensures Follows(Patched(lines, ins, |lines|), |Patched(lines, ins, t)|, lines[t], |InsertedAt(ins, t, i)|, s)
  {
    DueOne(Pending(t, s), t);
    PatchedSlice(lines, ins, i, t, s);
  }

  /** The insertion a line that needs settings schedules. */
  lemma InsertionOfNeedy(lines: seq<string>, i: nat)
    requires i < |lines| && Needs(lines, i)
    ensures |Insertions(lines)| == |lines|
    ensures Insertions(lines)[i] == [Pending(InsertAfter(lines, i), Settings(lines, i))]
    ensures i < InsertAfter(lines, i) < |lines| && |Settings(lines, i)| == 2
  {
    InsertionAt(lines, i);
  }

  lemma PatchedSlice(lines: seq<string>, ins: seq<seq<Pending>>, k: nat, t: nat, s: seq<string>)
    requires k < t < |lines| == |ins| && Due(ins[k], t) == s
    ensures Follows(Patched(lines, ins, |lines|), |Patched(lines, ins, t)|, lines[t], |InsertedAt(ins, t, k)|, s)
  {
    PatchedInsertion(lines, ins, k, t);
  }

  // ---------------------------------------------------------------------------
  // The file loop

  /** The outcome of one file: the changes made, or the error reported. */
  function PatchFile(file: Option<seq<string>>): (r: Result<nat>)
    ensures file.None? ==> r == Raised("FileNotFoundError")
    ensures file.Some? ==> (r.Raised? <==> NeedsFrom(file.value, 0))
    ensures file.Some? && r.Raised? ==> r.error == "IndexError"
    ensures r.Ok? ==> r.value == 0
  {
    match file
    case None => Raised("FileNotFoundError")
    case Some(lines) =>
      AsWrittenOutcome(lines);
      match AddTemperatureAsWritten(lines)
      case Raised(e) => Raised(e)
      case Ok((_, n)) => Ok(n)
  }

  function Changes(outcomes: seq<Result<nat>>): nat {
    if |outcomes| == 0 then 0 else (if outcomes[0].Ok? then outcomes[0].value else 0) + Changes(outcomes[1..])
  }

  /** The main loop: a file that cannot be read or patched is reported and the loop goes on
      to the next; the total adds the changes of the files that succeeded. */
  function ProcessFiles(files: seq<Option<seq<string>>>): (r: (seq<Result<nat>>, nat))
    ensures |r.0| == |files|
    ensures forall k | 0 <= k < |files| :: r.0[k] == PatchFile(files[k])
    ensures r.1 == Changes(r.0)
  {
    var outcomes := seq(|files|, k requires 0 <= k < |files| => PatchFile(files[k]));
    (outcomes, Changes(outcomes))
  }

  /** Since the written patcher never makes a change it can report, the total is always 0. */
  lemma {:induction false} TotalAlwaysZero(files: seq<Option<seq<string>>>)
    ensures ProcessFiles(files).1 == 0
  {
    var outcomes := ProcessFiles(files).0;
    forall k | 0 <= k < |files| ensures outcomes[k].Ok? ==> outcomes[k].value == 0 {
      if files[k].Some? {
        AsWrittenOutcome(files[k].value);
      }
    }
    ChangesOfZeros(outcomes);
  }

  lemma {:induction false} ChangesOfZeros(outcomes: seq<Result<nat>>)
    requires forall k | 0 <= k < |outcomes| :: outcomes[k].Ok? ==> outcomes[k].value == 0
    ensures Changes(outcomes) == 0
  {
    if |outcomes| > 0 {
      ChangesOfZeros(outcomes[1..]);
    }
  }
}

=== FILE: pdf.dfy ===
/**
 The text part of `create_fake_pdf_attachment`: typographic characters replaced by ASCII
 look-alikes, PDF string escaping of backslash and parentheses, a greedy word wrap at about
 85 characters, and the text-showing operators of the content stream.
 */
module Pdf {

  import opened Text

  // ---------------------------------------------------------------------------
  // Character replacement and escaping

  /** The source's replacement table, in its iteration order. */
  const Replacements: seq<(char, string)> := [
    ('\U{2018}', "'"), ('\U{2019}', "'"), ('\U{201C}', "\""), ('\U{201D}', "\""),
    ('\U{2013}', "-"), ('\U{2014}', "--"), ('\U{2026}', "..."), ('\U{A0}', " ")]

  /** Apply `s.replace(c, rep)` for each pair in turn, as the loop over the table does. */
  function ReplaceEach(s: string, pairs: seq<(char, string)>): string
    decreases |pairs|
  {
    if |pairs| == 0 then s else ReplaceEach(ReplaceAll(s, [pairs[0].0], pairs[0].1), pairs[1..])
  }

  /** The same table read as a map from one character to its look-alike. */
  function Lookalike(c: char): string {
    if c == '\U{2018}' || c == '\U{2019}' then "'"
    else if c == '\U{201C}' || c == '\U{201D}' then "\""
    else if c == '\U{2013}' then "-"
    else if c == '\U{2014}' then "--"
    else if c == '\U{2026}' then "..."
    else if c == '\U{A0}' then " "
    else [c]
  }

  predicate Typographic(c: char) {
    c in {'\U{2018}', '\U{2019}', '\U{201C}', '\U{201D}', '\U{2013}', '\U{2014}', '\U{2026}', '\U{A0}'}
  }

  /** Replace every character by its image under `f`. */
  function FlatMap(s: string, f: char -> string): string {
    if |s| == 0 then "" else f(s[0]) + FlatMap(s[1..], f)
  }

  lemma {:induction false} FlatMapAppend(a: string, b: string, f: char -> string)
    ensures FlatMap(a + b, f) == FlatMap(a, f) + FlatMap(b, f)
    decreases |a|
  {
    if |a| == 0 {
      assert a + b == b;
    } else {
      assert (a + b)[1..] == a[1..] + b;
      FlatMapAppend(a[1..], b, f);
    }
  }

  /** Replacing characters one pattern at a time acts on each character separately. */
  lemma {:induction false} ReplaceEachAppend(a: string, b: string, pairs: seq<(char, string)>)
    ensures ReplaceEach(a + b, pairs) == ReplaceEach(a, pairs) + ReplaceEach(b, pairs)
    decreases |pairs|
  {
    if |pairs| > 0 {
      var c, rep := pairs[0].0, pairs[0].1;
      ReplaceCharIsSubst(a + b, c, rep);
      ReplaceCharIsSubst(a, c, rep);
      ReplaceCharIsSubst(b, c, rep);
      SubstCharAppend(a, b, c, rep);
      ReplaceEachAppend(SubstChar(a, c, rep), SubstChar(b, c, rep), pairs[1..]);
    }
  }

  /** The replacement a table gives a character: its first matching entry, or itself. */
  function FirstRep(pairs: seq<(char, string)>, c: char): string {
    if |pairs| == 0 then [c] else if pairs[0].0 == c then pairs[0].1 else FirstRep(pairs[1..], c)
  }

  /** No replacement text holds a character a later entry replaces. */
  predicate Layered(pairs: seq<(char, string)>) {
    forall j, k | 0 <= j < k < |pairs| :: pairs[k].0 !in pairs[j].1
  }

  lemma {:induction false} ReplaceEachUntouched(s: string, pairs: seq<(char, string)>)
    requires forall k | 0 <= k < |pairs| :: pairs[k].0 !in s
    ensures ReplaceEach(s, pairs) == s
    decreases |pairs|
  {
    if |pairs| > 0 {
      ReplaceCharIsSubst(s, pairs[0].0, pairs[0].1);
      SubstCharAbsent(s, pairs[0].0, pairs[0].1);
      ReplaceEachUntouched(s, pairs[1..]);
    }
  }

  lemma {:induction false} ReplaceEachSingle(c: char, pairs: seq<(char, string)>)
    requires Layered(pairs)
    ensures ReplaceEach([c], pairs) == FirstRep(pairs, c)
    decreases |pairs|
  {
    if |pairs| > 0 {
      ReplaceCharIsSubst([c], pairs[0].0, pairs[0].1);
      if pairs[0].0 == c {
        assert SubstChar([c], c, pairs[0].1) == pairs[0].1;
        ReplaceEachUntouched(pairs[0].1, pairs[1..]);
      } else {
        assert SubstChar([c], pairs[0].0, pairs[0].1) == [c];
        ReplaceEachSingle(c, pairs[1..]);
      }
    }
  }

  /** A layered table applied entry by entry is a per-character map. */
  lemma {:induction false} ReplaceEachIsMap(s: string, pairs: seq<(char, string)>, f: char -> string)
    requires Layered(pairs)
    requires forall c :: FirstRep(pairs, c) == f(c)
    ensures ReplaceEach(s, pairs) == FlatMap(s, f)
    decreases |s|
  {
    if |s| == 0 {
      ReplaceEachUntouched(s, pairs);
    } else {
      assert s == [s[0]] + s[1..];
      ReplaceEachAppend([s[0]], s[1..], pairs);
      ReplaceEachSingle(s[0], pairs);
      ReplaceEachIsMap(s[1..], pairs, f);
    }
  }

  lemma LookalikeTable()
    ensures Layered(Replacements)
    ensures forall c :: FirstRep(Replacements, c) == Lookalike(c)
  {
    forall c
      ensures FirstRep(Replacements, c) == Lookalike(c)
    {
      LookalikeAt(c);
    }
  }

  /** The table's first matching entry for `c`, read off entry by entry. */
  lemma LookalikeAt(c: char)
    ensures FirstRep(Replacements, c) == Lookalike(c)
  {
    var ps := Replacements;
    assert ps[0..] == ps;
    FirstRepStep(ps, 0, c);
    FirstRepStep(ps, 1, c);
    FirstRepStep(ps, 2, c);
    FirstRepStep(ps, 3, c);
    FirstRepStep(ps, 4, c);
    FirstRepStep(ps, 5, c);
    FirstRepStep(ps, 6, c);
    FirstRepStep(ps, 7, c);
    assert |ps[8..]| == 0;
  }

  lemma FirstRepStep(pairs: seq<(char, string)>, k: nat, c: char)
    requires k < |pairs|
    ensures FirstRep(pairs[k..], c) == if pairs[k].0 == c then pairs[k].1 else FirstRep(pairs[k + 1..], c)
  {
    assert pairs[k..][1..] == pairs[k + 1..];
  }

  /** The replacement loop of the source. */
  function Sanitize(s: string): (r: string)
    ensures r == FlatMap(s, Lookalike)
    ensures forall i | 0 <= i < |r| :: !Typographic(r[i])
  {
    LookalikeTable();
    ReplaceEachIsMap(s, Replacements, Lookalike);
    FlatMapTypographic(s);
    ReplaceEach(s, Replacements)
  }

  lemma {:induction false} FlatMapTypographic(s: string)
    ensures forall i | 0 <= i < |FlatMap(s, Lookalike)| :: !Typographic(FlatMap(s, Lookalike)[i])
    decreases |s|
  {
    if |s| > 0 {
      FlatMapTypographic(s[1..]);
      var h := Lookalike(s[0]);
      assert forall i | 0 <= i < |h| :: !Typographic(h[i]);
    }
  }

  /** `\` `(` `)` written with a leading backslash, as a PDF literal string needs. */
  function EscapeChar(c: char): string {
    if c == '\\' then "\\\\" else if c == '(' then "\\(" else if c == ')' then "\\)" else [c]
  }

  /** `.replace('\\', '\\\\').replace('(', '\\(').replace(')', '\\)')`. */
  function Escape(s: string): (r: string)
    ensures r == FlatMap(s, EscapeChar)
  {
    var pairs := [('\\', "\\\\"), ('(', "\\("), (')', "\\)")];
    assert Layered(pairs);
    forall c
      ensures FirstRep(pairs, c) == EscapeChar(c)
    {
      assert pairs[0..] == pairs;
      FirstRepStep(pairs, 0, c);
      FirstRepStep(pairs, 1, c);
      FirstRepStep(pairs, 2, c);
      assert |pairs[3..]| == 0;
    }
    ReplaceEachIsMap(s, pairs, EscapeChar);
    ReplaceEach(s, pairs)
  }

  /** A PDF reader's view of an escaped string: a backslash takes the next character literally. */
  function Unescape(s: string): string
    decreases |s|
  {
    if |s| == 0 then ""
    else if s[0] == '\\' && |s| >= 2 then [s[1]] + Unescape(s[2..])
    else [s[0]] + Unescape(s[1..])
  }

  /** Escaping loses nothing: the reader recovers the text. */
  lemma {:induction false} EscapeRoundTrip(s: string)
    ensures Unescape(Escape(s)) == s
    decreases |s|
  {
    if |s| > 0 {
      assert Escape(s) == EscapeChar(s[0]) + Escape(s[1..]);
      UnescapeEscapeChar(s[0], Escape(s[1..]));
      EscapeRoundTrip(s[1..]);
      assert s == [s[0]] + s[1..];
    }
  }

  /** The reader turns one escaped character back into the character. */
  lemma UnescapeEscapeChar(c: char, rest: string)
    ensures Unescape(EscapeChar(c) + rest) == [c] + Unescape(rest)
  {
    var e := EscapeChar(c);
    if |e| == 2 {
      assert (e + rest)[2..] == rest;
    } else {
      assert (e + rest)[1..] == rest;
    }
  }

  /** In escaped text every parenthesis is escaped, so the literal string cannot end early. */
  lemma {:induction false} EscapedParensGuarded(s: string)
    ensures EscapedOnly(Escape(s))
    decreases |s|
  {
    if |s| > 0 {
      EscapedParensGuarded(s[1..]);
      var e := EscapeChar(s[0]);
      assert Escape(s) == e + Escape(s[1..]);
      if |e| == 2 {
        assert (e + Escape(s[1..]))[2..] == Escape(s[1..]);
      } else {
        assert (e + Escape(s[1..]))[1..] == Escape(s[1..]);
      }
    }
  }

  /** Read left to right, every backslash starts a pair and no parenthesis stands alone. */
  predicate EscapedOnly(s: string)
    decreases |s|
  {
    if |s| == 0 then true
    else if s[0] == '\\' then |s| >= 2 && EscapedOnly(s[2..])
    else s[0] != '(' && s[0] != ')' && EscapedOnly(s[1..])
  }

  // ---------------------------------------------------------------------------
  // Word wrap

  const LineLimit := 85

  /** The characters `" ".join(ws)` takes. */
  function JoinedLength(ws: seq<string>): nat {
    if |ws| == 0 then 0 else if |ws| == 1 then |ws[0]| else |ws[0]| + 1 + JoinedLength(ws[1..])
  }

  lemma {:induction false} JoinedLengthIsJoinLength(ws: seq<string>)
    ensures |Join(ws, " ")| == JoinedLength(ws)
  {
    if |ws| > 1 {
      JoinedLengthIsJoinLength(ws[1..]);
    }
  }

  lemma {:induction false} JoinedLengthSnoc(ws: seq<string>, w: string)
    requires |ws| > 0
    ensures JoinedLength(ws + [w]) == JoinedLength(ws) + 1 + |w|
  {
    if |ws| == 1 {
      assert (ws + [w])[1..] == [w];
    } else {
      assert (ws + [w])[1..] == ws[1..] + [w];
      JoinedLengthSnoc(ws[1..], w);
    }
  }

  /** The loop's state: finished lines (as word lists), the words of the current line, and the
      running `current_length`. */
  datatype WrapState = WrapState(done: seq<seq<string>>, current: seq<string>, width: nat)

  /** One iteration of the loop. */
  function WrapStep(st: WrapState, w: string): WrapState {
    if st.width + |w| > LineLimit then WrapState(st.done + [st.current], [w], |w|)
    else WrapState(st.done, st.current + [w], st.width + |w| + 1)
  }

  function WrapFrom(st: WrapState, words: seq<string>): WrapState
    decreases |words|
  {
    if |words| == 0 then st else WrapFrom(WrapStep(st, words[0]), words[1..])
  }

  /** The word lists of the lines, the last (current) one included. */
  function WrapGroups(words: seq<string>): seq<seq<string>> {
    var st := WrapFrom(WrapState([], [], 0), words);
    st.done + [st.current]
  }

  function Flatten(groups: seq<seq<string>>): seq<string> {
    if |groups| == 0 then [] else groups[0] + Flatten(groups[1..])
  }

  lemma {:induction false} FlattenSnoc(groups: seq<seq<string>>, g: seq<string>)
    ensures Flatten(groups + [g]) == Flatten(groups) + g
  {
    if |groups| == 0 {
      assert [g][1..] == [];
    } else {
      assert (groups + [g])[1..] == groups[1..] + [g];
      FlattenSnoc(groups[1..], g);
    }
  }

  /** What the loop keeps true. On the first line `current_length` counts a space after every
      word; after a break it starts at the bare length of the word that opened the line, so
      there it equals the joined length. Every finished line other than a one-word line fits,
      the first within 85 characters, the later ones within 86. */
  ghost predicate WrapInvariant(st: WrapState) {
    && (|st.done| == 0 ==> st.width == (if |st.current| == 0 then 0 else JoinedLength(st.current) + 1))
    && (|st.done| > 0 ==> |st.current| > 0 && st.width == JoinedLength(st.current))
    && LinesFit(st.done + [st.current])
  }

  ghost predicate LinesFit(groups: seq<seq<string>>) {
    && (|groups| > 0 && |groups[0]| > 1 ==> JoinedLength(groups[0]) <= LineLimit)
    && forall k | 0 <= k < |groups| && |groups[k]| > 1 :: JoinedLength(groups[k]) <= LineLimit + 1
  }

  lemma {:induction false} WrapStepKeeps(st: WrapState, w: string)
    requires WrapInvariant(st)
    ensures WrapInvariant(WrapStep(st, w))
    ensures Flatten(WrapStep(st, w).done + [WrapStep(st, w).current]) == Flatten(st.done + [st.current]) + [w]
  {
    var st' := WrapStep(st, w);
    var old_groups := st.done + [st.current];
    var groups := st'.done + [st'.current];
    FlattenSnoc(st.done, st.current);
    FlattenSnoc(st'.done, st'.current);
    if st.width + |w| > LineLimit {
      assert groups == old_groups + [[w]];
      FlattenSnoc(old_groups, [w]);
      forall k | 0 <= k < |groups| && |groups[k]| > 1
        ensures JoinedLength(groups[k]) <= LineLimit + 1
      {
        assert groups[k] == old_groups[k];
      }
    } else {
      if |st.current| > 0 {
        JoinedLengthSnoc(st.current, w);
      }
      assert groups[..|groups| - 1] == old_groups[..|old_groups| - 1];
      forall k | 0 <= k < |groups| && |groups[k]| > 1
        ensures JoinedLength(groups[k]) <= LineLimit + 1
      {
        if k < |groups| - 1 {
          assert groups[k] == old_groups[k];
        }
      }
    }
  }

  lemma {:induction false} WrapFromKeeps(st: WrapState, words: seq<string>)
    requires WrapInvariant(st)
    ensures WrapInvariant(WrapFrom(st, words))
    ensures Flatten(WrapFrom(st, words).done + [WrapFrom(st, words).current])
         == Flatten(st.done + [st.current]) + words
    decreases |words|
  {
    if |words| > 0 {
      WrapStepKeeps(st, words[0]);
      WrapFromKeeps(WrapStep(st, words[0]), words[1..]);
      assert [words[0]] + words[1..] == words;
    }
  }

  /** The wrap loses, adds and reorders no word; a line holding two or more words is at most
      86 characters long, and the first such line at most 85. */
  lemma WrapKeepsWords(words: seq<string>)
    ensures Flatten(WrapGroups(words)) == words
    ensures LinesFit(WrapGroups(words))
  {
    var start := WrapState([], [], 0);
    assert Flatten([[]]) == [];
    WrapFromKeeps(start, words);
  }

  /** `lines`: each word list joined by single spaces. */
  function WrapLines(words: seq<string>): (lines: seq<string>)
    ensures |lines| == |WrapGroups(words)|
    ensures forall k | 0 <= k < |lines| :: lines[k] == Join(WrapGroups(words)[k], " ")
    ensures forall k | 0 <= k < |lines| && |WrapGroups(words)[k]| > 1 :: |lines[k]| <= LineLimit + 1
  {
    var groups := WrapGroups(words);
    WrapKeepsWords(words);
    forall k | 0 <= k < |groups| {
      JoinedLengthIsJoinLength(groups[k]);
    }
    seq(|groups|, k requires 0 <= k < |groups| => Join(groups[k], " "))
  }

  /** A line after a break can reach 86 characters: "a", 84 letters, "b" wrap to "a" and the
      84 letters followed by " b". */
  lemma LaterLineCanTake86()
    ensures var long := seq(84, _ => 'x');
            var lines := WrapLines(["a", long, "b"]);
            |lines| == 2 && |lines[1]| == 86
  {
    var long := seq(84, _ => 'x');
    var words := ["a", long, "b"];
    var s0 := WrapState([], [], 0);
    var s1 := WrapStep(s0, "a");
    assert s1 == WrapState([], ["a"], 2);
    var s2 := WrapStep(s1, long);
    assert s2 == WrapState([["a"]], [long], 84);
    var s3 := WrapStep(s2, "b");
    assert s3 == WrapState([["a"]], [long, "b"], 86);
    assert WrapFrom(s0, words) == s3 by {
      assert words[1..] == [long, "b"];
      assert words[1..][1..] == ["b"];
      assert WrapFrom(s0, words) == WrapFrom(s1, [long, "b"]);
      assert WrapFrom(s1, [long, "b"]) == WrapFrom(s2, ["b"]);
      assert WrapFrom(s2, ["b"]) == WrapFrom(s3, []);
    }
    JoinedLengthIsJoinLength([long, "b"]);
  }

  /** A first word longer than the limit leaves an empty first line. */
  lemma LongFirstWordLeavesEmptyLine(w: string)
    requires |w| > LineLimit
    ensures WrapGroups([w]) == [[], [w]]
  {
    assert WrapFrom(WrapState([], [], 0), [w]) == WrapFrom(WrapState([[]], [w], |w|), []);
  }

  // ---------------------------------------------------------------------------
  // Content stream

  const StreamOpen := "BT /F1 11 Tf 50 750 Td 15 TL "
  const StreamClose := "ET"

  /** The operators that show one line and move to the next. */
  function Segment(line: string): string {
    "(" + line + ") Tj T* "
  }

  function ShowLines(lines: seq<string>): (r: string)
    ensures |r| == |lines| * 9 + SumLengths(lines)
  {
    if |lines| == 0 then "" else Segment(lines[0]) + ShowLines(lines[1..])
  }

  function SumLengths(lines: seq<string>): nat {
    if |lines| == 0 then 0 else |lines[0]| + SumLengths(lines[1..])
  }

  /** Where the segment of line `k` starts: after the segments of the lines before it. */
  function ShownBefore(lines: seq<string>, k: nat): nat
    requires k <= |lines|
  {
    9 * k + SumLengths(lines[..k])
  }

  /** The shown text is the segments of the lines, one after another: line `k` is shown, as
      it is, right after lines `0..k`. */
  lemma {:induction false} ShowLinesSegments(lines: seq<string>, k: nat)
    requires k < |lines|
    ensures ShownBefore(lines, k) + |Segment(lines[k])| <= |ShowLines(lines)|
    ensures ShowLines(lines)[ShownBefore(lines, k)..ShownBefore(lines, k) + |Segment(lines[k])|] == Segment(lines[k])
    decreases k
  {
    var r := ShowLines(lines);
    var head := Segment(lines[0]);
    var tail := ShowLines(lines[1..]);
    assert r == head + tail;
    if k == 0 {
      assert lines[..0] == [];
      assert r[..|head|] == head;
    } else {
      ShowLinesSegments(lines[1..], k - 1);
      assert lines[..k][1..] == lines[1..][..k - 1];
      assert ShownBefore(lines, k) == |head| + ShownBefore(lines[1..], k - 1);
      var i := ShownBefore(lines[1..], k - 1);
      assert r[|head| + i..|head| + i + |Segment(lines[k])|] == tail[i..i + |Segment(lines[k])|];
    }
  }

  /** The text stream of the page for a content text: one `(line) Tj T*` per wrapped line. */
  function TextStream(content: string): (r: string)
    ensures StartsWith(r, StreamOpen) && EndsWith(r, StreamClose)
    ensures var lines := WrapLines(Words(Escape(Sanitize(content))));
            |r| == |StreamOpen| + 9 * |lines| + SumLengths(lines) + |StreamClose|
    ensures r == StreamOpen + ShowLines(WrapLines(Words(Escape(Sanitize(content))))) + StreamClose
  {
    var lines := WrapLines(Words(Escape(Sanitize(content))));
    var r := StreamOpen + ShowLines(lines) + StreamClose;
    assert r[..|StreamOpen|] == StreamOpen;
    assert r[|r| - |StreamClose|..] == StreamClose;
    r
  }
}

=== FILE: personnel.dfy ===
/**
 The participant directory (`build_personnel_map`): a Python dict, kept here as an
 insertion-ordered list of (key, profile) pairs. Every person is entered under their name
 and under their address; a later person with the same key overwrites the value but the key
 keeps its first position, as dict assignment does.
 */
module Personnel {

  import opened Base

  /** A company profile entry; an empty `style` or `signature` is an absent (falsy) one. */
  datatype Person = Person(name: string, email: string, title: string, style: string, signature: string)

  datatype Company = Company(name: string, personnel: seq<Person>)

  type Directory = seq<(string, Person)>

  function Keys(d: Directory): seq<string> {
    if |d| == 0 then [] else [d[0].0] + Keys(d[1..])
  }

  lemma KeysIndex(d: Directory)
    ensures |Keys(d)| == |d|
    ensures forall i | 0 <= i < |d| :: Keys(d)[i] == d[i].0
  {
    if |d| > 0 {
      KeysIndex(d[1..]);
    }
  }

  predicate UniqueKeys(d: Directory) {
    forall i, j | 0 <= i < j < |d| :: d[i].0 != d[j].0
  }

  /** `d.get(key)`. */
  function Lookup(d: Directory, key: string): (r: Option<Person>)
    ensures r.Some? <==> exists i | 0 <= i < |d| :: d[i].0 == key
    ensures r.Some? ==> exists i | 0 <= i < |d| :: d[i] == (key, r.value)
  {
    if |d| == 0 then None
    else if d[0].0 == key then Some(d[0].1)
    else
      var r := Lookup(d[1..], key);
      assert forall i | 1 <= i < |d| :: d[i] == d[1..][i - 1];
      r
  }

  predicate HasKey(d: Directory, key: string) {
    exists i | 0 <= i < |d| :: d[i].0 == key
  }

  /** `d[key] = p`: overwrite in place, or append a new key. */
  function Put(d: Directory, key: string, p: Person): (r: Directory)
    ensures HasKey(d, key) ==> |r| == |d|
    ensures !HasKey(d, key) ==> r == d + [(key, p)]
    ensures forall i | 0 <= i < |d| :: r[i].0 == d[i].0
  {
    if |d| == 0 then [(key, p)]
    else if d[0].0 == key then [(key, p)] + d[1..]
    else
      var rest := Put(d[1..], key, p);
      assert forall i | 1 <= i < |d| :: d[i] == d[1..][i - 1];
      [d[0]] + rest
  }

  lemma {:induction false} PutLookup(d: Directory, key: string, p: Person, k: string)
    ensures Lookup(Put(d, key, p), k) == (if k == key then Some(p) else Lookup(d, k))
    decreases |d|
  {
    if |d| > 0 && d[0].0 != key {
      PutLookup(d[1..], key, p, k);
    }
  }

  /** Assignment never creates a second entry for a key. */
  lemma PutUnique(d: Directory, key: string, p: Person)
    ensures UniqueKeys(d) ==> UniqueKeys(Put(d, key, p))
  {
    var r := Put(d, key, p);
    if !UniqueKeys(d) {
    } else if HasKey(d, key) {
      assert forall i | 0 <= i < |r| :: r[i].0 == d[i].0;
    } else {
      assert forall i | 0 <= i < |d| :: r[i].0 == d[i].0 != key;
    }
  }

  /** All people of all companies, in the order the loops visit them. */
  function AllPersons(profiles: seq<Company>): seq<Person> {
    if |profiles| == 0 then [] else profiles[0].personnel + AllPersons(profiles[1..])
  }

  /** Enter each person under their name, then under their address. */
  function EnterAll(d: Directory, people: seq<Person>): (r: Directory)
    ensures UniqueKeys(d) ==> UniqueKeys(r)
    ensures |r| <= |d| + 2 * |people|
    decreases |people|
  {
    if |people| == 0 then d
    else
      var p := people[0];
      var d1 := Put(d, p.name, p);
      var d2 := Put(d1, p.email, p);
      PutUnique(d, p.name, p);
      PutUnique(d1, p.email, p);
      EnterAll(d2, people[1..])
  }

  /** `build_personnel_map(profiles)`. */
  function BuildPersonnelMap(profiles: seq<Company>): (d: Directory)
    ensures UniqueKeys(d)
    ensures |d| <= 2 * |AllPersons(profiles)|
  {
    EnterAll([], AllPersons(profiles))
  }

  // ---------------------------------------------------------------------------
  // Reference definition: who owns a key

  /** The person a key belongs to after entering `people` in order: the last person whose
      address, or failing that whose name, is the key (the address is entered second). */
  function LastOwner(people: seq<Person>, key: string): Option<Person>
    decreases |people|
  {
    if |people| == 0 then None
    else
      var p := people[|people| - 1];
      if p.email == key || p.name == key then Some(p)
      else LastOwner(people[..|people| - 1], key)
  }

  lemma {:induction false} EnterAllLookup(d: Directory, people: seq<Person>, key: string)
    ensures Lookup(EnterAll(d, people), key)
         == (if LastOwner(people, key).Some? then LastOwner(people, key) else Lookup(d, key))
    decreases |people|
  {
    if |people| > 0 {
      var p := people[0];
      var d1 := Put(d, p.name, p);
      var d' := Put(d1, p.email, p);
      PutLookup(d, p.name, p, key);
      PutLookup(d1, p.email, p, key);
      EnterAllLookup(d', people[1..], key);
      LastOwnerCons(p, people[1..], key);
      assert people == [p] + people[1..];
    }
  }

  lemma {:induction false} LastOwnerCons(p: Person, rest: seq<Person>, key: string)
    ensures LastOwner([p] + rest, key)
         == (if LastOwner(rest, key).Some? then LastOwner(rest, key)
             else if p.email == key || p.name == key then Some(p) else None)
    decreases |rest|
  {
    if |rest| > 0 {
      var q := rest[|rest| - 1];
      assert ([p] + rest)[..|[p] + rest| - 1] == [p] + rest[..|rest| - 1];
      LastOwnerCons(p, rest[..|rest| - 1], key);
    }
  }

  /** Looking a key up in the built directory finds the last person entered under it;
      a key nobody carries is absent. */
  lemma LookupIsLastOwner(profiles: seq<Company>, key: string)
    ensures Lookup(BuildPersonnelMap(profiles), key) == LastOwner(AllPersons(profiles), key)
  {
    EnterAllLookup([], AllPersons(profiles), key);
  }
}

=== FILE: prompts.dfy ===
/**
 The prompt helpers: `filter_scenarios_by_type`, `add_prompt_variation` and
 `get_randomized_prompt`. Every `random.choice` / `random.sample` is driven by a free draw.
 */
module Prompts {

  import opened Base
  import opened Text
  import Personnel

  // ---------------------------------------------------------------------------
  // Scenario filter

  /** A scenario entry of the configuration; `description` and `base_filename` may be missing. */
  datatype Scenario = Scenario(kind: string, description: Option<string>, baseFilename: Option<string>)

  /** The `scenario_filter` setting: absent, one name, or a list of names. */
  datatype ScenarioFilter = NoFilter | Named(name: string) | Names(names: seq<string>)

  /** `not scenario_filter or scenario_filter == 'all'`: the settings that keep every scenario. */
  predicate KeepsAll(f: ScenarioFilter) {
    f.NoFilter? || f == Named("") || f == Names([]) || f == Named("all")
  }

  const OnlySuffix := "_only"

  const NoiseTags := ["(S3)", "(S4)", "(S5)", "(S6)", "(S7)", "(S8)", "(S9)",
                      "(S10)", "(S11)", "(S12)", "(S13)", "(S14)", "(S15)"]

  /** The signal tags of one investigation type; a name the table lacks has none. */
  function SignalTags(name: string): seq<string> {
    if name == "antitrust" then ["(S1)", "(S1A)", "(S1B)"]
    else if name == "safety_fraud" then ["(S2)"]
    else if name == "hr_misconduct" then ["(S_HR)"]
    else []
  }

  predicate KnownType(name: string) {
    name == "antitrust" || name == "safety_fraud" || name == "hr_misconduct"
  }

  function SignalTagsOf(names: seq<string>): (r: seq<string>)
    ensures forall t | t in r :: exists i | 0 <= i < |names| :: t in SignalTags(names[i])
  {
    if |names| == 0 then []
    else
      var rest := SignalTagsOf(names[1..]);
      assert forall i | 1 <= i < |names| :: names[1..][i - 1] == names[i];
      SignalTags(names[0]) + rest
  }

  /** The type names a filter selects, and whether the noise scenarios stay: a single name
      ending in `_only` loses every `_only` and drops the noise. */
  function Selection(f: ScenarioFilter, includeNoise: bool): (seq<string>, bool) {
    match f
    case NoFilter => ([], includeNoise)
    case Named(n) => if EndsWith(n, OnlySuffix) then ([ReplaceAll(n, OnlySuffix, "")], false) else ([n], includeNoise)
    case Names(ns) => (ns, includeNoise)
  }

  /** Every tag the filter looks for: the signal tags of its names, then the noise tags. */
  function Tags(f: ScenarioFilter, includeNoise: bool): seq<string> {
    var (names, noise) := Selection(f, includeNoise);
    SignalTagsOf(names) + (if noise then NoiseTags else [])
  }

  /** `any(prefix in desc for prefix in matching_prefixes)`, a missing description being `''`. */
  predicate Matches(s: Scenario, tags: seq<string>) {
    exists t | t in tags :: Contains(s.description.GetOr(""), t)
  }

  /** The scenarios whose description holds one of the tags, in their order, with their
      multiplicities. */
  function KeepMatching(xs: seq<Scenario>, tags: seq<string>): (r: seq<Scenario>)
    ensures SubsequenceOf(r, xs)
    ensures forall x :: multiset(r)[x] == if Matches(x, tags) then multiset(xs)[x] else 0
  {
    if |xs| == 0 then []
    else
      var rest := KeepMatching(xs[1..], tags);
      assert xs == [xs[0]] + xs[1..];
      if Matches(xs[0], tags) then
        assert ([xs[0]] + rest)[1..] == rest;
        [xs[0]] + rest
      else
        SubsequenceSkip(rest, xs[1..], xs[0]);
        rest
  }

  /** `filter_scenarios_by_type`: every scenario for an empty or `all` setting, otherwise the
      order-preserving selection of those that mention a selected tag. */
  function FilterScenariosByType(scenarios: seq<Scenario>, f: ScenarioFilter, includeNoise: bool): (r: seq<Scenario>)
    ensures KeepsAll(f) ==> r == scenarios
    ensures !KeepsAll(f) ==> SubsequenceOf(r, scenarios)
    ensures !KeepsAll(f) ==> forall x :: x in r <==> x in scenarios && Matches(x, Tags(f, includeNoise))
  {
    if KeepsAll(f) then scenarios
    else
      var r := KeepMatching(scenarios, Tags(f, includeNoise));
      assert forall x :: x in r <==> multiset(r)[x] > 0;
      assert forall x :: x in scenarios <==> multiset(scenarios)[x] > 0;
      r
  }

  lemma SignalTagsAreNotNoise(names: seq<string>)
    ensures "(S3)" !in SignalTagsOf(names)
  {
    forall i | 0 <= i < |names| ensures "(S3)" !in SignalTags(names[i]) {
    }
  }

  /** The privilege and noise scenarios are searched for exactly when noise is requested and
      the setting is not a single name ending in `_only`. */
  lemma NoiseUnlessOnly(f: ScenarioFilter, includeNoise: bool)
    ensures "(S3)" in Tags(f, includeNoise) <==> includeNoise && !(f.Named? && EndsWith(f.name, OnlySuffix))
  {
    SignalTagsAreNotNoise(Selection(f, includeNoise).0);
    assert NoiseTags[0] == "(S3)";
  }

  /** A type name outside the table contributes no tags, so adding it to a non-empty list
      changes nothing. */
  lemma UnknownNamesAddNoTags(scenarios: seq<Scenario>, names: seq<string>, unknown: string, includeNoise: bool)
    requires |names| > 0 && !KnownType(unknown)
    ensures FilterScenariosByType(scenarios, Names(names + [unknown]), includeNoise)
         == FilterScenariosByType(scenarios, Names(names), includeNoise)
  {
    SignalTagsAppend(names, [unknown]);
    assert SignalTagsOf([unknown]) == [];
    assert Tags(Names(names + [unknown]), includeNoise) == Tags(Names(names), includeNoise);
    assert !KeepsAll(Names(names + [unknown])) && !KeepsAll(Names(names));
  }

  lemma {:induction false} SignalTagsAppend(a: seq<string>, b: seq<string>)
    ensures SignalTagsOf(a + b) == SignalTagsOf(a) + SignalTagsOf(b)
  {
    if |a| > 0 {
      assert (a + b)[1..] == a[1..] + b;
      SignalTagsAppend(a[1..], b);
    } else {
      assert a + b == b;
    }
  }

  /** `all_only` loses its suffix, becomes `all`, which names no type, and drops the noise:
      nothing is selected. */
  lemma AllOnlySelectsNothing(scenarios: seq<Scenario>, includeNoise: bool)
    ensures FilterScenariosByType(scenarios, Named("all_only"), includeNoise) == []
  {
    var n := "all_only";
    assert n[|n| - |OnlySuffix|..] == OnlySuffix;
    AllOnlyLosesSuffix();
    assert EndsWith(n, OnlySuffix);
    assert Selection(Named(n), includeNoise) == (["all"], false);
    assert SignalTagsOf(["all"]) == SignalTags("all") + SignalTagsOf([]);
    assert Tags(Named(n), includeNoise) == [];
    var r := FilterScenariosByType(scenarios, Named(n), includeNoise);
    assert multiset(r) == multiset{};
  }

  /** Removing `_only` from `all_only` leaves `all`. */
  lemma AllOnlyLosesSuffix()
    ensures ReplaceAll("all_only", OnlySuffix, "") == "all"
  {
    var n := "all_only";
    assert ReplaceAll("_only", OnlySuffix, "") == "" by {
      assert "_only"[..5] == OnlySuffix;
      assert "_only"[5..] == "";
    }
    assert ReplaceAll("l_only", OnlySuffix, "") == "l" by {
      assert "l_only"[0] == 'l';
      assert "l_only"[1..] == "_only";
    }
    assert ReplaceAll("ll_only", OnlySuffix, "") == "ll" by {
      assert "ll_only"[0] == 'l';
      assert "ll_only"[1..] == "l_only";
    }
    assert n[0] == 'a';
    assert n[1..] == "ll_only";
  }

  // ---------------------------------------------------------------------------
  // Prompt variation

  const BaseStarters := ["Draft", "Write", "Compose", "Create"]

  /** The opening verbs of a variation level; an unknown level uses `medium`. */
  function Starters(level: string): (r: seq<string>)
    ensures |r| > 0
  {
    if level == "low" then BaseStarters
    else if level == "high" then BaseStarters + ["Generate", "Produce", "Put together", "Craft"]
    else BaseStarters + ["Generate", "Produce"]
  }

  /** The fillers of a variation level; an unknown level uses `medium`. */
  function Fillers(level: string): (r: seq<string>)
    ensures |r| > 0
  {
    if level == "low" then ["", ""]
    else if level == "high" then ["", "", "a brief", "a concise", "a professional", "an appropriate", "a clear", "a well-written"]
    else ["", "", "a brief", "a concise", "a professional"]
  }

  /** The first base starter the prompt begins with. */
  function FirstStarter(prompt: string): (r: Option<string>)
    ensures r.Some? ==> r.value in BaseStarters && StartsWith(prompt, r.value)
    ensures r.None? <==> forall k | 0 <= k < |BaseStarters| :: !StartsWith(prompt, BaseStarters[k])
  {
    if StartsWith(prompt, "Draft") then Some("Draft")
    else if StartsWith(prompt, "Write") then Some("Write")
    else if StartsWith(prompt, "Compose") then Some("Compose")
    else if StartsWith(prompt, "Create") then Some("Create")
    else None
  }

  function Opening(starter: string, filler: string): string {
    if filler == "" then starter else starter + " " + filler
  }

  /** `add_prompt_variation`: a prompt that opens with a base starter has that word (its
      first occurrence) replaced by a drawn starter and filler; any other prompt is kept. */
  function AddPromptVariation(prompt: string, level: string, starterDraw: nat, fillerDraw: nat): (r: string)
    ensures FirstStarter(prompt).None? ==> r == prompt
    ensures FirstStarter(prompt).Some? ==>
              r == Opening(Choice(Starters(level), starterDraw), Choice(Fillers(level), fillerDraw))
                   + prompt[|FirstStarter(prompt).value|..]
    ensures FirstStarter(prompt).Some? ==>
              && StartsWith(r, Choice(Starters(level), starterDraw))
              && EndsWith(r, prompt[|FirstStarter(prompt).value|..])
  {
    match FirstStarter(prompt)
    case None => prompt
    case Some(starter) =>
      var opening := Opening(Choice(Starters(level), starterDraw), Choice(Fillers(level), fillerDraw));
      ReplaceFirstAtStart(prompt, starter, opening);
      var r := ReplaceFirst(prompt, starter, opening);
      assert r[..|Choice(Starters(level), starterDraw)|] == Choice(Starters(level), starterDraw);
      assert r[|r| - |prompt[|starter|..]|..] == prompt[|starter|..];
      r
  }

  /** A level the tables do not name varies exactly like `medium`. */
  lemma UnknownLevelIsMedium(prompt: string, level: string, sd: nat, fd: nat)
    requires level != "low" && level != "high"
    ensures AddPromptVariation(prompt, level, sd, fd) == AddPromptVariation(prompt, "medium", sd, fd)
  {
  }

  /** At level `low` every filler is empty, so a varied prompt again opens with a base starter
      followed by the untouched rest. */
  lemma LowVariationKeepsAStarter(prompt: string, sd: nat, fd: nat)
    requires FirstStarter(prompt).Some?
    ensures var s := FirstStarter(prompt).value;
            AddPromptVariation(prompt, "low", sd, fd) == Choice(BaseStarters, sd) + prompt[|s|..]
  {
    ReplaceFirstAtStart(prompt, FirstStarter(prompt).value, Choice(BaseStarters, sd));
  }

  // ---------------------------------------------------------------------------
  // Randomized prompt

  /** A scenario prompt: one text, or a `prompt_templates` list to choose from. */
  datatype Template = Single(text: string) | Templates(options: seq<string>)

  /** `prompt_variables` in insertion order. */
  type Variables = seq<(string, seq<string>)>

  const Pool := "employee_pool"
  const Attempts := 10

  /** Everything `get_randomized_prompt` draws: the template, the variation, one `sample` per
      attempt, and one `choice` per variable position. */
  datatype PromptDraws = PromptDraws(template: nat, starter: nat, filler: nat,
                                     pair: nat -> (nat, nat), value: nat -> nat)

  /** `random.sample(pool, 2)`: two entries at distinct positions. */
  function Sample(pool: seq<string>, d: (nat, nat)): (r: (string, string))
    requires |pool| >= 2
    ensures exists i, j | 0 <= i < |pool| && 0 <= j < |pool| :: i != j && r == (pool[i], pool[j])
  {
    var n := |pool|;
    var i := d.0 % n;
    var j := (i + 1 + d.1 % (n - 1)) % n;
    assert i != j;
    (pool[i], pool[j])
  }

  /** `personnel_map.get(name, {}).get('email')`, an empty address counting as absent. */
  function AddressOf(dir: Personnel.Directory, name: string): string {
    match Personnel.Lookup(dir, name)
    case None => ""
    case Some(p) => p.email
  }

  /** A pair is taken unless both names resolve to the same address. */
  predicate Acceptable(dir: Personnel.Directory, pair: (string, string)) {
    var s, r := AddressOf(dir, pair.0), AddressOf(dir, pair.1);
    s == "" || r == "" || s != r
  }

  /** The sender/recipient loop from attempt `k` on: the first acceptable sample, or the last
      one drawn when none of the ten is. */
  function PickPair(pool: seq<string>, dir: Personnel.Directory, pair: nat -> (nat, nat), k: nat): (r: (string, string))
    requires |pool| >= 2 && k < Attempts
    ensures exists a | k <= a < Attempts :: r == Sample(pool, pair(a))
    ensures Acceptable(dir, r) <==> exists a | k <= a < Attempts :: Acceptable(dir, Sample(pool, pair(a)))
    decreases Attempts - k
  {
    var p := Sample(pool, pair(k));
    if Acceptable(dir, p) || k == Attempts - 1 then p else PickPair(pool, dir, pair, k + 1)
  }

  function Placeholder(key: string): string {
    "{" + key + "}"
  }

  /** `local_vars.get(key)` on an insertion-ordered list: the first entry with that key. */
  function Value(vars: Variables, key: string): (r: Option<seq<string>>)
    ensures r.Some? <==> exists i | 0 <= i < |vars| :: vars[i].0 == key
  {
    if |vars| == 0 then None
    else if vars[0].0 == key then Some(vars[0].1)
    else
      var r := Value(vars[1..], key);
      assert forall i | 1 <= i < |vars| :: vars[1..][i - 1] == vars[i];
      r
  }

  /** The loop over the other variables from position `i`: each placeholder present is
      replaced everywhere by one drawn value. */
  function Substitute(prompt: string, vars: Variables, i: nat, value: nat -> nat): (r: Result<string>)
    requires i <= |vars|
    ensures (forall k | i <= k < |vars| :: vars[k].0 == Pool || !Contains(prompt, Placeholder(vars[k].0))) ==> r == Ok(prompt)
    ensures (forall k | i <= k < |vars| :: vars[k].0 == Pool || |vars[k].1| > 0) ==> r.Ok?
    ensures r.Raised? ==> exists k | i <= k < |vars| :: vars[k].0 != Pool && |vars[k].1| == 0
    decreases |vars| - i
  {
    if i == |vars| then Ok(prompt)
    else
      var (key, values) := vars[i];
      if key == Pool || !Contains(prompt, Placeholder(key)) then Substitute(prompt, vars, i + 1, value)
      else if |values| == 0 then Raised("IndexError")
      else Substitute(ReplaceAll(prompt, Placeholder(key), Choice(values, value(i))), vars, i + 1, value)
  }

  /** One turn of the variable loop, on the prompt as it stands when variable `k` comes up;
      a turn that raises leaves the prompt as it is. */
  function Turn(prompt: string, vars: Variables, k: nat, value: nat -> nat): string
    requires k < |vars|
  {
    var (key, values) := vars[k];
    if key == Pool || !Contains(prompt, Placeholder(key)) || |values| == 0 then prompt
    else ReplaceAll(prompt, Placeholder(key), Choice(values, value(k)))
  }

  /** Variable `k` stops the loop: its placeholder is in the prompt and it has no values. */
  predicate Stops(prompt: string, vars: Variables, k: nat)
    requires k < |vars|
  {
    vars[k].0 != Pool && Contains(prompt, Placeholder(vars[k].0)) && |vars[k].1| == 0
  }

  /** The prompt after the turns of variables `i` to `k - 1`, counted forwards. */
  function Progress(prompt: string, vars: Variables, i: nat, k: nat, value: nat -> nat): string
    requires i <= k <= |vars|
    decreases k - i
  {
    if k == i then prompt else Turn(Progress(prompt, vars, i, k - 1, value), vars, k - 1, value)
  }

  /** Some variable from `i` on stops the loop, on the prompt as the earlier turns leave it. */
  predicate StopsFrom(prompt: string, vars: Variables, i: nat, value: nat -> nat)
    requires i <= |vars|
  {
    exists k | i <= k < |vars| :: Stops(Progress(prompt, vars, i, k, value), vars, k)
  }

  /** Starting one turn later from the prompt the first turn leaves reaches the same prompt. */
  lemma {:induction false} ProgressFirst(prompt: string, vars: Variables, i: nat, k: nat, value: nat -> nat)
    requires i < k <= |vars|
    ensures Progress(prompt, vars, i, k, value) == Progress(Turn(prompt, vars, i, value), vars, i + 1, k, value)
    decreases k - i
  {
    if k > i + 1 {
      ProgressFirst(prompt, vars, i, k - 1, value);
    }
  }

  /** The loop raises exactly when some variable finds its placeholder in the prompt as the
      earlier turns left it and has no values; otherwise it returns the prompt after every turn. */
  lemma {:induction false} SubstituteByTurns(prompt: string, vars: Variables, i: nat, value: nat -> nat)
    requires i <= |vars|
    ensures var r := Substitute(prompt, vars, i, value);
            && (r.Raised? <==> StopsFrom(prompt, vars, i, value))
            && (r.Raised? ==> r.error == "IndexError")
            && (r.Ok? ==> r.value == Progress(prompt, vars, i, |vars|, value))
    decreases |vars| - i
  {
    if i == |vars| {
    } else if Stops(prompt, vars, i) {
      assert Progress(prompt, vars, i, i, value) == prompt;
    } else {
      var next := Turn(prompt, vars, i, value);
      SubstituteTurn(prompt, vars, i, value);
      SubstituteByTurns(next, vars, i + 1, value);
      StopsLater(prompt, vars, i, value);
      ProgressFirst(prompt, vars, i, |vars|, value);
    }
  }

  /** A turn that does not stop the loop hands it on to the next variable. */
  lemma SubstituteTurn(prompt: string, vars: Variables, i: nat, value: nat -> nat)
    requires i < |vars| && !Stops(prompt, vars, i)
    ensures Substitute(prompt, vars, i, value) == Substitute(Turn(prompt, vars, i, value), vars, i + 1, value)
  {
  }

  /** When variable `i` does not stop the loop, a later one stops it from `i` exactly when it
      stops it from `i + 1` on the prompt turn `i` leaves. */
  lemma StopsLater(prompt: string, vars: Variables, i: nat, value: nat -> nat)
    requires i < |vars| && !Stops(prompt, vars, i)
    ensures StopsFrom(prompt, vars, i, value) <==> StopsFrom(Turn(prompt, vars, i, value), vars, i + 1, value)
  {
    var next := Turn(prompt, vars, i, value);
    if StopsFrom(next, vars, i + 1, value) {
      var k :| i + 1 <= k < |vars| && Stops(Progress(next, vars, i + 1, k, value), vars, k);
      ProgressFirst(prompt, vars, i, k, value);
      assert Stops(Progress(prompt, vars, i, k, value), vars, k);
    }
    if StopsFrom(prompt, vars, i, value) {
      var k :| i <= k < |vars| && Stops(Progress(prompt, vars, i, k, value), vars, k);
      assert k != i by {
        assert Progress(prompt, vars, i, i, value) == prompt;
      }
      ProgressFirst(prompt, vars, i, k, value);
      assert Stops(Progress(next, vars, i + 1, k, value), vars, k);
    }
  }

  /** A variable whose placeholder is present and whose list is non-empty replaces every
      occurrence of the placeholder by one drawn value before the loop goes on. */
  lemma SubstitutePresent(prompt: string, vars: Variables, i: nat, value: nat -> nat)
    requires i < |vars| && vars[i].0 != Pool && Contains(prompt, Placeholder(vars[i].0))
    ensures |vars[i].1| == 0 ==> Substitute(prompt, vars, i, value) == Raised("IndexError")
    ensures |vars[i].1| > 0 ==>
              var v := Choice(vars[i].1, value(i));
              && v in vars[i].1
              && Substitute(prompt, vars, i, value) == Substitute(ReplaceAll(prompt, Placeholder(vars[i].0), v), vars, i + 1, value)
  {
  }

  /** Replacing a placeholder does not always clear it: the text around an occurrence and
      the drawn value can spell it again, so the loop promises nothing about what is left. */
  lemma ValueMayRebuildPlaceholder()
    ensures Contains("{{a}}", Placeholder("a"))
    ensures ReplaceAll("{{a}}", Placeholder("a"), "a") == Placeholder("a")
  {
    assert OccursAt("{{a}}", Placeholder("a"), 1);
    assert "{{a}}"[1..] == Placeholder("a") + "}";
    assert ReplaceAll("}", Placeholder("a"), "a") == "}";
  }

  /** The chosen template, varied when the scenario has run before. */
  function Varied(t: Template, runCount: int, d: PromptDraws): (r: Result<string>)
    ensures r.Raised? <==> t.Templates? && |t.options| == 0
    ensures runCount <= 1 && t.Single? ==> r == Ok(t.text)
  {
    var chosen := match t
                  case Single(s) => Ok(s)
                  case Templates(opts) => if |opts| == 0 then Raised("IndexError") else Ok(Choice(opts, d.template));
    if chosen.Raised? || runCount <= 1 then chosen
    else Ok(AddPromptVariation(chosen.value, if runCount > 3 then "high" else "medium", d.starter, d.filler))
  }

  predicate WantsPair(prompt: string, vars: Variables) {
    Contains(prompt, "{sender}") && Contains(prompt, "{recipient}") && Value(vars, Pool).Some?
  }

  /** `get_randomized_prompt`. */
  function GetRandomizedPrompt(t: Template, vars: Variables, dir: Personnel.Directory, runCount: int,
                               d: PromptDraws): (r: Result<string>)
    ensures Varied(t, runCount, d).Raised? ==> r.Raised?
    ensures Varied(t, runCount, d).Ok? && |vars| == 0 ==> r == Varied(t, runCount, d)
    ensures (Varied(t, runCount, d).Ok? && WantsPair(Varied(t, runCount, d).value, vars)
             && |Value(vars, Pool).value| < 2) ==> r.Raised?
    ensures r.Raised? ==> Varied(t, runCount, d).Raised?
                          || (exists k | 0 <= k < |vars| :: vars[k].0 != Pool && |vars[k].1| == 0)
                          || (WantsPair(Varied(t, runCount, d).value, vars) && |Value(vars, Pool).value| < 2)
    ensures (Varied(t, runCount, d).Ok? && |vars| > 0 && WantsPair(Varied(t, runCount, d).value, vars)
             && |Value(vars, Pool).value| >= 2) ==>
              var pair := PickPair(Value(vars, Pool).value, dir, d.pair, 0);
              r == Substitute(ReplaceAll(ReplaceAll(Varied(t, runCount, d).value, "{sender}", pair.0), "{recipient}", pair.1),
                              vars, 0, d.value)
    ensures (Varied(t, runCount, d).Ok? && |vars| > 0 && !WantsPair(Varied(t, runCount, d).value, vars)) ==>
              r == Substitute(Varied(t, runCount, d).value, vars, 0, d.value)
  {
    match Varied(t, runCount, d)
    case Raised(e) => Raised(e)
    case Ok(prompt) =>
      if |vars| == 0 then Ok(prompt)
      else if WantsPair(prompt, vars) then
        var pool := Value(vars, Pool).value;
        if |pool| < 2 then Raised("ValueError")
        else
          var (sender, recipient) := PickPair(pool, dir, d.pair, 0);
          Substitute(ReplaceAll(ReplaceAll(prompt, "{sender}", sender), "{recipient}", recipient), vars, 0, d.value)
      else Substitute(prompt, vars, 0, d.value)
  }

  /** With the employee pool as the only variable, the sender and recipient placeholders are
      filled with the names at two distinct positions of the pool. */
  lemma PairFilledFromPool(t: Template, pool: seq<string>, dir: Personnel.Directory, runCount: int, d: PromptDraws)
    requires Varied(t, runCount, d).Ok? && |pool| >= 2
    requires Contains(Varied(t, runCount, d).value, "{sender}") && Contains(Varied(t, runCount, d).value, "{recipient}")
    ensures exists i, j | 0 <= i < |pool| && 0 <= j < |pool| :: i != j &&
              GetRandomizedPrompt(t, [(Pool, pool)], dir, runCount, d)
              == Ok(ReplaceAll(ReplaceAll(Varied(t, runCount, d).value, "{sender}", pool[i]), "{recipient}", pool[j]))
  {
    var vars := [(Pool, pool)];
    assert Value(vars, Pool) == Some(pool);
    var pair := PickPair(pool, dir, d.pair, 0);
    var a :| 0 <= a < Attempts && pair == Sample(pool, d.pair(a));
    var i, j :| 0 <= i < |pool| && 0 <= j < |pool| && i != j && pair == (pool[i], pool[j]);
    var filled := ReplaceAll(ReplaceAll(Varied(t, runCount, d).value, "{sender}", pool[i]), "{recipient}", pool[j]);
    assert Substitute(filled, vars, 0, d.value) == Ok(filled);
  }

  /** The sender and recipient resolve to the same address only when every one of the ten
      samples did. */
  lemma SelfMailOnlyWhenForced(pool: seq<string>, dir: Personnel.Directory, pair: nat -> (nat, nat))
    requires |pool| >= 2
    ensures !Acceptable(dir, PickPair(pool, dir, pair, 0)) ==>
              forall a | 0 <= a < Attempts :: !Acceptable(dir, Sample(pool, pair(a)))
  {
  }
}

=== FILE: retry.dfy ===
/**
 The retry wrapper around the text-generation client (`call_llm_with_retry`).
 The wrapped function is a script: `call(k)` is what its k-th (0-based) call does.
 Sleeping is recorded, not performed: the result lists every `time.sleep` argument.
 */
module Retry {

  import opened Base
  import Text

  /** What one call of the wrapped function does: return a value or raise an error. */
  datatype CallOutcome<T> = Returned(value: T) | Failed(message: string)

  /** The outcome of the wrapper, the sleeps it took in order, and how many calls it made. */
  datatype RetryRun<T> = RetryRun(result: Result<T>, sleeps: seq<nat>, calls: nat)

  /** The error-signature check: "429" in the message, or "rate_limit" or "quota" in its lower case. */
  predicate IsRateLimited(message: string) {
    || Text.Contains(message, "429")
    || Text.Contains(Text.Lower(message), "rate_limit")
    || Text.Contains(Text.Lower(message), "quota")
  }

  predicate RateLimitedFailure<T>(o: CallOutcome<T>) {
    o.Failed? && IsRateLimited(o.message)
  }

  function AsResult<T>(o: CallOutcome<T>): Result<T> {
    match o
    case Returned(v) => Ok(v)
    case Failed(e) => Raised(e)
  }

  function Pow2(n: nat): (r: nat)
    ensures r >= 1
  {
    if n == 0 then 1 else 2 * Pow2(n - 1)
  }

  /** Seconds slept after the failed attempt with 0-based index `attempt`: `2 ** (attempt + 1)`. */
  function Backoff(attempt: nat): nat {
    Pow2(attempt + 1)
  }

  const DefaultMaxRetries := 5

  /** The loop body from attempt `attempt` on; the sleeps are those taken from `attempt` on. */
  function Attempts<T>(call: nat -> CallOutcome<T>, maxRetries: nat, attempt: nat): (r: RetryRun<T>)
    requires attempt < maxRetries
    ensures attempt < r.calls <= maxRetries
    ensures |r.sleeps| == r.calls - 1 - attempt
    ensures forall k | 0 <= k < |r.sleeps| :: r.sleeps[k] == Backoff(attempt + k)
    ensures forall k | attempt <= k < r.calls - 1 :: RateLimitedFailure(call(k))
    ensures r.result == AsResult(call(r.calls - 1))
    ensures r.calls < maxRetries ==> !RateLimitedFailure(call(r.calls - 1))
    decreases maxRetries - attempt
  {
    match call(attempt)
    case Returned(v) => RetryRun(Ok(v), [], attempt + 1)
    case Failed(e) =>
      if IsRateLimited(e) && attempt < maxRetries - 1 then
        var rest := Attempts(call, maxRetries, attempt + 1);
        RetryRun(rest.result, [Backoff(attempt)] + rest.sleeps, rest.calls)
      else
        RetryRun(Raised(e), [], attempt + 1)
  }

  function FailedAfter(maxRetries: int): string {
    "Failed after " + Text.IntToString(maxRetries) + " retries"
  }

  /**
   `call_llm_with_retry(func, max_retries=maxRetries)`. It calls the script at most
   `maxRetries` times, stops at the first value or the first error that is not
   rate-limited, sleeps `2 ** (k + 1)` seconds after the k-th rate-limited failure
   unless it was the last allowed attempt, and re-raises the error of its last call.
   With `maxRetries <= 0` the loop never runs and the fallback error is raised.
   */
  function CallWithRetry<T>(call: nat -> CallOutcome<T>, maxRetries: int): (r: RetryRun<T>)
    ensures maxRetries <= 0 ==> r == RetryRun(Raised(FailedAfter(maxRetries)), [], 0)
    ensures maxRetries > 0 ==> 1 <= r.calls <= maxRetries
    ensures maxRetries > 0 ==> |r.sleeps| == r.calls - 1
    ensures forall k | 0 <= k < |r.sleeps| :: r.sleeps[k] == Backoff(k)
    ensures forall k | 0 <= k < r.calls - 1 :: RateLimitedFailure(call(k))
    ensures maxRetries > 0 ==> r.result == AsResult(call(r.calls - 1))
    ensures r.calls < maxRetries ==> !RateLimitedFailure(call(r.calls - 1))
  {
    if maxRetries <= 0 then RetryRun(Raised(FailedAfter(maxRetries)), [], 0)
    else Attempts(call, maxRetries, 0)
  }

  // ---------------------------------------------------------------------------
  // Properties

  lemma {:induction false} Pow2Grows(m: nat, n: nat)
    requires m < n
    ensures Pow2(m) < Pow2(n)
    decreases n
  {
    if m < n - 1 {
      Pow2Grows(m, n - 1);
    }
  }

  /** The backoff sleeps strictly increase: 2, 4, 8, ... */
  lemma SleepsIncrease<T>(call: nat -> CallOutcome<T>, maxRetries: int, i: nat, j: nat)
    requires i < j < |CallWithRetry(call, maxRetries).sleeps|
    ensures CallWithRetry(call, maxRetries).sleeps[i] < CallWithRetry(call, maxRetries).sleeps[j]
  {
    Pow2Grows(i + 1, j + 1);
  }

  /** A value returned by any allowed call is what the wrapper returns, as long as every
      earlier call failed with a rate-limit error. */
  lemma FirstSuccessReturned<T>(call: nat -> CallOutcome<T>, maxRetries: int, k: nat)
    requires k < maxRetries
    requires call(k).Returned?
    requires forall j | 0 <= j < k :: RateLimitedFailure(call(j))
    ensures CallWithRetry(call, maxRetries).result == Ok(call(k).value)
    ensures CallWithRetry(call, maxRetries).calls == k + 1
    ensures |CallWithRetry(call, maxRetries).sleeps| == k
  {
    var r := CallWithRetry(call, maxRetries);
    assert 0 <= k < r.calls - 1 ==> RateLimitedFailure(call(k));
  }

  /** An error without a rate-limit signature propagates from the first call, without sleeping. */
  lemma NonRateLimitedPropagates<T>(call: nat -> CallOutcome<T>, maxRetries: int)
    requires maxRetries > 0
    requires call(0).Failed? && !IsRateLimited(call(0).message)
    ensures CallWithRetry(call, maxRetries) == RetryRun(Raised(call(0).message), [], 1)
  {
  }

  /** `maxRetries` rate-limited failures in a row: the last error is re-raised after
      `maxRetries - 1` sleeps. */
  lemma ExhaustedReraises<T>(call: nat -> CallOutcome<T>, maxRetries: int)
    requires maxRetries > 0
    requires forall j | 0 <= j < maxRetries :: RateLimitedFailure(call(j))
    ensures CallWithRetry(call, maxRetries).result == AsResult(call(maxRetries - 1))
    ensures CallWithRetry(call, maxRetries).result.Raised?
    ensures CallWithRetry(call, maxRetries).calls == maxRetries
    ensures |CallWithRetry(call, maxRetries).sleeps| == maxRetries - 1
  {
  }

  /** A script that hits the rate limit three times and then succeeds: three sleeps of
      2, 4 and 8 seconds, and the value of the fourth call. */
  lemma ThreeRateLimitsThenSuccess()
    ensures var call := (k: nat) => if k < 3 then Failed("Error code: 429 - rate limit") else Returned(7);
            CallWithRetry(call, DefaultMaxRetries) == RetryRun(Ok(7), [2, 4, 8], 4)
  {
    var call := (k: nat) => if k < 3 then Failed("Error code: 429 - rate limit") else Returned(7);
    assert Text.OccursAt("Error code: 429 - rate limit", "429", 12);
    assert IsRateLimited("Error code: 429 - rate limit");
    FirstSuccessReturned(call, DefaultMaxRetries, 3);
    var r := CallWithRetry(call, DefaultMaxRetries);
    assert r.sleeps == [Backoff(0), Backoff(1), Backoff(2)];
  }
}

=== FILE: rsmf.dfy ===
/**
 `create_and_save_rsmf`: the Teams conversation as a Relativity Short Message Format
 manifest. Participants are the distinct senders; each message becomes an event stamped
 with its local time. The conversion of a seconds-clock value to calendar fields is the
 input `calendar`; the conversation and event uuids are left out.
 */
module Rsmf {

  import opened Base
  import opened Text
  import opened Timestamps
  import opened Chat
  import opened Stats
  import Slack

  const UnknownEmail := "unknown@chat.com"
  const UnknownName := "Unknown"

  datatype Participant = Participant(id: string, display: string, email: string)

  /** An event: its participant, body and stamp, the optional `reactions` entry (a reaction
      type and its reactors) and the optional `editedTimestamp`. */
  datatype RsmfEvent = RsmfEvent(participant: Option<string>, body: Option<string>, timestamp: string,
                                 reactions: Option<Slack.Reaction>, editedTimestamp: Option<string>)

  /** The reaction types a Teams event draws from. */
  const TeamsReactionTypes: seq<string> := ["like", "heart", "laugh", "surprised", "sad"]

  datatype Manifest = Manifest(participants: seq<Participant>, events: seq<RsmfEvent>,
                               folder: string, fileName: string)

  /** `strftime("%Y-%m-%dT%H:%M:%S%z")` of a local time (whose `%z` is empty), followed by
      the rule that appends `Z` when the text has no `Z`, `+` or `-`. */
  function IsoTimestamp(c: Civil): (r: string)
    ensures StartsWith(r, DateText(c) + "T" + ClockText(c))
    ensures |r| <= |DateText(c) + "T" + ClockText(c)| + 1
  {
    var t := DateText(c) + "T" + ClockText(c);
    if !EndsWith(t, "Z") && '+' !in t && '-' !in t then t + "Z" else t
  }

  /** The date always holds a `-`, so the `Z` is never appended and the stamp carries no zone. */
  lemma NoZoneSuffixAdded(c: Civil)
    ensures IsoTimestamp(c) == DateText(c) + "T" + ClockText(c)
    ensures !EndsWith(IsoTimestamp(c), "Z")
  {
    var t := DateText(c) + "T" + ClockText(c);
    var d := DateText(c);
    var k :| 0 <= k < |d| && d[k] == '-';
    assert t[k] == '-';
    var cl := ClockText(c);
    if |cl| > 0 {
      assert t[|t| - 1] == cl[|cl| - 1];
    }
  }

  /** The participants: the distinct senders, with the email as id. */
  function Participants(msgs: seq<ChatMessage>): (r: seq<Participant>)
    ensures |r| <= |msgs|
    ensures forall i | 0 <= i < |r| :: r[i].id == r[i].email
    ensures forall i, j | 0 <= i < j < |r| :: r[i].email != r[j].email
    ensures forall i | 0 <= i < |msgs| :: exists k | 0 <= k < |r| :: r[k].email == SenderOf(msgs[i], UnknownEmail)
  {
    var us := UniqueSenders(msgs, UnknownEmail, UnknownName);
    var r := seq(|us|, k requires 0 <= k < |us| => Participant(us[k].0, us[k].1, us[k].0));
    forall i | 0 <= i < |msgs|
      ensures exists k | 0 <= k < |r| :: r[k].email == SenderOf(msgs[i], UnknownEmail)
    {
      UniqueSendersCover(msgs, UnknownEmail, UnknownName, i);
      var k :| 0 <= k < |us| && us[k].0 == SenderOf(msgs[i], UnknownEmail);
      assert r[k].email == us[k].0;
    }
    r
  }

  /** Every participant is a sender, shown with the name of its first message. */
  predicate SendersOnly(msgs: seq<ChatMessage>, ps: seq<Participant>) {
    forall k | 0 <= k < |ps| ::
      ps[k].email in Senders(msgs, UnknownEmail) && FirstNamed(msgs, UnknownEmail, UnknownName, ps[k].email, ps[k].display)
  }

  /** No one but a sender is a participant, and each is shown with the name of the first
      message from its address. */
  lemma ParticipantsAreSenders(msgs: seq<ChatMessage>)
    ensures SendersOnly(msgs, Participants(msgs))
  {
    UniqueSendersNamed(msgs, UnknownEmail, UnknownName);
  }

  /** `participant_map.get(msg.get('sender_email'))`: every given address is a participant
      id; a message without one looks up `None`. */
  function EventParticipant(m: ChatMessage, ps: seq<Participant>): (r: Option<string>)
    ensures r.Some? <==> m.senderEmail.Some? && exists k | 0 <= k < |ps| :: ps[k].email == m.senderEmail.value
    ensures r.Some? ==> r == m.senderEmail
  {
    match m.senderEmail
    case None => None
    case Some(e) => if exists k | 0 <= k < |ps| :: ps[k].email == e then Some(e) else None
  }

  /** The manifest of a conversation started at `start` (seconds) with length-based pauses. */
  function RsmfManifest(base: string, msgs: seq<ChatMessage>, start: int, draws: seq<nat>,
                        decs: seq<Slack.Decoration>, calendar: int -> Civil): (r: Manifest)
    requires |draws| == |msgs| && |decs| == |msgs|
    ensures r.participants == Participants(msgs)
    ensures |r.events| == |msgs|
    ensures forall i | 0 <= i < |msgs| :: r.events[i].body == msgs[i].body
    ensures forall i | 0 <= i < |msgs| :: msgs[i].senderEmail.Some? ==> r.events[i].participant == msgs[i].senderEmail
    ensures forall i | 0 <= i < |msgs| ::
              r.events[i].timestamp == IsoTimestamp(calendar(Clock(start, LengthGaps(msgs, draws))[i]))
    ensures forall i | 0 <= i < |msgs| ::
              Ok(r.events[i].reactions) == Slack.ReactionOf(|BodyText(msgs[i])|, TeamsReactionTypes, ParticipantIds(r.participants), decs[i])
    ensures forall i | 0 <= i < |msgs| :: var edit := Slack.Edited(|BodyText(msgs[i])|, Clock(start, LengthGaps(msgs, draws))[i], decs[i]);
              && (r.events[i].editedTimestamp.Some? <==> edit.Some?)
              && (edit.Some? ==> r.events[i].editedTimestamp.value == IsoTimestamp(calendar(edit.value)))
    ensures '@' !in r.folder && r.fileName == base + ".rsmf"
    ensures |msgs| > 0 ==> r.folder == Before(SenderOf(msgs[0], UnknownEmail), '@')
    ensures |msgs| == 0 ==> r.folder == "unknown"
  {
    var ps := Participants(msgs);
    var events := Events(msgs, ps, Clock(start, LengthGaps(msgs, draws)), decs, calendar);
    var custodian := if |ps| > 0 then ps[0].email else "unknown";
    FirstSenderFirst(msgs);
    Manifest(ps, events, Before(custodian, '@'), base + ".rsmf")
  }

  /** The participants' ids, in order: the pool `random.sample` draws reactors from. */
  function ParticipantIds(ps: seq<Participant>): (r: seq<string>)
    ensures |r| == |ps| && forall k | 0 <= k < |ps| :: r[k] == ps[k].id
  {
    seq(|ps|, k requires 0 <= k < |ps| => ps[k].id)
  }

  /** The `editedTimestamp` of an edit drawn at `edit` seconds: plain `strftime`, which for a
      local time is the same text as the event stamp. */
  function EditStamp(edit: Option<int>, calendar: int -> Civil): (r: Option<string>)
    ensures r.Some? <==> edit.Some?
    ensures edit.Some? ==> r.value == IsoTimestamp(calendar(edit.value))
  {
    match edit
    case None => None
    case Some(e) => NoZoneSuffixAdded(calendar(e)); Some(DateText(calendar(e)) + "T" + ClockText(calendar(e)))
  }

  /** The event of the `i`-th message. The reaction draw cannot raise: every message's sender
      is a participant, so the reactor pool is never empty. */
  function EventAt(msgs: seq<ChatMessage>, i: nat, ps: seq<Participant>, times: seq<int>,
                   decs: seq<Slack.Decoration>, calendar: int -> Civil): (r: RsmfEvent)
    requires i < |msgs| == |times| == |decs|
    requires Listed(msgs[i], ps)
    ensures r.body == msgs[i].body && r.timestamp == IsoTimestamp(calendar(times[i]))
    ensures msgs[i].senderEmail.Some? ==> r.participant == msgs[i].senderEmail
    ensures Ok(r.reactions) == Slack.ReactionOf(|BodyText(msgs[i])|, TeamsReactionTypes, ParticipantIds(ps), decs[i])
    ensures var edit := Slack.Edited(|BodyText(msgs[i])|, times[i], decs[i]);
            && (r.editedTimestamp.Some? <==> edit.Some?)
            && (edit.Some? ==> r.editedTimestamp.value == IsoTimestamp(calendar(edit.value)))
  {
    SenderPoolNonEmpty(msgs[i], ps);
    GivenSenderIsParticipant(msgs[i], ps);
    var length := |BodyText(msgs[i])|;
    var reactions := match Slack.ReactionOf(length, TeamsReactionTypes, ParticipantIds(ps), decs[i])
                     case Ok(x) => x case Raised(_) => None;
    RsmfEvent(EventParticipant(msgs[i], ps), msgs[i].body, IsoTimestamp(calendar(times[i])), reactions,
              EditStamp(Slack.Edited(length, times[i], decs[i]), calendar))
  }

  /** One event per message, naming the participant whose address the message gives. */
  function Events(msgs: seq<ChatMessage>, ps: seq<Participant>, times: seq<int>, decs: seq<Slack.Decoration>,
                  calendar: int -> Civil): (r: seq<RsmfEvent>)
    requires |times| == |msgs| && |decs| == |msgs|
    requires forall i | 0 <= i < |msgs| :: Listed(msgs[i], ps)
    ensures |r| == |msgs|
    ensures forall i | 0 <= i < |msgs| :: r[i].body == msgs[i].body && r[i].timestamp == IsoTimestamp(calendar(times[i]))
    ensures forall i | 0 <= i < |msgs| :: msgs[i].senderEmail.Some? ==> r[i].participant == msgs[i].senderEmail
    ensures forall i | 0 <= i < |msgs| ::
              Ok(r[i].reactions) == Slack.ReactionOf(|BodyText(msgs[i])|, TeamsReactionTypes, ParticipantIds(ps), decs[i])
    ensures forall i | 0 <= i < |msgs| :: var edit := Slack.Edited(|BodyText(msgs[i])|, times[i], decs[i]);
              && (r[i].editedTimestamp.Some? <==> edit.Some?)
              && (edit.Some? ==> r[i].editedTimestamp.value == IsoTimestamp(calendar(edit.value)))
  {
    seq(|msgs|, i requires 0 <= i < |msgs| => EventAt(msgs, i, ps, times, decs, calendar))
  }

  /** The sender of `m` is among the participants. */
  predicate Listed(m: ChatMessage, ps: seq<Participant>) {
    exists k | 0 <= k < |ps| :: ps[k].email == SenderOf(m, UnknownEmail)
  }

  lemma SenderPoolNonEmpty(m: ChatMessage, ps: seq<Participant>)
    requires Listed(m, ps)
    ensures |ps| > 0
  {
  }

  lemma GivenSenderIsParticipant(m: ChatMessage, ps: seq<Participant>)
    requires Listed(m, ps)
    ensures m.senderEmail.Some? ==> EventParticipant(m, ps) == m.senderEmail
  {
    var k :| 0 <= k < |ps| && ps[k].email == SenderOf(m, UnknownEmail);
    assert m.senderEmail.Some? ==> ps[k].email == m.senderEmail.value;
  }

  /** The first participant is the first message's sender. */
  lemma FirstSenderFirst(msgs: seq<ChatMessage>)
    ensures |msgs| > 0 ==> |Participants(msgs)| > 0 && Participants(msgs)[0].email == SenderOf(msgs[0], UnknownEmail)
  {
    var ps := Participants(msgs);
    if |msgs| > 0 {
      assert |ps| > 0;
      UniqueSendersFirstName(msgs, UnknownEmail, UnknownName, 0);
    }
  }

  /** A message without `sender_email` is filed under `unknown@chat.com` among the participants,
      yet its event names no participant. */
  lemma MissingSenderHasNoParticipant(m: ChatMessage, base: string, start: int, d: nat, dec: Slack.Decoration,
                                      calendar: int -> Civil)
    requires m.senderEmail.None?
    ensures RsmfManifest(base, [m], start, [d], [dec], calendar).participants[0].email == UnknownEmail
    ensures RsmfManifest(base, [m], start, [d], [dec], calendar).events[0].participant.None?
  {
    FirstSenderFirst([m]);
  }

  /** A Teams reaction never raises: when its draw fires it takes one of the five types and
      one to three distinct-position reactors, each of them a participant's id. */
  lemma TeamsReactorsAreParticipants(base: string, msgs: seq<ChatMessage>, start: int, draws: seq<nat>,
                                     decs: seq<Slack.Decoration>, calendar: int -> Civil, i: nat)
    requires |draws| == |msgs| && |decs| == |msgs| && i < |msgs|
    ensures var r := RsmfManifest(base, msgs, start, draws, decs, calendar);
            && (r.events[i].reactions.Some? <==> Slack.Reacts(|BodyText(msgs[i])|, decs[i]))
            && (r.events[i].reactions.Some? ==>
                  && r.events[i].reactions.value.name in TeamsReactionTypes
                  && 1 <= |r.events[i].reactions.value.users| <= 3
                  && forall u | u in r.events[i].reactions.value.users ::
                       exists k | 0 <= k < |r.participants| :: r.participants[k].id == u)
  {
    var r := RsmfManifest(base, msgs, start, draws, decs, calendar);
    FirstSenderFirst(msgs);
    ReactorsAreParticipants(r.participants, r.events[i], |BodyText(msgs[i])|, decs[i]);
  }

  lemma ReactorsAreParticipants(ps: seq<Participant>, e: RsmfEvent, length: nat, dec: Slack.Decoration)
    requires |ps| > 0
    requires Ok(e.reactions) == Slack.ReactionOf(length, TeamsReactionTypes, ParticipantIds(ps), dec)
    ensures e.reactions.Some? <==> Slack.Reacts(length, dec)
    ensures e.reactions.Some? ==>
              && e.reactions.value.name in TeamsReactionTypes
              && 1 <= |e.reactions.value.users| <= 3
              && forall u | u in e.reactions.value.users :: exists k | 0 <= k < |ps| :: ps[k].id == u
  {
    var ids := ParticipantIds(ps);
    ReactorsFromPool(length, ids, dec, e.reactions);
    if e.reactions.Some? {
      forall u | u in e.reactions.value.users ensures exists k | 0 <= k < |ps| :: ps[k].id == u {
        var k :| 0 <= k < |ids| && ids[k] == u;
        assert ps[k].id == u;
      }
    }
  }

  /** With a non-empty pool the reaction draw succeeds, and its reactors come from the pool. */
  lemma ReactorsFromPool(length: nat, ids: seq<string>, dec: Slack.Decoration, reaction: Option<Slack.Reaction>)
    requires |ids| > 0
    requires Ok(reaction) == Slack.ReactionOf(length, TeamsReactionTypes, ids, dec)
    ensures reaction.Some? <==> Slack.Reacts(length, dec)
    ensures reaction.Some? ==> && reaction.value.name in TeamsReactionTypes
                               && 1 <= |reaction.value.users| <= 3
                               && forall u | u in reaction.value.users :: u in ids
  {
    if reaction.Some? {
      var users := reaction.value.users;
      forall u | u in users ensures u in ids {
        assert multiset(users)[u] > 0;
        assert u in multiset(ids);
      }
    }
  }

  /** An edited event carries a stamp 30 to 300 seconds after its own, in the same format. */
  lemma EditedAfterSent(base: string, msgs: seq<ChatMessage>, start: int, draws: seq<nat>,
                        decs: seq<Slack.Decoration>, calendar: int -> Civil, i: nat)
    requires |draws| == |msgs| && |decs| == |msgs| && i < |msgs|
    ensures var r := RsmfManifest(base, msgs, start, draws, decs, calendar);
            && (r.events[i].editedTimestamp.Some? <==> decs[i].editPercent < Slack.EditChance && |BodyText(msgs[i])| > 50)
            && (r.events[i].editedTimestamp.Some? ==>
                  var t := Clock(start, LengthGaps(msgs, draws))[i];
                  exists e | t + 30 <= e <= t + 300 :: r.events[i].editedTimestamp.value == IsoTimestamp(calendar(e)))
  {
    var r := RsmfManifest(base, msgs, start, draws, decs, calendar);
    var t := Clock(start, LengthGaps(msgs, draws))[i];
    var edit := Slack.Edited(|BodyText(msgs[i])|, t, decs[i]);
    if edit.Some? {
      assert r.events[i].editedTimestamp.value == IsoTimestamp(calendar(edit.value));
    }
  }



  /** The statistics of a saved conversation: one more chat, the start date, and each
      participant's address as a custodian. */
  function RecordRsmf(s: Stats, msgs: seq<ChatMessage>, start: Time): (r: Stats)
    ensures Consistent(s) ==> Consistent(r)
    ensures r.rsmfChats == s.rsmfChats + 1 && r.scenariosTriggered == s.scenariosTriggered
    ensures forall i | 0 <= i < |msgs| :: Some(SenderOf(msgs[i], UnknownEmail)) in r.custodians
  {
    var ps := Participants(msgs);
    var emails := seq(|ps|, k requires 0 <= k < |ps| => Some(ps[k].email));
    forall i | 0 <= i < |msgs| ensures Some(SenderOf(msgs[i], UnknownEmail)) in emails {
      var k :| 0 <= k < |ps| && ps[k].email == SenderOf(msgs[i], UnknownEmail);
      assert emails[k] == Some(ps[k].email);
    }
    RecordChat(s, None, start, emails)
  }
}

=== FILE: scheduler.dfy ===
/**
 The generation loop of the main program, run sequentially: each pass shuffles the filtered
 scenarios, submits every one of them (the target check inside the submission loop runs
 before any result arrives, so it never stops a pass early), and each worker runs right after
 its own submission. A worker is the opaque function `work` from (scenario, run number,
 occurrence) to the number of items its generator saved, or the exception it raised. The
 shuffles are inputs, one per pass; when they run out the loop is reported as unfinished.
 */
module Scheduler {

  import opened Base
  import opened Text
  import opened Stats
  import Prompts

  const BlastStress := "Blast Email Expansion"
  const Unknown := "unknown"

  type Work = (Prompts.Scenario, nat, nat) -> Result<nat>

  /** What a worker hands back: items saved, the description, the scenario id, and the
      stress test it triggered. */
  datatype Report = Report(items: nat, description: string, id: string, stress: Option<string>)

  /** The loop's state: items so far, the run number, `scenario_run_counts`, the stats. */
  datatype Sched = Sched(generated: nat, run: nat, runCounts: map<string, nat>, stats: Stats)

  datatype Outcome = Finished(state: Sched) | Unfinished(state: Sched) | Crashed(error: string)

  function Get(m: map<string, nat>, key: string): nat {
    if key in m then m[key] else 0
  }

  predicate HasIds(list: seq<Prompts.Scenario>) {
    forall k | 0 <= k < |list| :: list[k].baseFilename.Some?
  }

  /** `process_scenario_worker`: a missing description fails the worker, which then reports
      nothing saved; a generator's exception reports nothing saved and no stress test. */
  function Worker(s: Prompts.Scenario, id: string, run: nat, occurrence: nat, work: Work): (r: Report)
    ensures r.id == id
    ensures r.stress.Some? <==> s.description.Some? && work(s, run, occurrence).Ok? && Contains(id, "blast_email")
    ensures r.stress.Some? ==> r.stress.value == BlastStress
    ensures r.items > 0 ==> s.description.Some? && work(s, run, occurrence) == Ok(r.items)
    ensures r.description == s.description.GetOr(Unknown)
  {
    match s.description
    case None => Report(0, Unknown, id, None)
    case Some(desc) =>
      match work(s, run, occurrence)
      case Raised(_) => Report(0, desc, id, None)
      case Ok(n) => Report(n, desc, id, if Contains(id, "blast_email") then Some(BlastStress) else None)
  }

  /** The occurrence each submitted worker sees: the pass-local count, already raised by its
      own submission, plus one. */
  function Occurrences(list: seq<Prompts.Scenario>, local: map<string, nat>): (r: seq<nat>)
    requires HasIds(list)
    ensures |r| == |list|
  {
    if |list| == 0 then []
    else
      var id := list[0].baseFilename.value;
      var next := Bump(local, id);
      [next[id] + 1] + Occurrences(list[1..], next)
  }

  /** A scenario id that appears once in a pass is run as occurrence prior + 2. */
  lemma {:induction false} OccurrenceIsPriorPlusTwo(list: seq<Prompts.Scenario>, local: map<string, nat>, k: nat)
    requires HasIds(list) && k < |list|
    requires forall j | 0 <= j < |list| && j != k :: list[j].baseFilename != list[k].baseFilename
    ensures Occurrences(list, local)[k] == Get(local, list[k].baseFilename.value) + 2
  {
    var id := list[0].baseFilename.value;
    var next := Bump(local, id);
    if k > 0 {
      assert forall j | 0 <= j < |list| - 1 :: list[1..][j] == list[j + 1];
      OccurrenceIsPriorPlusTwo(list[1..], next, k - 1);
      assert list[k].baseFilename.value != id;
    }
  }

  function Reports(list: seq<Prompts.Scenario>, occurrences: seq<nat>, run: nat, work: Work): (r: seq<Report>)
    requires HasIds(list) && |occurrences| == |list|
    ensures |r| == |list|
    ensures forall k | 0 <= k < |list| :: r[k] == Worker(list[k], list[k].baseFilename.value, run, occurrences[k], work)
  {
    seq(|list|, k requires 0 <= k < |list| => Worker(list[k], list[k].baseFilename.value, run, occurrences[k], work))
  }

  function Items(reps: seq<Report>): nat {
    if |reps| == 0 then 0 else reps[0].items + Items(reps[1..])
  }

  function CountId(reps: seq<Report>, id: string): nat {
    if |reps| == 0 then 0 else (if reps[0].id == id then 1 else 0) + CountId(reps[1..], id)
  }

  /** The result loop: each report bumps the description's trigger count and the id's run
      count, notes the stress test once, and adds the items. */
  function Collect(st: Sched, reps: seq<Report>): (r: Sched)
    ensures r.generated == st.generated + Items(reps)
    ensures r.run == st.run
    ensures forall id :: Get(r.runCounts, id) == Get(st.runCounts, id) + CountId(reps, id)
    ensures forall k | 0 <= k < |reps| :: reps[k].description in r.stats.scenariosTriggered
    ensures forall k | 0 <= k < |reps| && reps[k].stress.Some? :: reps[k].stress.value in r.stats.stressTests
    ensures Grows(st.stats, r.stats) && st.stats.dates == r.stats.dates
    ensures forall t | t in st.stats.stressTests :: t in r.stats.stressTests
    decreases |reps|
  {
    if |reps| == 0 then st
    else
      var rep := reps[0];
      var stats := st.stats.(scenariosTriggered := Bump(st.stats.scenariosTriggered, rep.description));
      var stats := if rep.stress.Some? then NoteStressTest(stats, rep.stress.value) else stats;
      var next := Sched(st.generated + rep.items, st.run, Bump(st.runCounts, rep.id), stats);
      var r := Collect(next, reps[1..]);
      assert forall k | 1 <= k < |reps| :: reps[k] == reps[1..][k - 1];
      r
  }

  /** One pass over a shuffle of the scenarios. */
  function Pass(st: Sched, shuffled: seq<Prompts.Scenario>, work: Work): (r: Sched)
    requires HasIds(shuffled)
    ensures r.generated == st.generated + Items(Reports(shuffled, Occurrences(shuffled, st.runCounts), st.run, work))
    ensures r.run == st.run + 1
    ensures forall k | 0 <= k < |shuffled| :: Get(r.runCounts, shuffled[k].baseFilename.value) > Get(st.runCounts, shuffled[k].baseFilename.value)
  {
    var reps := Reports(shuffled, Occurrences(shuffled, st.runCounts), st.run, work);
    var r := Collect(st, reps);
    forall k | 0 <= k < |shuffled| ensures CountId(reps, shuffled[k].baseFilename.value) > 0 {
      CountIdPositive(reps, k);
    }
    r.(run := st.run + 1)
  }

  lemma {:induction false} CountIdPositive(reps: seq<Report>, k: nat)
    requires k < |reps|
    ensures CountId(reps, reps[k].id) > 0
  {
    if k > 0 {
      CountIdPositive(reps[1..], k - 1);
    }
  }

  /** The `while generated_item_count < target_item_count` loop over the supplied shuffles.
      A scenario without `base_filename` raises `KeyError` at its submission. */
  function Schedule(scenarios: seq<Prompts.Scenario>, target: nat, passes: seq<seq<Prompts.Scenario>>,
                    work: Work, st: Sched): (r: Outcome)
    requires forall p | 0 <= p < |passes| :: multiset(passes[p]) == multiset(scenarios)
    ensures r.Finished? ==> r.state.generated >= target
    ensures r.Unfinished? ==> r.state.generated < target
    ensures r.Crashed? ==> st.generated < target && !HasIds(scenarios)
    ensures st.generated >= target ==> r == Finished(st)
    ensures !r.Crashed? ==> st.generated <= r.state.generated && st.run <= r.state.run <= st.run + |passes|
    decreases |passes|
  {
    if st.generated >= target then Finished(st)
    else if |passes| == 0 then Unfinished(st)
    else if !HasIds(passes[0]) then
      MissingIdSurvivesShuffle(scenarios, passes[0]);
      Crashed("KeyError")
    else Schedule(scenarios, target, passes[1..], work, Pass(st, passes[0], work))
  }

  /** A shuffle keeps every scenario, so one lacking an id is still there. */
  lemma MissingIdSurvivesShuffle(scenarios: seq<Prompts.Scenario>, shuffled: seq<Prompts.Scenario>)
    requires multiset(shuffled) == multiset(scenarios) && !HasIds(shuffled)
    ensures !HasIds(scenarios)
  {
    var k :| 0 <= k < |shuffled| && shuffled[k].baseFilename.None?;
    assert shuffled[k] in multiset(scenarios);
  }

  /** A worker that never saves anything leaves the count where it was: the loop cannot
      finish, whatever number of passes is supplied. */
  lemma {:induction false} ZeroYieldNeverFinishes(scenarios: seq<Prompts.Scenario>, target: nat,
                                                  passes: seq<seq<Prompts.Scenario>>, work: Work, st: Sched)
    requires forall p | 0 <= p < |passes| :: multiset(passes[p]) == multiset(scenarios)
    requires forall s: Prompts.Scenario, run: nat, occ: nat :: work(s, run, occ).Ok? ==> work(s, run, occ).value == 0
    requires st.generated < target
    ensures !Schedule(scenarios, target, passes, work, st).Finished?
    decreases |passes|
  {
    if |passes| > 0 && HasIds(passes[0]) {
      var reps := Reports(passes[0], Occurrences(passes[0], st.runCounts), st.run, work);
      NoItems(reps);
      ZeroYieldNeverFinishes(scenarios, target, passes[1..], work, Pass(st, passes[0], work));
    }
  }

  lemma {:induction false} NoItems(reps: seq<Report>)
    requires forall k | 0 <= k < |reps| :: reps[k].items == 0
    ensures Items(reps) == 0
  {
    if |reps| > 0 {
      NoItems(reps[1..]);
    }
  }

  /** A saved blast-email scenario notes the stress test. */
  lemma BlastScenarioNoted(st: Sched, shuffled: seq<Prompts.Scenario>, work: Work, k: nat)
    requires HasIds(shuffled) && k < |shuffled|
    requires Contains(shuffled[k].baseFilename.value, "blast_email") && shuffled[k].description.Some?
    requires work(shuffled[k], st.run, Occurrences(shuffled, st.runCounts)[k]).Ok?
    ensures BlastStress in Pass(st, shuffled, work).stats.stressTests
  {
    var reps := Reports(shuffled, Occurrences(shuffled, st.runCounts), st.run, work);
    assert reps[k].stress == Some(BlastStress);
  }
}

=== FILE: slack.dfy ===
/**
 `create_and_save_slack_native`: a Slack export folder holding `users.json`,
 `channels.json` and one message log per channel and day. The files are modelled as a
 `Workspace` value; a file that is missing or does not parse is `None` (users) or empty
 (channels, logs), as the source's bare `except: pass` makes it. Message times are whole
 seconds on the model's clock.
 */
module Slack {

  import opened Base
  import opened Text
  import opened Identity
  import opened Timestamps
  import Personnel
  import opened Chat
  import opened Stats

  // ---------------------------------------------------------------------------
  // users.json

  datatype User = User(id: string, name: string, realName: string, displayName: string,
                       firstName: string, lastName: string, title: string, email: string)

  /** The `users.json` entry of one directory person; `name.split()[0]` raises on a name
      without words. */
  function MakeUser(key: string, p: Personnel.Person, draw: nat -> Suffix): (r: Result<User>)
    ensures r.Ok? <==> |Words(p.name)| > 0
    ensures r.Ok? ==> var u := r.value;
              && |u.id| == 9 && u.id[..1] == "U" && u.id == DeterministicId(key, "U", draw)
              && u.email == key && u.realName == p.name && u.title == p.title
              && '@' !in u.name && StartsWith(key, u.name)
              && u.firstName == Words(p.name)[0] && u.displayName == Lower(u.firstName)
  {
    var ws := Words(p.name);
    if |ws| == 0 then Raised("IndexError: list index out of range")
    else
      Ok(User(DeterministicId(key, "U", draw), Before(key, '@'), p.name, Lower(ws[0]), ws[0],
              if ' ' in p.name then ws[|ws| - 1] else "", p.title, key))
  }

  /** One user per directory entry, in directory order. */
  function DirectoryUsers(d: Personnel.Directory, draw: nat -> Suffix): (r: Result<seq<User>>)
    ensures r.Ok? <==> forall i | 0 <= i < |d| :: |Words(d[i].1.name)| > 0
    ensures r.Ok? ==> |r.value| == |d| && forall i | 0 <= i < |d| :: r.value[i] == MakeUser(d[i].0, d[i].1, draw).value
  {
    if |d| == 0 then Ok([])
    else
      match MakeUser(d[0].0, d[0].1, draw)
      case Raised(e) => Raised(e)
      case Ok(u) =>
        var rest := DirectoryUsers(d[1..], draw);
        assert forall i | 1 <= i < |d| :: d[i] == d[1..][i - 1];
        match rest
        case Raised(e) =>
          assert exists i | 0 <= i < |d| - 1 :: |Words(d[1..][i].1.name)| == 0;
          Raised(e)
        case Ok(us) => Ok([u] + us)
  }

  function Ids(us: seq<User>): (r: seq<string>)
    ensures |r| == |us| && forall i | 0 <= i < |us| :: r[i] == us[i].id
  {
    seq(|us|, i requires 0 <= i < |us| => us[i].id)
  }

  /** The merge with an existing `users.json`: the new users whose id the file does not
      hold yet are appended. The id set is taken from the file once, so two new users
      sharing an id are both appended. */
  function MergeUsers(existing: Option<seq<User>>, incoming: seq<User>): (r: seq<User>)
    ensures existing.None? ==> r == incoming
    ensures existing.Some? ==> |r| >= |existing.value| && r[..|existing.value|] == existing.value
    ensures existing.Some? ==> forall u | u in r[|existing.value|..] :: u in incoming && u.id !in Ids(existing.value)
    ensures forall u | u in incoming :: u.id in Ids(r)
  {
    match existing
    case None => incoming
    case Some(ex) =>
      var ids := Ids(ex);
      var added := Filter(incoming, ids);
      var r := ex + added;
      assert Ids(r) == ids + Ids(added);
      forall u | u in incoming ensures u.id in Ids(r) {
        if u in added {
          IdOfMember(added, u);
        }
      }
      assert r[..|ex|] == ex && r[|ex|..] == added;
      r
  }

  lemma IdOfMember(us: seq<User>, u: User)
    requires u in us
    ensures u.id in Ids(us)
  {
    var i :| 0 <= i < |us| && us[i] == u;
    assert Ids(us)[i] == u.id;
  }

  /** The new users whose id is not in `ids`, in order. */
  function Filter(incoming: seq<User>, ids: seq<string>): (r: seq<User>)
    ensures forall u :: u in r <==> u in incoming && u.id !in ids
    ensures |r| <= |incoming|
  {
    if |incoming| == 0 then []
    else (if incoming[0].id in ids then [] else [incoming[0]]) + Filter(incoming[1..], ids)
  }

  /** Merging the same directory again adds nothing. */
  lemma MergeUsersIdempotent(existing: Option<seq<User>>, incoming: seq<User>)
    ensures MergeUsers(Some(MergeUsers(existing, incoming)), incoming) == MergeUsers(existing, incoming)
  {
    var once := MergeUsers(existing, incoming);
    FilterAllKnown(incoming, Ids(once));
    assert once + [] == once;
  }

  lemma {:induction false} FilterAllKnown(incoming: seq<User>, ids: seq<string>)
    requires forall u | u in incoming :: u.id in ids
    ensures Filter(incoming, ids) == []
  {
    if |incoming| > 0 {
      assert incoming[0].id in ids;
      FilterAllKnown(incoming[1..], ids);
    }
  }

  /** With an existing file whose ids are all new, the new users are appended as they are. */
  lemma MergeUsersAppendsNew(ex: seq<User>, incoming: seq<User>)
    requires forall u | u in incoming :: u.id !in Ids(ex)
    ensures MergeUsers(Some(ex), incoming) == ex + incoming
  {
    FilterAllNew(incoming, Ids(ex));
  }

  lemma {:induction false} FilterAllNew(incoming: seq<User>, ids: seq<string>)
    requires forall u | u in incoming :: u.id !in ids
    ensures Filter(incoming, ids) == incoming
  {
    if |incoming| > 0 {
      assert forall u | u in incoming[1..] :: u in incoming;
      FilterAllNew(incoming[1..], ids);
      assert [incoming[0]] + incoming[1..] == incoming;
    }
  }

  // ---------------------------------------------------------------------------
  // channels.json

  const ChannelNameLimit := 21

  predicate ChannelChar(c: char) {
    'a' <= c <= 'z' || '0' <= c <= '9' || c == '-' || c == '_'
  }

  /** `re.sub(r'[^a-z0-9-_]', '', s)`. */
  function KeepChannelChars(s: string): (r: string)
    ensures |r| <= |s|
    ensures forall i | 0 <= i < |r| :: ChannelChar(r[i])
    ensures (forall i | 0 <= i < |s| :: ChannelChar(s[i])) ==> r == s
  {
    if |s| == 0 then ""
    else (if ChannelChar(s[0]) then [s[0]] else "") + KeepChannelChars(s[1..])
  }

  /** The channel name: lower-cased, spaces to dashes, other characters outside
      `[a-z0-9-_]` dropped, cut to 21 characters. */
  function ChannelName(base: string): (r: string)
    ensures |r| <= ChannelNameLimit
    ensures forall i | 0 <= i < |r| :: ChannelChar(r[i])
  {
    var s := KeepChannelChars(SubstChar(Lower(base), ' ', "-"));
    if |s| <= ChannelNameLimit then s else s[..ChannelNameLimit]
  }

  /** A channel name is its own channel name, so a folder name can be fed back. */
  lemma ChannelNameIdempotent(base: string)
    ensures ChannelName(ChannelName(base)) == ChannelName(base)
  {
    var n := ChannelName(base);
    assert Lower(n) == n;
    SubstCharAbsent(n, ' ', "-");
  }

  datatype Channel = Channel(id: string, name: string, creator: string, members: seq<string>)

  /** A channel is added only when no channel carries its id; its creator is the first user
      (or `U00000000` without users) and its members are all users. */
  function AddChannel(channels: seq<Channel>, name: string, users: seq<User>, draw: nat -> Suffix): (r: seq<Channel>)
    ensures (exists i | 0 <= i < |channels| :: channels[i].id == DeterministicId(name, "C", draw)) ==> r == channels
    ensures (forall i | 0 <= i < |channels| :: channels[i].id != DeterministicId(name, "C", draw)) ==>
              && |r| == |channels| + 1 && r[..|channels|] == channels
              && r[|channels|].id == DeterministicId(name, "C", draw) && r[|channels|].name == name
              && r[|channels|].members == Ids(users)
              && r[|channels|].creator == (if |users| > 0 then users[0].id else "U00000000")
  {
    var id := DeterministicId(name, "C", draw);
    if exists i | 0 <= i < |channels| :: channels[i].id == id then channels
    else
      var creator := if |users| > 0 then users[0].id else "U00000000";
      var r := channels + [Channel(id, name, creator, Ids(users))];
      assert r[..|channels|] == channels;
      r
  }

  lemma AddChannelIdempotent(channels: seq<Channel>, name: string, users: seq<User>, users': seq<User>, draw: nat -> Suffix)
    ensures AddChannel(AddChannel(channels, name, users, draw), name, users', draw) == AddChannel(channels, name, users, draw)
  {
    var once := AddChannel(channels, name, users, draw);
    var id := DeterministicId(name, "C", draw);
    if forall i | 0 <= i < |channels| :: channels[i].id != id {
      assert once[|channels|].id == id;
    } else {
      var i :| 0 <= i < |channels| && channels[i].id == id;
      assert once[i].id == id;
    }
  }

  // ---------------------------------------------------------------------------
  // Messages and threading

  /** What the source keeps per earlier message: its `ts` under key `str(idx)` and its user
      id under `f"{idx}_user"`. */
  datatype Stored = TsValue(ts: int) | UserValue(id: string)

  const UserSuffix := "_user"

  /** `k` is the index of one of the first `n` messages, or that index's `_user` companion. */
  predicate IndexKey(k: string, n: nat) {
    exists j | 0 <= j < n :: k == NatToString(j) || k == NatToString(j) + UserSuffix
  }

  /** `message_timestamps` after the messages whose users and times are given. */
  function ThreadKeys(users: seq<string>, times: seq<int>): (m: map<string, Stored>)
    requires |users| == |times|
    ensures forall k | k in m :: IndexKey(k, |users|)
    decreases |users|
  {
    if |users| == 0 then map[]
    else
      var n := |users| - 1;
      var prior := ThreadKeys(users[..n], times[..n]);
      assert forall k | IndexKey(k, n) :: IndexKey(k, n + 1);
      prior[NatToString(n) := TsValue(times[n])][NatToString(n) + UserSuffix := UserValue(users[n])]
  }

  /** A numeric key never looks like a `_user` key. */
  lemma NumberNotUserKey(a: nat, s: string)
    ensures NatToString(a) != s + UserSuffix
  {
    var t := s + UserSuffix;
    assert t[|t| - 5] == '_';
  }

  lemma NumberKeysDistinct(a: nat, b: nat)
    ensures NatToString(a) == NatToString(b) ==> a == b
  {
    if NatToString(a) == NatToString(b) {
      NatToStringInjective(a, b);
    }
  }

  lemma StripUserSuffix(a: string, b: string)
    ensures a + UserSuffix == b + UserSuffix ==> a == b
  {
    if a + UserSuffix == b + UserSuffix {
      assert a == (a + UserSuffix)[..|a|];
      assert b == (b + UserSuffix)[..|b|];
    }
  }

  /** Each earlier index is a key holding that message's `ts`. */
  lemma {:induction false} ThreadKeysTs(users: seq<string>, times: seq<int>, j: nat)
    requires |users| == |times| && j < |users|
    ensures NatToString(j) in ThreadKeys(users, times)
    ensures ThreadKeys(users, times)[NatToString(j)] == TsValue(times[j])
    decreases |users|
  {
    var n := |users| - 1;
    NumberNotUserKey(j, NatToString(n));
    if j < n {
      ThreadKeysTs(users[..n], times[..n], j);
      NumberKeysDistinct(j, n);
    }
  }

  /** Each earlier index's `_user` companion is a key holding that message's user id. */
  lemma {:induction false} ThreadKeysUser(users: seq<string>, times: seq<int>, j: nat)
    requires |users| == |times| && j < |users|
    ensures NatToString(j) + UserSuffix in ThreadKeys(users, times)
    ensures ThreadKeys(users, times)[NatToString(j) + UserSuffix] == UserValue(users[j])
    decreases |users|
  {
    var n := |users| - 1;
    if j < n {
      ThreadKeysUser(users[..n], times[..n], j);
      NumberNotUserKey(n, NatToString(j));
      StripUserSuffix(NatToString(j), NatToString(n));
      NumberKeysDistinct(j, n);
    }
  }

  /** The `thread_ts` and `parent_user_id` a message gets from its `thread_ts` key. */
  function Threading(key: Option<string>, earlier: map<string, Stored>): (r: (Option<Stored>, Option<Stored>))
    ensures r.0.None? ==> r.1.None?
    ensures r.0.Some? <==> key.Some? && key.value != "" && key.value in earlier
  {
    if key.Some? && key.value != "" && key.value in earlier then
      (Some(earlier[key.value]), if key.value + UserSuffix in earlier then Some(earlier[key.value + UserSuffix]) else None)
    else (None, None)
  }

  /** A reply naming an earlier message by its index is threaded under that message's `ts`,
      with that message's author as parent. */
  lemma ReplyToEarlierMessage(users: seq<string>, times: seq<int>, j: nat)
    requires |users| == |times| && j < |users|
    ensures Threading(Some(NatToString(j)), ThreadKeys(users, times))
            == (Some(TsValue(times[j])), Some(UserValue(users[j])))
  {
    ThreadKeysTs(users, times, j);
    ThreadKeysUser(users, times, j);
  }

  /** A key pointing at a later message, or at no message, threads nothing. */
  lemma ForwardReferenceIgnored(users: seq<string>, times: seq<int>, j: nat)
    requires |users| == |times| && j >= |users|
    ensures Threading(Some(NatToString(j)), ThreadKeys(users, times)) == (None, None)
  {
    var k := NatToString(j);
    forall i | 0 <= i < |users|
      ensures k != NatToString(i) && k != NatToString(i) + UserSuffix
    {
      NumberKeysDistinct(i, j);
      NumberNotUserKey(j, NatToString(i));
    }
  }

  /** A key naming the `_user` companion of an earlier message is accepted too: the message
      is threaded under that author's user id, not under a timestamp, with no parent. */
  lemma UserKeyThreadsUnderUserId(users: seq<string>, times: seq<int>, j: nat)
    requires |users| == |times| && j < |users|
    ensures Threading(Some(NatToString(j) + UserSuffix), ThreadKeys(users, times)) == (Some(UserValue(users[j])), None)
  {
    var k := NatToString(j) + UserSuffix;
    ThreadKeysUser(users, times, j);
    forall i | 0 <= i < |users|
      ensures k + UserSuffix != NatToString(i) && k + UserSuffix != NatToString(i) + UserSuffix
    {
      NumberNotUserKey(i, k);
      StripUserSuffix(k, NatToString(i));
      NumberNotUserKey(i, NatToString(j));
    }
  }

  // ---------------------------------------------------------------------------
  // Reactions and edits

  datatype Reaction = Reaction(name: string, users: seq<string>)

  const ReactionNames: seq<string> := ["thumbsup", "+1", "white_check_mark", "ok_hand", "fire", "eyes",
                                       "point_up", "raised_hands", "slightly_smiling_face", "sweat_smile"]

  /** The random decoration of one message. The two `random()` draws are percentiles
      (`floor(100 * random())`); then come the emoji choice, the `randint` draw of the reactor
      count, the picks of `random.sample`, and the `randint` draw of the edit delay. */
  datatype Decoration = Decoration(reactPercent: nat, emoji: nat, count: nat, picks: nat -> nat,
                                   editPercent: nat, editDelay: nat)

  /** The reaction chance in percent: 30 for messages under 20 characters, 15 otherwise. */
  function ReactionChance(length: nat): nat {
    if length < 20 then 30 else 15
  }

  predicate Reacts(length: nat, dec: Decoration) {
    dec.reactPercent < ReactionChance(length)
  }

  /** `random.sample(pool, k)`: each pick takes one of the entries left, so the sample holds
      `k` entries from distinct positions of the pool. */
  function Sample(pool: seq<string>, k: nat, picks: nat -> nat): (r: seq<string>)
    requires k <= |pool|
    ensures |r| == k
    ensures multiset(r) <= multiset(pool)
    decreases k
  {
    if k == 0 then []
    else
      var j := picks(k) % |pool|;
      var rest := pool[..j] + pool[j + 1..];
      assert pool == pool[..j] + [pool[j]] + pool[j + 1..];
      assert multiset(pool) == multiset(rest) + multiset{pool[j]};
      [pool[j]] + Sample(rest, k - 1, picks)
  }

  const EmptyRange := "ValueError: empty range for randrange() (1, 1, 0)"

  /** The reaction step: when the draw fires, one name of the list `names` and between one
      and three reactors sampled from the user list; with no users `randint(1, 0)` raises.
      Teams events in the RSMF export draw the same way from their own list of names. */
  function ReactionOf(length: nat, names: seq<string>, userIds: seq<string>, dec: Decoration): (r: Result<Option<Reaction>>)
    requires |names| > 0
    ensures r.Raised? <==> Reacts(length, dec) && |userIds| == 0
    ensures r.Raised? ==> r.error == EmptyRange
    ensures r.Ok? ==> (r.value.Some? <==> Reacts(length, dec))
    ensures r.Ok? && r.value.Some? ==>
              && r.value.value.name in names
              && 1 <= |r.value.value.users| <= 3 && |r.value.value.users| <= |userIds|
              && multiset(r.value.value.users) <= multiset(userIds)
  {
    if !Reacts(length, dec) then Ok(None)
    else if |userIds| == 0 then Raised(EmptyRange)
    else
      var k := RandInt(1, if |userIds| < 3 then |userIds| else 3, dec.count);
      Ok(Some(Reaction(Choice(names, dec.emoji), Sample(userIds, k, dec.picks))))
  }

  const EditChance := 10

  /** The edit stamp: with a 10% draw a message over 50 characters is marked edited 30 to 300
      seconds after it was sent. */
  function Edited(length: nat, ts: int, dec: Decoration): (r: Option<int>)
    ensures r.Some? <==> dec.editPercent < EditChance && length > 50
    ensures r.Some? ==> ts + 30 <= r.value <= ts + 300
  {
    if dec.editPercent < EditChance && length > 50 then Some(ts + RandInt(30, 300, dec.editDelay)) else None
  }

  // ---------------------------------------------------------------------------
  // The message loop

  datatype SlackMessage = SlackMessage(user: string, text: string, ts: int, threadTs: Option<Stored>,
                                       parentUser: Option<Stored>, reaction: Option<Reaction>,
                                       edited: Option<int>, channelJoin: bool)

  const UnknownChatSender := "unknown@chat.com"
  const NoFirstWord := "IndexError: list index out of range"

  /** The short messages mentioning `joined` become `channel_join` events. */
  predicate IsJoinNotice(text: string): (r: bool)
    ensures r ==> 6 <= |text| < 50
  {
    Contains(Lower(text), "joined") && |text| < 50
  }

  /** The test ignores case: a text and its lower-cased form are judged alike. */
  lemma JoinNoticeIgnoresCase(text: string)
    ensures IsJoinNotice(Lower(text)) == IsJoinNotice(text)
  {
    LowerTwice(text);
  }

  function SenderIds(msgs: seq<ChatMessage>, draw: nat -> Suffix): (r: seq<string>)
    ensures |r| == |msgs|
    ensures forall i | 0 <= i < |msgs| :: r[i] == DeterministicId(SenderOf(msgs[i], UnknownChatSender), "U", draw)
  {
    seq(|msgs|, i requires 0 <= i < |msgs| => DeterministicId(SenderOf(msgs[i], UnknownChatSender), "U", draw))
  }

  /** Whether the sender's display name (default `Unknown User`) has a first word. */
  predicate NamedSender(m: ChatMessage) {
    |Words(m.senderName.GetOr("Unknown User"))| > 0
  }

  /** Whether the loop body raises on a message: `real_name.split()[0]` on a blank name, or a
      reaction drawn while the user list is empty. */
  predicate Fails(m: ChatMessage, dec: Decoration, userCount: nat) {
    !NamedSender(m) || (Reacts(|BodyText(m)|, dec) && userCount == 0)
  }

  function FailsAt(msgs: seq<ChatMessage>, decs: seq<Decoration>, userCount: nat): nat -> bool {
    (j: nat) => j < |msgs| && j < |decs| && Fails(msgs[j], decs[j], userCount)
  }

  /** The first message whose loop body raises, or the number of messages. */
  function FailingMessage(msgs: seq<ChatMessage>, decs: seq<Decoration>, userCount: nat): (k: nat)
    requires |decs| == |msgs|
    ensures k <= |msgs|
    ensures forall j | 0 <= j < k :: !Fails(msgs[j], decs[j], userCount)
    ensures k < |msgs| ==> Fails(msgs[k], decs[k], userCount)
  {
    var p := FailsAt(msgs, decs, userCount);
    var k := FirstWhere(|msgs|, p, 0);
    assert forall j | 0 <= j < |msgs| :: p(j) == Fails(msgs[j], decs[j], userCount);
    k
  }

  /** The `idx`-th message, given every sender's user id, every message's time and the ids of
      the user list. */
  function MessageAt(msgs: seq<ChatMessage>, idx: nat, users: seq<string>, times: seq<int>,
                     decs: seq<Decoration>, userIds: seq<string>): (m: SlackMessage)
    requires idx < |msgs| == |users| == |times| == |decs|
    ensures !Fails(msgs[idx], decs[idx], |userIds|) ==> Ok(m.reaction) == ReactionOf(|BodyText(msgs[idx])|, ReactionNames, userIds, decs[idx])
  {
    var text := BodyText(msgs[idx]);
    var t := Threading(msgs[idx].threadTs, ThreadKeys(users[..idx], times[..idx]));
    var reaction := match ReactionOf(|text|, ReactionNames, userIds, decs[idx]) case Ok(x) => x case Raised(_) => None;
    SlackMessage(users[idx], text, times[idx], t.0, t.1, reaction, Edited(|text|, times[idx], decs[idx]), IsJoinNotice(text))
  }

  /** The messages of the conversation, timed from `start` by message length. */
  function SlackMessages(msgs: seq<ChatMessage>, start: int, draws: seq<nat>, decs: seq<Decoration>,
                         userIds: seq<string>, draw: nat -> Suffix): (r: Result<seq<SlackMessage>>)
    requires |draws| == |msgs| && |decs| == |msgs|
    ensures r.Ok? <==> forall i | 0 <= i < |msgs| :: !Fails(msgs[i], decs[i], |userIds|)
    ensures r.Raised? ==> var k := FailingMessage(msgs, decs, |userIds|);
              k < |msgs| && r.error == (if NamedSender(msgs[k]) then EmptyRange else NoFirstWord)
    ensures r.Ok? ==> |r.value| == |msgs|
    ensures r.Ok? ==> forall i | 0 <= i < |msgs| ::
              && r.value[i].text == BodyText(msgs[i])
              && r.value[i].user == DeterministicId(SenderOf(msgs[i], UnknownChatSender), "U", draw)
              && r.value[i].channelJoin == IsJoinNotice(BodyText(msgs[i]))
              && r.value[i].ts == Clock(start, LengthGaps(msgs, draws))[i]
              && Ok(r.value[i].reaction) == ReactionOf(|BodyText(msgs[i])|, ReactionNames, userIds, decs[i])
              && r.value[i].edited == Edited(|BodyText(msgs[i])|, r.value[i].ts, decs[i])
    ensures r.Ok? ==> forall i | 0 <= i < |msgs| ::
              (r.value[i].threadTs, r.value[i].parentUser)
              == Threading(msgs[i].threadTs, ThreadKeys(SenderIds(msgs, draw)[..i], Clock(start, LengthGaps(msgs, draws))[..i]))
    ensures r.Ok? ==> forall i, j | 0 <= i < j < |msgs| :: r.value[i].ts < r.value[j].ts
  {
    var k := FailingMessage(msgs, decs, |userIds|);
    if k < |msgs| then Raised(if NamedSender(msgs[k]) then EmptyRange else NoFirstWord)
    else
      var gaps := LengthGaps(msgs, draws);
      var times := Clock(start, gaps);
      var r := MessageSeq(msgs, SenderIds(msgs, draw), times, decs, userIds);
      ClockIncreasing(start, gaps, 5);
      Ok(r)
  }

  function MessageSeq(msgs: seq<ChatMessage>, users: seq<string>, times: seq<int>, decs: seq<Decoration>,
                      userIds: seq<string>): (r: seq<SlackMessage>)
    requires |msgs| == |users| == |times| == |decs|
    requires forall i | 0 <= i < |msgs| :: !Fails(msgs[i], decs[i], |userIds|)
    ensures |r| == |msgs|
    ensures forall i | 0 <= i < |msgs| ::
              && r[i].ts == times[i] && r[i].user == users[i] && r[i].text == BodyText(msgs[i])
              && r[i].channelJoin == IsJoinNotice(BodyText(msgs[i]))
              && Ok(r[i].reaction) == ReactionOf(|BodyText(msgs[i])|, ReactionNames, userIds, decs[i])
              && r[i].edited == Edited(|BodyText(msgs[i])|, times[i], decs[i])
              && (r[i].threadTs, r[i].parentUser) == Threading(msgs[i].threadTs, ThreadKeys(users[..i], times[..i]))
  {
    seq(|msgs|, i requires 0 <= i < |msgs| => MessageAt(msgs, i, users, times, decs, userIds))
  }

  /** In the built messages a `thread_ts` naming an earlier message's index threads the reply
      under that message's `ts`, with its author as parent; a key naming the message itself or
      a later one threads nothing. */
  lemma ThreadsOnlyUnderEarlierMessages(msgs: seq<ChatMessage>, start: int, draws: seq<nat>, decs: seq<Decoration>,
                                        userIds: seq<string>, draw: nat -> Suffix, i: nat, j: nat)
    requires |draws| == |msgs| && |decs| == |msgs| && i < |msgs|
    requires msgs[i].threadTs == Some(NatToString(j))
    ensures var r := SlackMessages(msgs, start, draws, decs, userIds, draw);
            r.Ok? && j < i ==> r.value[i].threadTs == Some(TsValue(r.value[j].ts))
                               && r.value[i].parentUser == Some(UserValue(r.value[j].user))
    ensures var r := SlackMessages(msgs, start, draws, decs, userIds, draw);
            r.Ok? && i <= j ==> r.value[i].threadTs.None? && r.value[i].parentUser.None?
  {
    var r := SlackMessages(msgs, start, draws, decs, userIds, draw);
    if r.Ok? {
      var users := SenderIds(msgs, draw);
      var times := Clock(start, LengthGaps(msgs, draws));
      if j < i {
        ReplyToEarlierMessage(users[..i], times[..i], j);
      } else {
        ForwardReferenceIgnored(users[..i], times[..i], j);
      }
    }
  }

  // ---------------------------------------------------------------------------
  // The daily log

  predicate SortedByTs(xs: seq<SlackMessage>) {
    forall i, j | 0 <= i < j < |xs| :: xs[i].ts <= xs[j].ts
  }

  /** `m` placed after every entry whose `ts` is not larger. */
  function Insert(xs: seq<SlackMessage>, m: SlackMessage): (r: seq<SlackMessage>)
    ensures |r| == |xs| + 1 && multiset(r) == multiset(xs) + multiset{m}
  {
    if |xs| == 0 then [m]
    else
      var n := |xs| - 1;
      assert xs[..n] + [xs[n]] == xs;
      if xs[n].ts <= m.ts then xs + [m]
      else Insert(xs[..n], m) + [xs[n]]
  }

  lemma {:induction false} InsertSorted(xs: seq<SlackMessage>, m: SlackMessage)
    requires SortedByTs(xs)
    ensures SortedByTs(Insert(xs, m))
    decreases |xs|
  {
    if |xs| > 0 {
      var n := |xs| - 1;
      assert xs[..n] + [xs[n]] == xs;
      if xs[n].ts > m.ts {
        InsertSorted(xs[..n], m);
        InsertBelow(xs[..n], m, xs[n].ts);
        AppendSorted(Insert(xs[..n], m), xs[n]);
      } else {
        AppendSorted(xs, m);
      }
    }
  }

  /** Inserting below a bound keeps every entry below it. */
  lemma InsertBelow(xs: seq<SlackMessage>, m: SlackMessage, b: int)
    requires forall i | 0 <= i < |xs| :: xs[i].ts <= b
    requires m.ts <= b
    ensures forall i | 0 <= i < |Insert(xs, m)| :: Insert(xs, m)[i].ts <= b
  {
    var r := Insert(xs, m);
    forall i | 0 <= i < |r| ensures r[i].ts <= b {
      assert r[i] in multiset(r);
      if r[i] != m {
        assert r[i] in multiset(xs);
      }
    }
  }

  lemma AppendSorted(xs: seq<SlackMessage>, m: SlackMessage)
    requires SortedByTs(xs)
    requires forall i | 0 <= i < |xs| :: xs[i].ts <= m.ts
    ensures SortedByTs(xs + [m])
  {
    var r := xs + [m];
    forall i, j | 0 <= i < j < |r| ensures r[i].ts <= r[j].ts {
      assert r[i] == xs[i];
    }
  }

  /** `existing_msgs.sort(key=lambda x: float(x['ts']))`: a stable sort by `ts`. */
  function SortByTs(xs: seq<SlackMessage>): (r: seq<SlackMessage>)
    ensures |r| == |xs| && multiset(r) == multiset(xs)
    ensures SortedByTs(r)
  {
    if |xs| == 0 then []
    else
      var n := |xs| - 1;
      assert xs[..n] + [xs[n]] == xs;
      InsertSorted(SortByTs(xs[..n]), xs[n]);
      Insert(SortByTs(xs[..n]), xs[n])
  }

  /** A log already in order is left exactly as it is. */
  lemma {:induction false} SortSortedUnchanged(xs: seq<SlackMessage>)
    requires SortedByTs(xs)
    ensures SortByTs(xs) == xs
  {
    if |xs| > 0 {
      var n := |xs| - 1;
      SortSortedUnchanged(xs[..n]);
      assert xs[..n] + [xs[n]] == xs;
    }
  }

  /** The messages a daily log holds after an export: the old entries and the new messages,
      each once, ordered by `ts`. */
  function AppendToLog(existing: seq<SlackMessage>, incoming: seq<SlackMessage>): (r: seq<SlackMessage>)
    ensures multiset(r) == multiset(existing) + multiset(incoming)
    ensures SortedByTs(r)
  {
    SortByTs(existing + incoming)
  }

  /** An export into an empty log, or into one whose entries all precede the new messages,
      keeps both in their order. */
  lemma AppendAfterEarlierLog(existing: seq<SlackMessage>, incoming: seq<SlackMessage>)
    requires SortedByTs(existing) && SortedByTs(incoming)
    requires forall i, j | 0 <= i < |existing| && 0 <= j < |incoming| :: existing[i].ts <= incoming[j].ts
    ensures AppendToLog(existing, incoming) == existing + incoming
  {
    var xs := existing + incoming;
    forall i, j | 0 <= i < j < |xs| ensures xs[i].ts <= xs[j].ts {
      if j < |existing| {
      } else if i >= |existing| {
        assert xs[i] == incoming[i - |existing|] && xs[j] == incoming[j - |existing|];
      } else {
        assert xs[j] == incoming[j - |existing|];
      }
    }
    SortSortedUnchanged(xs);
  }

  // ---------------------------------------------------------------------------
  // The export

  /** The files of the export folder. A log is named after its channel and the start day. */
  datatype Workspace = Workspace(users: Option<seq<User>>, channels: seq<Channel>,
                                 logs: map<(string, int), seq<SlackMessage>>)

  datatype Outcome = Outcome(workspace: Workspace, stats: Stats, error: Option<string>)

  /** The whole export. A directory person without a first name word raises before anything
      is written. A message sender without one, or a reaction drawn while the merged user list
      is empty, raises inside the message loop: `users.json` and `channels.json` are already
      written, the log and the statistics are not. */
  function SlackExport(ws: Workspace, d: Personnel.Directory, base: string, msgs: seq<ChatMessage>,
                       start: Time, draws: seq<nat>, decs: seq<Decoration>, draw: nat -> Suffix, s: Stats): (o: Outcome)
    requires |draws| == |msgs| && |decs| == |msgs|
    ensures o.error.None? <==>
              && DirectoryUsers(d, draw).Ok?
              && forall i | 0 <= i < |msgs| :: !Fails(msgs[i], decs[i], |MergeUsers(ws.users, DirectoryUsers(d, draw).value)|)
    ensures o.error.Some? ==> o.stats == s && o.workspace.logs == ws.logs
    ensures DirectoryUsers(d, draw).Ok? ==>
              && o.workspace.users == Some(MergeUsers(ws.users, DirectoryUsers(d, draw).value))
              && exists i | 0 <= i < |o.workspace.channels| :: o.workspace.channels[i].id == DeterministicId(ChannelName(base), "C", draw)
    ensures o.error.None? ==>
              var key := (ChannelName(base), start.day);
              var old_ := if key in ws.logs then ws.logs[key] else [];
              var users := MergeUsers(ws.users, DirectoryUsers(d, draw).value);
              && key in o.workspace.logs
              && multiset(o.workspace.logs[key])
                 == multiset(old_) + multiset(SlackMessages(msgs, Seconds(start), draws, decs, Ids(users), draw).value)
              && SortedByTs(o.workspace.logs[key])
              && o.stats.rsmfChats == s.rsmfChats + 1 && o.stats.emails == s.emails
              && ("Slack: " + ChannelName(base)) in o.stats.scenariosTriggered
              && forall i | 0 <= i < |msgs| :: msgs[i].senderEmail in o.stats.custodians
  {
    match DirectoryUsers(d, draw)
    case Raised(e) => Outcome(ws, s, Some(e))
    case Ok(incoming) =>
      var users := MergeUsers(ws.users, incoming);
      var name := ChannelName(base);
      var channels := AddChannel(ws.channels, name, users, draw);
      ChannelPresent(ws.channels, name, users, draw);
      var ws' := ws.(users := Some(users), channels := channels);
      match SlackMessages(msgs, Seconds(start), draws, decs, Ids(users), draw)
      case Raised(e) => Outcome(ws', s, Some(e))
      case Ok(incoming) =>
        var key := (name, start.day);
        var old_ := if key in ws.logs then ws.logs[key] else [];
        Outcome(ws'.(logs := ws.logs[key := AppendToLog(old_, incoming)]),
                RecordChat(s, Some("Slack: " + name), start, SenderEmails(msgs)), None)
  }

  /** With an empty directory and no users on file, a message that draws a reaction makes the
      export raise `ValueError`, whatever the sender names. */
  lemma ReactionWithoutUsersRaises(ws: Workspace, base: string, msgs: seq<ChatMessage>, start: Time,
                                   draws: seq<nat>, decs: seq<Decoration>, draw: nat -> Suffix, s: Stats, i: nat)
    requires |draws| == |msgs| && |decs| == |msgs| && i < |msgs|
    requires ws.users.None? || ws.users == Some([])
    requires Reacts(|BodyText(msgs[i])|, decs[i])
    ensures SlackExport(ws, [], base, msgs, start, draws, decs, draw, s).error.Some?
    ensures SlackExport(ws, [], base, msgs, start, draws, decs, draw, s).stats == s
  {
    assert DirectoryUsers([], draw) == Ok([]);
    assert |MergeUsers(ws.users, [])| == 0;
    assert Fails(msgs[i], decs[i], 0);
  }

  function SenderEmails(msgs: seq<ChatMessage>): (r: seq<Option<string>>)
    ensures forall i | 0 <= i < |msgs| :: msgs[i].senderEmail in r
  {
    var r := seq(|msgs|, i requires 0 <= i < |msgs| => msgs[i].senderEmail);
    assert forall i | 0 <= i < |msgs| :: r[i] == msgs[i].senderEmail;
    r
  }

  /** After the channel step the channel's id is in the list, added or already there. */
  lemma ChannelPresent(channels: seq<Channel>, name: string, users: seq<User>, draw: nat -> Suffix)
    ensures var r := AddChannel(channels, name, users, draw);
            exists i | 0 <= i < |r| :: r[i].id == DeterministicId(name, "C", draw)
  {
    var id := DeterministicId(name, "C", draw);
    var r := AddChannel(channels, name, users, draw);
    if exists i | 0 <= i < |channels| :: channels[i].id == id {
      var i :| 0 <= i < |channels| && channels[i].id == id;
      assert r[i].id == id;
    } else {
      assert r[|channels|].id == id;
    }
  }
}

=== FILE: stats.dfy ===
/**
 The run statistics the generators update as they save items. Custodians are whatever
 `sender_email` / `organizer_email` value the item carried, possibly none (`None`).
 */
module Stats {

  import opened Base
  import opened Timestamps

  datatype Stats = Stats(
    emails: nat,
    calendarEvents: nat,
    rsmfChats: nat,
    scenariosTriggered: map<string, nat>,
    stressTests: seq<string>,
    dates: seq<Time>,
    custodians: set<Option<string>>)

  const Initial := Stats(0, 0, 0, map[], [], [], {})

  /** `d[key] = d.get(key, 0) + 1`. */
  function Bump(m: map<string, nat>, key: string): (r: map<string, nat>)
    ensures key in r && r[key] == (if key in m then m[key] else 0) + 1
    ensures forall k | k in m && k != key :: k in r && r[k] == m[k]
    ensures r.Keys == m.Keys + {key}
  {
    m[key := (if key in m then m[key] else 0) + 1]
  }

  /** Every saved item adds one date and counts once, as an email, an event or a chat. */
  predicate Consistent(s: Stats) {
    |s.dates| == s.emails + s.calendarEvents + s.rsmfChats
  }

  /** Nothing recorded is ever lost. */
  predicate Grows(s: Stats, r: Stats) {
    && s.emails <= r.emails && s.calendarEvents <= r.calendarEvents && s.rsmfChats <= r.rsmfChats
    && s.dates <= r.dates && s.custodians <= r.custodians
    && (forall k | k in s.scenariosTriggered :: k in r.scenariosTriggered && s.scenariosTriggered[k] <= r.scenariosTriggered[k])
  }

  /** The email branch of `create_and_save_email`. */
  function RecordEmail(s: Stats, senderEmail: Option<string>, date: Time): (r: Stats)
    ensures Consistent(s) ==> Consistent(r)
    ensures Grows(s, r) && r.emails == s.emails + 1 && r.rsmfChats == s.rsmfChats
  {
    s.(emails := s.emails + 1, dates := s.dates + [date], custodians := s.custodians + {senderEmail})
  }

  /** The statistics block of `create_and_save_calendar_event`. */
  function RecordCalendar(s: Stats, organizerEmail: Option<string>, date: Time): (r: Stats)
    ensures Consistent(s) ==> Consistent(r)
    ensures Grows(s, r) && r.calendarEvents == s.calendarEvents + 1 && r.rsmfChats == s.rsmfChats
  {
    s.(calendarEvents := s.calendarEvents + 1, dates := s.dates + [date],
       custodians := s.custodians + {organizerEmail})
  }

  /** The statistics block shared by the three chat exports: an optional per-export scenario
      tag, one more chat, the start date and the given custodians. */
  function RecordChat(s: Stats, tag: Option<string>, start: Time, custodians: seq<Option<string>>): (r: Stats)
    ensures Consistent(s) ==> Consistent(r)
    ensures Grows(s, r) && r.rsmfChats == s.rsmfChats + 1 && r.emails == s.emails
    ensures forall c | c in custodians :: c in r.custodians
    ensures tag.Some? ==> tag.value in r.scenariosTriggered
  {
    var triggered := if tag.Some? then Bump(s.scenariosTriggered, tag.value) else s.scenariosTriggered;
    s.(scenariosTriggered := triggered, rsmfChats := s.rsmfChats + 1, dates := s.dates + [start],
       custodians := s.custodians + (set c | c in custodians))
  }

  /** `stress_tests_triggered`: a list that takes a name only once. */
  function NoteStressTest(s: Stats, name: string): (r: Stats)
    ensures name in r.stressTests
    ensures forall t | t in s.stressTests :: t in r.stressTests
    ensures (forall i, j | 0 <= i < j < |s.stressTests| :: s.stressTests[i] != s.stressTests[j])
        ==> (forall i, j | 0 <= i < j < |r.stressTests| :: r.stressTests[i] != r.stressTests[j])
  {
    if name in s.stressTests then s else s.(stressTests := s.stressTests + [name])
  }
}

=== FILE: text.dfy ===
/**
 Python string operations the generator relies on, over `seq<char>`.
 `lower()`, `isspace()` and `title()` are approximated on ASCII letters plus the
 whitespace set of `str.isspace`.
 */
module Text {

  import Base

  predicate StartsWith(s: string, p: string) {
    |p| <= |s| && s[..|p|] == p
  }

  predicate EndsWith(s: string, p: string) {
    |p| <= |s| && s[|s| - |p|..] == p
  }

  /** `sub` occurs in `s` starting at index `i`. */
  predicate OccursAt(s: string, sub: string, i: int) {
    0 <= i && i + |sub| <= |s| && s[i..i + |sub|] == sub
  }

  /** Python `sub in s`. */
  predicate Contains(s: string, sub: string) {
    exists i | 0 <= i <= |s| - |sub| :: OccursAt(s, sub, i)
  }

  lemma ContainsItself(s: string)
    ensures Contains(s, s)
  {
    assert OccursAt(s, s, 0);
  }

  /** Every character of an occurring pattern is a character of the text. */
  lemma ContainsFirstChar(s: string, sub: string)
    ensures Contains(s, sub) && |sub| > 0 ==> sub[0] in s
  {
    if Contains(s, sub) && |sub| > 0 {
      var i :| 0 <= i <= |s| - |sub| && OccursAt(s, sub, i);
      assert s[i] == s[i..i + |sub|][0];
    }
  }

  /** A suffix of `a` followed by a prefix of `b` occurs in `a + b` where they meet. */
  lemma OccursAcross(a: string, b: string, x: string, y: string)
    requires EndsWith(a, x) && StartsWith(b, y)
    ensures OccursAt(a + b, x + y, |a| - |x|)
  {
    var s, i := a + b, |a| - |x|;
    assert s[i..i + |x| + |y|] == a[i..] + b[..|y|];
  }

  /** A string contains every one of its suffixes. */
  lemma ContainsSuffix(a: string, b: string)
    ensures Contains(a + b, b)
  {
    assert (a + b)[|a|..|a| + |b|] == b;
    assert OccursAt(a + b, b, |a|);
  }

  /** An occurrence in a part is an occurrence in the whole. */
  lemma ContainsInPrefix(a: string, b: string, sub: string)
    requires Contains(a, sub)
    ensures Contains(a + b, sub)
  {
    var i :| 0 <= i <= |a| - |sub| && OccursAt(a, sub, i);
    assert (a + b)[i..i + |sub|] == a[i..i + |sub|];
    assert OccursAt(a + b, sub, i);
  }

  lemma ContainsInTail(s: string, sub: string)
    ensures |s| > 0 && Contains(s[1..], sub) ==> Contains(s, sub)
  {
    if |s| > 0 && Contains(s[1..], sub) {
      var i :| 0 <= i <= |s[1..]| - |sub| && OccursAt(s[1..], sub, i);
      assert s[i + 1..i + 1 + |sub|] == s[1..][i..i + |sub|];
      assert OccursAt(s, sub, i + 1);
    }
  }

  /** Python `s.replace(pat, rep)` for a non-empty `pat`: a left-to-right scan that
      replaces each non-overlapping occurrence. */
  function ReplaceAll(s: string, pat: string, rep: string): (r: string)
    requires |pat| > 0
    ensures !Contains(s, pat) ==> r == s
    decreases |s|
  {
    if |s| < |pat| then s
    else if s[..|pat|] == pat then
      assert OccursAt(s, pat, 0);
      rep + ReplaceAll(s[|pat|..], pat, rep)
    else
      ContainsInTail(s, pat);
      assert [s[0]] + s[1..] == s;
      [s[0]] + ReplaceAll(s[1..], pat, rep)
  }

  /** Python `s.replace(pat, rep, 1)` for a non-empty `pat`. */
  function ReplaceFirst(s: string, pat: string, rep: string): string
    requires |pat| > 0
    decreases |s|
  {
    if |s| < |pat| then s
    else if s[..|pat|] == pat then rep + s[|pat|..]
    else [s[0]] + ReplaceFirst(s[1..], pat, rep)
  }

  /** `replace(pat, rep, 1)` on a string that starts with `pat` swaps that prefix. */
  lemma ReplaceFirstAtStart(s: string, pat: string, rep: string)
    requires |pat| > 0 && StartsWith(s, pat)
    ensures ReplaceFirst(s, pat, rep) == rep + s[|pat|..]
  {
  }

  /** No occurrence of `pat` in `a + b` starts inside `a` and ends inside `b`. */
  predicate NoStraddle(a: string, b: string, pat: string) {
    forall i | 0 <= i < |a| && |a| < i + |pat| :: !OccursAt(a + b, pat, i)
  }

  lemma NoStraddleShift(a: string, b: string, pat: string, k: nat)
    requires 0 < k <= |a| && NoStraddle(a, b, pat)
    ensures NoStraddle(a[k..], b, pat)
  {
    assert (a + b)[k..] == a[k..] + b;
    forall i | 0 <= i < |a[k..]| && |a[k..]| < i + |pat|
      ensures !OccursAt(a[k..] + b, pat, i)
    {
      assert !OccursAt(a + b, pat, i + k);
      if i + |pat| <= |a[k..] + b| {
        assert (a + b)[i + k..i + k + |pat|] == (a[k..] + b)[i..i + |pat|];
      }
    }
  }

  /** A scan of `a + b` handles `a` on its own when no occurrence straddles the seam. */
  lemma {:induction false} ReplaceAllSplit(a: string, b: string, pat: string, rep: string)
    requires |pat| > 0 && NoStraddle(a, b, pat)
    ensures ReplaceAll(a + b, pat, rep) == ReplaceAll(a, pat, rep) + ReplaceAll(b, pat, rep)
    decreases |a|, 1
  {
    if |a| == 0 {
      assert a + b == b;
    } else if |a| >= |pat| && a[..|pat|] == pat {
      SplitAfterMatch(a, b, pat, rep);
    } else {
      SplitAfterSkip(a, b, pat, rep);
    }
  }

  lemma {:induction false} SplitAfterMatch(a: string, b: string, pat: string, rep: string)
    requires 0 < |pat| <= |a| && a[..|pat|] == pat && NoStraddle(a, b, pat)
    ensures ReplaceAll(a + b, pat, rep) == ReplaceAll(a, pat, rep) + ReplaceAll(b, pat, rep)
    decreases |a|, 0
  {
    ScanMatch(a, b, pat, rep);
    NoStraddleShift(a, b, pat, |pat|);
    ReplaceAllSplit(a[|pat|..], b, pat, rep);
    Glue(rep, ReplaceAll(a[|pat|..], pat, rep), ReplaceAll(b, pat, rep),
         ReplaceAll(a + b, pat, rep), ReplaceAll(a, pat, rep));
  }

  lemma {:induction false} SplitAfterSkip(a: string, b: string, pat: string, rep: string)
    requires 0 < |pat| && 0 < |a| && NoStraddle(a, b, pat)
    requires |a| >= |pat| ==> a[..|pat|] != pat
    ensures ReplaceAll(a + b, pat, rep) == ReplaceAll(a, pat, rep) + ReplaceAll(b, pat, rep)
    decreases |a|, 0
  {
    ScanSkip(a, b, pat, rep);
    NoStraddleShift(a, b, pat, 1);
    ReplaceAllSplit(a[1..], b, pat, rep);
    SkipHead(a, pat, rep);
    Glue([a[0]], ReplaceAll(a[1..], pat, rep), ReplaceAll(b, pat, rep),
         ReplaceAll(a + b, pat, rep), ReplaceAll(a, pat, rep));
  }

  lemma Glue(h: string, x: string, y: string, whole: string, part: string)
    requires whole == h + (x + y) && part == h + x
    ensures whole == part + y
  {
  }

  lemma ScanMatch(a: string, b: string, pat: string, rep: string)
    requires 0 < |pat| <= |a| && a[..|pat|] == pat
    ensures ReplaceAll(a + b, pat, rep) == rep + ReplaceAll(a[|pat|..] + b, pat, rep)
    ensures ReplaceAll(a, pat, rep) == rep + ReplaceAll(a[|pat|..], pat, rep)
  {
    assert (a + b)[..|pat|] == a[..|pat|];
    assert (a + b)[|pat|..] == a[|pat|..] + b;
  }

  /** When `a` does not start with a match and no match straddles the seam, neither does `a + b`. */
  lemma ScanSkip(a: string, b: string, pat: string, rep: string)
    requires 0 < |pat| && 0 < |a| && NoStraddle(a, b, pat)
    requires |a| >= |pat| ==> a[..|pat|] != pat
    ensures ReplaceAll(a + b, pat, rep) == [a[0]] + ReplaceAll(a[1..] + b, pat, rep)
  {
    if |a| < |pat| {
      assert !OccursAt(a + b, pat, 0);
    } else {
      assert (a + b)[..|pat|] == a[..|pat|];
    }
    assert (a + b)[1..] == a[1..] + b;
  }

  /** Scanning past a first character that does not start a match keeps that character. */
  lemma SkipHead(a: string, pat: string, rep: string)
    requires 0 < |pat| && 0 < |a|
    requires |a| >= |pat| ==> a[..|pat|] != pat
    ensures ReplaceAll(a, pat, rep) == [a[0]] + ReplaceAll(a[1..], pat, rep)
  {
    if |a| < |pat| {
      assert [a[0]] + a[1..] == a;
    }
  }

  /** A replacement no longer than the pattern never lengthens the text, and shortens it by at
      least the difference when the pattern occurs. */
  lemma {:induction false} ReplaceAllShrinks(s: string, pat: string, rep: string)
    requires |pat| > 0 && |rep| <= |pat|
    ensures |ReplaceAll(s, pat, rep)| <= |s|
    ensures Contains(s, pat) ==> |ReplaceAll(s, pat, rep)| <= |s| - (|pat| - |rep|)
    decreases |s|
  {
    if |s| >= |pat| {
      if s[..|pat|] == pat {
        ReplaceAllShrinks(s[|pat|..], pat, rep);
      } else {
        ReplaceAllShrinks(s[1..], pat, rep);
        if Contains(s, pat) {
          var i :| 0 <= i <= |s| - |pat| && OccursAt(s, pat, i);
          assert i != 0;
          assert s[1..][i - 1..i - 1 + |pat|] == s[i..i + |pat|];
          assert OccursAt(s[1..], pat, i - 1);
        }
      }
    }
  }

  /** Replacing a single character is a character-by-character substitution. */
  function SubstChar(s: string, c: char, rep: string): (r: string)
    ensures c !in rep ==> c !in r
    ensures forall x :: x != c && x in r ==> x in s || x in rep
  {
    if |s| == 0 then "" else (if s[0] == c then rep else [s[0]]) + SubstChar(s[1..], c, rep)
  }

  /** A text without `c` is left as it is. */
  lemma {:induction false} SubstCharAbsent(s: string, c: char, rep: string)
    requires c !in s
    ensures SubstChar(s, c, rep) == s
  {
    if |s| > 0 {
      assert s[0] != c;
      SubstCharAbsent(s[1..], c, rep);
      assert [s[0]] + s[1..] == s;
    }
  }

  lemma {:induction false} ReplaceCharIsSubst(s: string, c: char, rep: string)
    ensures ReplaceAll(s, [c], rep) == SubstChar(s, c, rep)
    decreases |s|
  {
    if |s| > 0 {
      ReplaceCharIsSubst(s[1..], c, rep);
    }
  }

  lemma {:induction false} SubstCharAppend(a: string, b: string, c: char, rep: string)
    ensures SubstChar(a + b, c, rep) == SubstChar(a, c, rep) + SubstChar(b, c, rep)
    decreases |a|
  {
    if |a| == 0 {
      assert a + b == b;
    } else {
      assert (a + b)[1..] == a[1..] + b;
      SubstCharAppend(a[1..], b, c, rep);
    }
  }

  // ---------------------------------------------------------------------------
  // Case and whitespace

  function LowerChar(c: char): char {
    if 'A' <= c <= 'Z' then (c as int + 32) as char else c
  }

  /** `s.lower()` on ASCII letters. */
  function Lower(s: string): (r: string)
    ensures |r| == |s|
    ensures forall i | 0 <= i < |s| :: r[i] == LowerChar(s[i])
  {
    if |s| == 0 then "" else [LowerChar(s[0])] + Lower(s[1..])
  }

  /** Lower-casing works character by character, so it distributes over concatenation. */
  lemma LowerAppend(a: string, b: string)
    ensures Lower(a + b) == Lower(a) + Lower(b)
  {
    assert forall i | 0 <= i < |a + b| :: Lower(a + b)[i] == (Lower(a) + Lower(b))[i];
  }

  /** Lower-casing twice is lower-casing once. */
  lemma LowerTwice(s: string)
    ensures Lower(Lower(s)) == Lower(s)
  {
    assert forall i | 0 <= i < |s| :: Lower(Lower(s))[i] == Lower(s)[i];
  }

  predicate IsAsciiLetter(c: char) {
    'a' <= c <= 'z' || 'A' <= c <= 'Z'
  }

  function UpperChar(c: char): char {
    if 'a' <= c <= 'z' then (c as int - 32) as char else c
  }

  /** The characters Python's `str.isspace()` (and `\s` in a `re` pattern) accepts. */
  predicate IsSpace(c: char) {
    || c == ' ' || ('\t' <= c <= '\r') || ('\U{1C}' <= c <= '\U{1F}')
    || c == '\U{85}' || c == '\U{A0}' || c == '\U{1680}'
    || ('\U{2000}' <= c <= '\U{200A}') || c == '\U{2028}' || c == '\U{2029}'
    || c == '\U{202F}' || c == '\U{205F}' || c == '\U{3000}'
  }

  /** Number of leading whitespace characters: `len(s) - len(s.lstrip())`. */
  function LeadingSpace(s: string): (n: nat)
    ensures n <= |s|
    ensures forall i | 0 <= i < n :: IsSpace(s[i])
    ensures n < |s| ==> !IsSpace(s[n])
  {
    if |s| == 0 || !IsSpace(s[0]) then 0 else 1 + LeadingSpace(s[1..])
  }

  /** Python `s.strip()`: the text between a whitespace prefix and a whitespace suffix,
      neither starting nor ending with whitespace itself. */
  function Strip(s: string): (r: string)
    ensures |r| <= |s|
    ensures |r| > 0 ==> !IsSpace(r[0]) && !IsSpace(r[|r| - 1])
    ensures Trimmed(s, r)
    decreases |s|
  {
    if |s| == 0 then
      TrimmedWhole(s);
      ""
    else if IsSpace(s[0]) then
      TrimmedFront(s, Strip(s[1..]));
      Strip(s[1..])
    else if IsSpace(s[|s| - 1]) then
      TrimmedBack(s, Strip(s[..|s| - 1]));
      Strip(s[..|s| - 1])
    else
      TrimmedWhole(s);
      s
  }

  /** `r` is `s[a..b]` for some `a <= b` with only whitespace before `a` and after `b`. */
  predicate Trimmed(s: string, r: string) {
    exists a, b | 0 <= a <= b <= |s| :: r == s[a..b] && AllSpace(s[..a]) && AllSpace(s[b..])
  }

  lemma TrimmedWhole(s: string)
    ensures Trimmed(s, s)
    ensures |s| == 0 ==> Trimmed(s, "")
  {
    assert s == s[0..|s|] && AllSpace(s[..0]) && AllSpace(s[|s|..]);
  }

  /** Trimming the rest of a text that starts with whitespace trims the text. */
  lemma TrimmedFront(s: string, r: string)
    requires |s| > 0 && IsSpace(s[0]) && Trimmed(s[1..], r)
    ensures Trimmed(s, r)
  {
    var t := s[1..];
    var a, b :| 0 <= a <= b <= |t| && r == t[a..b] && AllSpace(t[..a]) && AllSpace(t[b..]);
    SpaceBefore(s, a);
    assert s[b + 1..] == t[b..];
    assert r == s[a + 1..b + 1];
  }

  lemma SpaceBefore(s: string, a: nat)
    requires a < |s| && IsSpace(s[0]) && AllSpace(s[1..][..a])
    ensures AllSpace(s[..a + 1])
  {
    var pre := s[..a + 1];
    forall i | 0 <= i < |pre|
      ensures IsSpace(pre[i])
    {
      if i > 0 {
        assert pre[i] == s[1..][..a][i - 1];
      }
    }
  }

  /** Trimming all but the last character of a text that ends with whitespace trims the text. */
  lemma TrimmedBack(s: string, r: string)
    requires |s| > 0 && IsSpace(s[|s| - 1]) && Trimmed(s[..|s| - 1], r)
    ensures Trimmed(s, r)
  {
    var t := s[..|s| - 1];
    var a, b :| 0 <= a <= b <= |t| && r == t[a..b] && AllSpace(t[..a]) && AllSpace(t[b..]);
    assert r == s[a..b];
    assert s[..a] == t[..a];
    assert s[b..] == t[b..] + [s[|s| - 1]];
  }

  /** Every character of `s` is whitespace. */
  predicate AllSpace(s: string) {
    forall i | 0 <= i < |s| :: IsSpace(s[i])
  }

  /** Length of the leading run of non-whitespace characters. */
  function WordLength(s: string): (n: nat)
    ensures n <= |s|
    ensures forall i | 0 <= i < n :: !IsSpace(s[i])
    ensures n < |s| ==> IsSpace(s[n])
  {
    if |s| == 0 || IsSpace(s[0]) then 0 else 1 + WordLength(s[1..])
  }

  /** Python `s.split()` with no separator: the maximal runs of non-whitespace. */
  function Words(s: string): (ws: seq<string>)
    ensures forall k | 0 <= k < |ws| :: |ws[k]| > 0
    ensures forall k, i | 0 <= k < |ws| && 0 <= i < |ws[k]| :: !IsSpace(ws[k][i])
    ensures ws == [] <==> AllSpace(s)
    decreases |s|
  {
    if |s| == 0 then []
    else if IsSpace(s[0]) then Words(s[1..])
    else
      var n := WordLength(s);
      [s[..n]] + Words(s[n..])
  }

  /** The non-whitespace characters of `s`, in order. */
  function NonSpace(s: string): string {
    if |s| == 0 then ""
    else if IsSpace(s[0]) then NonSpace(s[1..])
    else [s[0]] + NonSpace(s[1..])
  }

  /** `"".join(xs)`. */
  function Concat(xs: seq<string>): string {
    if |xs| == 0 then "" else xs[0] + Concat(xs[1..])
  }

  /** The words of `s`, run together, are exactly its non-whitespace characters in order:
      splitting drops whitespace and nothing else. */
  lemma {:induction false} WordsCoverText(s: string)
    ensures Concat(Words(s)) == NonSpace(s)
    decreases |s|
  {
    if |s| == 0 {
    } else if IsSpace(s[0]) {
      WordsCoverText(s[1..]);
    } else {
      var n := WordLength(s);
      WordsCoverText(s[n..]);
      assert Concat(Words(s)) == s[..n] + Concat(Words(s[n..])) by {
        assert Words(s) == [s[..n]] + Words(s[n..]);
        assert ([s[..n]] + Words(s[n..]))[1..] == Words(s[n..]);
      }
      NonSpaceWord(s, n);
    }
  }

  /** Dropping the whitespace of a text that starts with `n` non-whitespace characters. */
  lemma {:induction false} NonSpaceWord(s: string, n: nat)
    requires n <= |s|
    requires forall i | 0 <= i < n :: !IsSpace(s[i])
    ensures NonSpace(s) == s[..n] + NonSpace(s[n..])
    decreases n
  {
    if n > 0 {
      NonSpaceWord(s[1..], n - 1);
      assert s[1..][n - 1..] == s[n..];
      assert s[..n] == [s[0]] + s[1..][..n - 1];
    }
  }

  /** `sep.join(xs)`. */
  function Join(xs: seq<string>, sep: string): string {
    if |xs| == 0 then ""
    else if |xs| == 1 then xs[0]
    else xs[0] + sep + Join(xs[1..], sep)
  }

  // ---------------------------------------------------------------------------
  // Splitting on '@'

  /** Index of the first `c` in `s`, if any. */
  function IndexOf(s: string, c: char): (r: Base.Option<nat>)
    ensures r.Some? ==> r.value < |s| && s[r.value] == c && c !in s[..r.value]
    ensures r.None? <==> c !in s
  {
    if |s| == 0 then Base.None
    else if s[0] == c then Base.Some(0)
    else
      match IndexOf(s[1..], c)
      case None => Base.None
      case Some(i) =>
        assert s[..i + 1] == [s[0]] + s[1..][..i];
        Base.Some(i + 1)
  }

  /** `s.split(c)[0]`: the text before the first `c` (all of `s` without one). */
  function Before(s: string, c: char): (r: string)
    ensures c !in r
    ensures StartsWith(s, r)
    ensures c in s ==> |r| < |s| && s[|r|] == c
    ensures c !in s ==> r == s
  {
    match IndexOf(s, c)
    case None => s
    case Some(i) => s[..i]
  }

  /** `s.split(c)[1]` for an `s` holding `c`: the text between the first and the second `c`. */
  function SecondField(s: string, c: char): (r: string)
    requires c in s
    ensures c !in r
  {
    var rest := s[|Before(s, c)| + 1..];
    Before(rest, c)
  }

  /** Python `s.split(c)` for a one-character separator: never empty. */
  function SplitOn(s: string, c: char): (fs: seq<string>)
    ensures |fs| > 0
    ensures forall k | 0 <= k < |fs| :: c !in fs[k]
    decreases |s|
  {
    match IndexOf(s, c)
    case None => [s]
    case Some(i) => [s[..i]] + SplitOn(s[i + 1..], c)
  }

  /** Splitting at the first separator. */
  lemma SplitOnCons(a: string, b: string, c: char)
    requires c !in a
    ensures SplitOn(a + [c] + b, c) == [a] + SplitOn(b, c)
  {
    var s := a + [c] + b;
    assert s[|a|] == c;
    var i := IndexOf(s, c).value;
    assert forall j | 0 <= j < |a| :: s[j] == a[j];
    assert forall j | 0 <= j < i :: s[..i][j] == s[j];
    assert s[..i] == a;
    assert s[i + 1..] == b;
  }

  /** `sep.join` and `split(sep)` are inverse on fields free of the separator. */
  lemma {:induction false} SplitJoin(xs: seq<string>, c: char)
    requires |xs| > 0
    requires forall k | 0 <= k < |xs| :: c !in xs[k]
    ensures SplitOn(Join(xs, [c]), c) == xs
  {
    if |xs| == 1 {
      assert IndexOf(xs[0], c).None?;
    } else {
      SplitOnCons(xs[0], Join(xs[1..], [c]), c);
      SplitJoin(xs[1..], c);
    }
  }

  // ---------------------------------------------------------------------------
  // Decimal rendering

  function DigitChar(d: nat): char
    requires d < 10
  {
    "0123456789"[d]
  }

  predicate IsDigit(c: char) {
    '0' <= c <= '9'
  }

  /** `str(n)` for a natural number. */
  function NatToString(n: nat): (r: string)
    ensures |r| > 0
    ensures forall i | 0 <= i < |r| :: IsDigit(r[i])
    ensures (n < 10) <==> (|r| == 1)
  {
    if n < 10 then [DigitChar(n)] else NatToString(n / 10) + [DigitChar(n % 10)]
  }

  /** `str(n)` for an integer. */
  function IntToString(n: int): (r: string)
    ensures |r| > 0
  {
    if n < 0 then "-" + NatToString(-n) else NatToString(n)
  }

  /** Distinct numbers have distinct decimal renderings. */
  lemma {:induction false} NatToStringInjective(a: nat, b: nat)
    requires NatToString(a) == NatToString(b)
    ensures a == b
  {
    if a < 10 || b < 10 {
      assert a < 10 && b < 10;
      assert DigitChar(a) == DigitChar(b);
    } else {
      var sa, sb := NatToString(a / 10), NatToString(b / 10);
      assert NatToString(a) == sa + [DigitChar(a % 10)];
      assert NatToString(b) == sb + [DigitChar(b % 10)];
      assert |sa| == |sb|;
      assert sa == NatToString(a)[..|sa|] == NatToString(b)[..|sb|] == sb;
      assert DigitChar(a % 10) == DigitChar(b % 10);
      NatToStringInjective(a / 10, b / 10);
    }
  }
}

=== FILE: threads.dfy ===
/**
 `generate_email_thread`: a fold over the prompts of a thread. Each step is skipped by its
 probability draw, fails when the model's answer is missing or lacks a required key, or
 yields one saved message linked to the one before by `Message-ID`, `In-Reply-To` and
 `References` (section 3.6.4 of RFC 5322). A step that is not skipped first randomizes its
 prompt; when that raises, the exception ends the thread with the messages saved so far on
 disk. The prompt text sent to the model plays no other part once the answer is an input.
 */
module Threads {

  import opened Base
  import opened Text
  import opened Timestamps
  import Personnel
  import opened Mail
  import opened Custodians
  import opened Stats
  import Prompts

  /** What one step consumes besides the running state. */
  datatype Step = Step(
    skip: bool,                 // random() > probability
    prompt: Prompts.Template,   // the prompt object of this step
    promptDraws: Prompts.PromptDraws,
    answer: Option<RawEmail>,   // the model's parsed answer, None when the call failed
    nearDuplicate: bool,        // random() < near_dup_prob
    variationDraw: nat,         // random.choice of the near-duplicate variation
    uuid: string,               // uuid4() of the Message-ID
    offsetDraw: nat,            // randint(1, 48) hours after the previous message
    now: Time,                  // datetime.now() when there is no previous message
    time: TimestampDraws,
    signature: bool)            // random() < 0.6 in create_and_save_email

  datatype Headers = Headers(messageId: string, inReplyTo: Option<string>, references: Option<string>)

  /** A message handed to `create_and_save_email`, and the content after that call appended
      the sender's signature to the same dict. */
  datatype Saved = Saved(fileName: string, handed: Email, stored: Email, headers: Headers, date: Time)

  datatype ThreadState = ThreadState(prevId: Option<string>, references: seq<string>,
                                     prev: Option<(Email, Time)>, count: nat,
                                     saved: seq<Saved>, stats: Stats)

  const Begin := ThreadState(None, [], None, 0, [], Initial)

  const UrgentKeywords := ["urgent", "asap", "immediately", "critical", "emergency", "catastrophic"]

  /** The domain of the Message-ID: what follows the sender's `@`, or `synthetic.local`. */
  function IdDomain(senderEmail: string): (r: string)
    ensures '@' in senderEmail ==> r == SecondField(senderEmail, '@')
    ensures '@' !in senderEmail ==> r == "synthetic.local"
  {
    if '@' in senderEmail then SecondField(senderEmail, '@') else "synthetic.local"
  }

  function MessageId(uuid: string, senderEmail: string): (r: string)
    ensures |r| > 0 && r[0] == '<' && r[|r| - 1] == '>'
    ensures |uuid| + 1 <= |r| && r[1..|uuid| + 1] == uuid
    ensures EndsWith(r, "@" + IdDomain(senderEmail) + ">")
  {
    BracketedShape(uuid, IdDomain(senderEmail));
    "<" + uuid + "@" + IdDomain(senderEmail) + ">"
  }

  lemma BracketedShape(uuid: string, domain: string)
    ensures var r := "<" + uuid + "@" + domain + ">";
            r[1..|uuid| + 1] == uuid && EndsWith(r, "@" + domain + ">")
  {
    var r := "<" + uuid + "@" + domain + ">";
    assert r[|r| - |domain| - 2..] == "@" + domain + ">";
  }

  /** Distinct uuids without `@` give distinct Message-IDs. */
  lemma MessageIdsDistinct(u1: string, u2: string, s1: string, s2: string)
    requires '@' !in u1 && '@' !in u2 && u1 != u2
    ensures MessageId(u1, s1) != MessageId(u2, s2)
  {
    var a, b := MessageId(u1, s1), MessageId(u2, s2);
    if |u1| <= |u2| {
      UuidPrefix(u1, u2, a, b, IdDomain(s1), IdDomain(s2));
    } else {
      UuidPrefix(u2, u1, b, a, IdDomain(s2), IdDomain(s1));
    }
  }

  lemma UuidPrefix(u1: string, u2: string, a: string, b: string, d1: string, d2: string)
    requires '@' !in u1 && '@' !in u2 && u1 != u2 && |u1| <= |u2|
    requires a == "<" + u1 + "@" + d1 + ">" && b == "<" + u2 + "@" + d2 + ">"
    ensures a != b
  {
    assert a[1 + |u1|] == '@';
    if |u1| == |u2| {
      var k :| 0 <= k < |u1| && u1[k] != u2[k];
      assert a[1 + k] == u1[k] && b[1 + k] == u2[k];
    } else {
      assert b[1 + |u1|] == u2[|u1|];
      assert u2[|u1|] in u2;
    }
  }

  /** The subject check lower-cases the reply's subject: a `re:` prefix in any case is kept. */
  predicate HasReplyPrefix(subject: string) {
    StartsWith(Lower(subject), "re:")
  }

  /** Reply shaping: a reply's subject gets `Re: ` and the previous subject unless it already
      starts with a reply prefix, and the previous message is quoted after the body. */
  function ShapeReply(e: Email, prev: Email, dateText: string): (r: Email)
    ensures HasReplyPrefix(r.subject)
    ensures HasReplyPrefix(e.subject) ==> r.subject == e.subject
    ensures !HasReplyPrefix(e.subject) ==> r.subject == "Re: " + prev.subject
    ensures StartsWith(r.body, e.body) && EndsWith(r.body, FormatQuotedBody(prev, dateText))
    ensures r.(subject := e.subject, body := e.body) == e
  {
    var subject := if HasReplyPrefix(e.subject) then e.subject else "Re: " + prev.subject;
    var body := e.body + FormatQuotedBody(prev, dateText);
    assert Lower("Re: " + prev.subject)[..3] == "re:";
    assert body[..|e.body|] == e.body;
    assert body[|body| - |FormatQuotedBody(prev, dateText)|..] == FormatQuotedBody(prev, dateText);
    e.(subject := subject, body := body)
  }

  /** The urgency test looks for a keyword in the lower-cased subject and body joined
      without a separator. */
  predicate IsUrgent(e: Email): (r: bool)
    ensures r <==> exists k | 0 <= k < |UrgentKeywords| :: Contains(Lower(e.subject + e.body), UrgentKeywords[k])
  {
    LowerAppend(e.subject, e.body);
    exists k | 0 <= k < |UrgentKeywords| :: Contains(Lower(e.subject) + Lower(e.body), UrgentKeywords[k])
  }

  /** A keyword split between the end of the subject and the start of the body counts:
      `Re: urg` with a body starting `ent` is urgent. */
  lemma UrgencyAcrossSubjectAndBody(e: Email)
    requires EndsWith(Lower(e.subject), "urg") && StartsWith(Lower(e.body), "ent")
    ensures IsUrgent(e)
  {
    var a, b := Lower(e.subject), Lower(e.body);
    OccursAcross(a, b, "urg", "ent");
    assert "urg" + "ent" == UrgentKeywords[0];
  }

  /** The message a step hands to `create_and_save_email`: the answer, possibly made a
      near-duplicate, shaped as a reply when there is a previous message. */
  function Draft(st: ThreadState, step: Step, answer: Email, render: Time -> string): (r: Email)
    ensures st.prev.Some? ==> HasReplyPrefix(r.subject)
    ensures st.prev.Some? ==> EndsWith(r.body, FormatQuotedBody(st.prev.value.0, render(st.prev.value.1)))
    ensures st.prev.None? && !step.nearDuplicate ==> r == answer
  {
    var e0 := if step.nearDuplicate then NearDuplicate(answer, Signature, step.variationDraw) else answer;
    if st.prev.Some? then ShapeReply(e0, st.prev.value.0, render(st.prev.value.1)) else e0
  }

  /** The message a step saves after the given state. */
  function NextSaved(st: ThreadState, step: Step, answer: Email, base: string, d: Personnel.Directory,
                     description: string, render: Time -> string): (r: Saved)
    ensures r.headers.inReplyTo == st.prevId
    ensures r.headers.references == (if st.prevId.Some? then Some(Join(st.references, " ")) else None)
    ensures r.fileName == base + "_" + NatToString(st.count + 1)
    ensures st.prev.Some? ==> HasReplyPrefix(r.handed.subject)
    ensures st.prev.Some? ==> EndsWith(r.handed.body, FormatQuotedBody(st.prev.value.0, render(st.prev.value.1)))
    ensures st.prev.Some? ==> st.prev.value.1.day <= r.date.day
    ensures r.stored == AppendSignature(r.handed, d, step.signature)
  {
    var e1 := Draft(st, step, answer, render);
    var id := MessageId(step.uuid, e1.senderEmail);
    var headers := if st.prevId.Some?
                   then Headers(id, st.prevId, Some(Join(st.references, " ")))
                   else Headers(id, None, None);
    var offset := if st.prev.Some? then Some(RandInt(1, 48, step.offsetDraw)) else None;
    var prevDate := if st.prev.Some? then Some(st.prev.value.1) else None;
    var date := RealisticTimestamp(prevDate, step.now, offset, description, IsUrgent(e1), step.time);
    Saved(base + "_" + NatToString(st.count + 1), e1, AppendSignature(e1, d, step.signature), headers, date)
  }

  /** One step of the loop. */
  function Advance(st: ThreadState, step: Step, base: string, d: Personnel.Directory, description: string, render: Time -> string): (r: ThreadState)
  {
    if step.skip then st
    else
      match ValidateEmail(step.answer)
      case None => st
      case Some(answer) =>
        var n := NextSaved(st, step, answer, base, d, description, render);
        ThreadState(Some(n.headers.messageId), st.references + [n.headers.messageId], Some((n.stored, n.date)),
                    st.count + 1, st.saved + [n], RecordEmail(st.stats, Some(n.handed.senderEmail), n.date))
  }

  function Ids(saved: seq<Saved>): (r: seq<string>)
    ensures |r| == |saved| && forall k | 0 <= k < |saved| :: r[k] == saved[k].headers.messageId
  {
    seq(|saved|, k requires 0 <= k < |saved| => saved[k].headers.messageId)
  }

  /** The running state agrees with the messages saved so far. */
  predicate Tracks(st: ThreadState) {
    && st.count == |st.saved|
    && st.references == Ids(st.saved)
    && (st.prevId.Some? <==> |st.saved| > 0)
    && (|st.saved| > 0 ==> st.prevId == Some(st.saved[|st.saved| - 1].headers.messageId))
    && (st.prev.Some? <==> |st.saved| > 0)
    && (|st.saved| > 0 ==> st.prev == Some((st.saved[|st.saved| - 1].stored, st.saved[|st.saved| - 1].date)))
  }

  /** RFC 5322 threading: the first message has neither `In-Reply-To` nor `References`; each
      later one replies to the message before it and references all earlier ones in order. */
  predicate Linked(saved: seq<Saved>) {
    forall k | 0 <= k < |saved| :: LinkedAt(saved, k)
  }

  predicate LinkedAt(saved: seq<Saved>, k: nat)
    requires k < |saved|
  {
    && saved[k].headers.inReplyTo == (if k == 0 then None else Some(saved[k - 1].headers.messageId))
    && saved[k].headers.references == (if k == 0 then None else Some(Join(Ids(saved[..k]), " ")))
  }

  /** Every reply was shaped from the stored form of the message before it. */
  predicate Replies(saved: seq<Saved>, render: Time -> string) {
    Chained(saved, ReplyRel(render))
  }

  function ReplyRel(render: Time -> string): (Saved, Saved) -> bool {
    (prev: Saved, next: Saved) => ReplyTo(prev, next, render)
  }

  /** `next` answers `prev`: a reply subject, and the body ends with the quote of the stored
      `prev` under its rendered date. */
  predicate ReplyTo(prev: Saved, next: Saved, render: Time -> string) {
    && HasReplyPrefix(next.handed.subject)
    && EndsWith(next.handed.body, FormatQuotedBody(prev.stored, render(prev.date)))
  }

  /** Dates never go back a calendar day. */
  predicate DaysForward(saved: seq<Saved>) {
    forall k | 1 <= k < |saved| :: saved[k - 1].date.day <= saved[k].date.day
  }

  /** The `k`-th message is saved as `<base>_<k + 1>`. */
  predicate Numbered(saved: seq<Saved>, base: string) {
    Indexed(saved, NameRel(base))
  }

  function NameRel(base: string): (nat, Saved) -> bool {
    (k: nat, s: Saved) => s.fileName == base + "_" + NatToString(k + 1)
  }

  /** Everything the loop keeps true. */
  predicate Good(st: ThreadState, base: string, render: Time -> string) {
    Tracks(st) && Linked(st.saved) && Replies(st.saved, render) && DaysForward(st.saved) && Numbered(st.saved, base)
  }

  /** A step saves exactly when it is not skipped and the answer has every required key; a
      skipped or failed step leaves the whole state as it was. */
  lemma AdvanceSaves(st: ThreadState, step: Step, base: string, d: Personnel.Directory, description: string, render: Time -> string)
    ensures var r := Advance(st, step, base, d, description, render);
            (!step.skip && ValidateEmail(step.answer).Some?) ==> |r.saved| == |st.saved| + 1 && r.saved[..|st.saved|] == st.saved
    ensures (step.skip || ValidateEmail(step.answer).None?) ==> Advance(st, step, base, d, description, render) == st
  {
    var r := Advance(st, step, base, d, description, render);
    if !step.skip && ValidateEmail(step.answer).Some? {
      assert r.saved[..|st.saved|] == st.saved;
    }
  }

  /** Appending the next message keeps every property of the loop. */
  lemma {:induction false} AdvanceKeeps(st: ThreadState, step: Step, base: string, d: Personnel.Directory, description: string, render: Time -> string)
    requires Good(st, base, render)
    ensures var r := Advance(st, step, base, d, description, render);
            Good(r, base, render) && (Consistent(st.stats) ==> Consistent(r.stats))
  {
    AdvanceSaves(st, step, base, d, description, render);
    if !step.skip && ValidateEmail(step.answer).Some? {
      var n := NextSaved(st, step, ValidateEmail(step.answer).value, base, d, description, render);
      AppendTracks(st, n);
      AppendLinked(st, n);
      AppendReplies(st, n, render);
      AppendDays(st, n);
      AppendNumbered(st, n, base);
    }
  }

  lemma AppendTracks(st: ThreadState, n: Saved)
    requires Tracks(st)
    ensures Tracks(ThreadState(Some(n.headers.messageId), st.references + [n.headers.messageId], Some((n.stored, n.date)),
                               st.count + 1, st.saved + [n], st.stats))
  {
    assert Ids(st.saved + [n]) == Ids(st.saved) + [n.headers.messageId];
  }

  lemma AppendLinked(st: ThreadState, n: Saved)
    requires Tracks(st) && Linked(st.saved)
    requires n.headers.inReplyTo == st.prevId
    requires n.headers.references == (if st.prevId.Some? then Some(Join(st.references, " ")) else None)
    ensures Linked(st.saved + [n])
  {
    var s := st.saved + [n];
    var m := |st.saved|;
    forall k | 0 <= k < m ensures LinkedAt(s, k) {
      assert LinkedAt(st.saved, k);
      assert s[..k] == st.saved[..k];
      if k > 0 {
        assert s[k - 1] == st.saved[k - 1];
      }
    }
    assert s[..m] == st.saved;
    assert LinkedAt(s, m);
  }

  lemma AppendReplies(st: ThreadState, n: Saved, render: Time -> string)
    requires Tracks(st) && Replies(st.saved, render)
    requires st.prev.Some? ==> HasReplyPrefix(n.handed.subject)
    requires st.prev.Some? ==> EndsWith(n.handed.body, FormatQuotedBody(st.prev.value.0, render(st.prev.value.1)))
    ensures Replies(st.saved + [n], render)
  {
    var m := |st.saved|;
    if m > 0 {
      var p := st.saved[m - 1];
      assert (p.stored, p.date) == st.prev.value;
      assert ReplyTo(p, n, render);
      assert ReplyRel(render)(p, n);
    }
    ChainedSnoc(st.saved, n, ReplyRel(render));
  }

  lemma AppendDays(st: ThreadState, n: Saved)
    requires Tracks(st) && DaysForward(st.saved)
    requires st.prev.Some? ==> st.prev.value.1.day <= n.date.day
    ensures DaysForward(st.saved + [n])
  {
    var s := st.saved + [n];
    forall k | 1 <= k < |s| ensures s[k - 1].date.day <= s[k].date.day {
      assert s[k - 1] == st.saved[k - 1];
      if k < |st.saved| {
        assert s[k] == st.saved[k];
      }
    }
  }

  lemma AppendNumbered(st: ThreadState, n: Saved, base: string)
    requires Tracks(st) && Numbered(st.saved, base)
    requires n.fileName == base + "_" + NatToString(st.count + 1)
    ensures Numbered(st.saved + [n], base)
  {
    IndexedSnoc(st.saved, n, NameRel(base));
  }

  /** `generate_email_thread` from a given state: earlier messages stay, at most one is
      added per step. */
  function Thread(st: ThreadState, steps: seq<Step>, base: string, d: Personnel.Directory, description: string, render: Time -> string): (r: ThreadState)
    ensures |st.saved| <= |r.saved| <= |st.saved| + |steps| && r.saved[..|st.saved|] == st.saved
    decreases |steps|
  {
    if |steps| == 0 then st
    else
      var next := Advance(st, steps[0], base, d, description, render);
      AdvanceSaves(st, steps[0], base, d, description, render);
      var r := Thread(next, steps[1..], base, d, description, render);
      assert r.saved[..|st.saved|] == r.saved[..|next.saved|][..|st.saved|];
      r
  }

  /** The loop keeps RFC 5322 threading, reply shaping, day order, file numbering and
      consistent statistics. */
  lemma {:induction false} ThreadKeeps(st: ThreadState, steps: seq<Step>, base: string, d: Personnel.Directory, description: string, render: Time -> string)
    requires Good(st, base, render)
    ensures Good(Thread(st, steps, base, d, description, render), base, render)
    ensures Consistent(st.stats) ==> Consistent(Thread(st, steps, base, d, description, render).stats)
    decreases |steps|
  {
    if |steps| > 0 {
      AdvanceKeeps(st, steps[0], base, d, description, render);
      ThreadKeeps(Advance(st, steps[0], base, d, description, render), steps[1..], base, d, description, render);
    }
  }

  /** The exception a step raises before its answer is requested. A thread step must be a
      mapping: for a plain text `prompt_obj.get('probability', 1.0)` raises `AttributeError`
      before the skip draw. A step that is not skipped raises whatever `get_randomized_prompt`
      raises. */
  function StepError(step: Step, vars: Prompts.Variables, d: Personnel.Directory, runCount: int): (r: Option<string>)
    ensures step.prompt.Single? ==> r == Some("AttributeError")
    ensures step.prompt.Templates? && step.skip ==> r.None?
    ensures step.prompt.Templates? && !step.skip ==>
              (r.Some? <==> Prompts.GetRandomizedPrompt(step.prompt, vars, d, runCount, step.promptDraws).Raised?)
  {
    if step.prompt.Single? then Some("AttributeError")
    else if step.skip then None
    else
      match Prompts.GetRandomizedPrompt(step.prompt, vars, d, runCount, step.promptDraws)
      case Raised(e) => Some(e)
      case Ok(_) => None
  }

  predicate PromptFails(step: Step, vars: Prompts.Variables, d: Personnel.Directory, runCount: int) {
    StepError(step, vars, d, runCount).Some?
  }

  function PromptFailsAt(steps: seq<Step>, vars: Prompts.Variables, d: Personnel.Directory, runCount: int): nat -> bool {
    (k: nat) => k < |steps| && PromptFails(steps[k], vars, d, runCount)
  }

  /** The first step whose prompt raises, or the number of steps. */
  function FailingStep(steps: seq<Step>, vars: Prompts.Variables, d: Personnel.Directory, runCount: int): (k: nat)
    ensures k <= |steps|
    ensures forall j | 0 <= j < k :: !PromptFails(steps[j], vars, d, runCount)
    ensures k < |steps| ==> PromptFails(steps[k], vars, d, runCount)
  {
    var p := PromptFailsAt(steps, vars, d, runCount);
    var k := FirstWhere(|steps|, p, 0);
    assert forall j | 0 <= j < |steps| :: p(j) == PromptFails(steps[j], vars, d, runCount);
    k
  }

  /** What `generate_email_thread` returns, with the messages it saved. The first step whose
      prompt randomization raises ends the thread with that exception, after the messages of
      the steps before it were saved. Otherwise the count is the number of saved messages, at
      most one per prompt. Saved messages carry RFC 5322 threading, reply shaping and day
      order. */
  function GenerateEmailThread(steps: seq<Step>, vars: Prompts.Variables, runCount: int, base: string,
                               d: Personnel.Directory, description: string, render: Time -> string): (r: (Result<nat>, seq<Saved>))
    ensures r.0.Raised? <==> exists k | 0 <= k < |steps| :: PromptFails(steps[k], vars, d, runCount)
    ensures r.1 == Thread(Begin, steps[..FailingStep(steps, vars, d, runCount)], base, d, description, render).saved
    ensures r.0.Ok? ==> r.0.value == |r.1|
    ensures |r.1| <= |steps|
    ensures Linked(r.1) && Replies(r.1, render) && DaysForward(r.1) && Numbered(r.1, base)
    ensures |r.1| > 0 ==> r.1[0].headers.inReplyTo.None? && r.1[0].headers.references.None?
  {
    assert Ids([]) == [];
    assert Good(Begin, base, render);
    var k := FailingStep(steps, vars, d, runCount);
    var st := Thread(Begin, steps[..k], base, d, description, render);
    ThreadKeeps(Begin, steps[..k], base, d, description, render);
    assert Tracks(st) && Linked(st.saved);
    FirstMessageStartsThread(st.saved);
    if k < |steps| then
      (Raised(StepError(steps[k], vars, d, runCount).value), st.saved)
    else (Ok(st.count), st.saved)
  }

  /** A failing prompt in step `k` keeps the messages of the steps before it and loses the rest. */
  lemma PromptFailureKeepsEarlierMessages(steps: seq<Step>, vars: Prompts.Variables, runCount: int, base: string,
                                          d: Personnel.Directory, description: string, render: Time -> string, k: nat)
    requires k < |steps| && PromptFails(steps[k], vars, d, runCount)
    requires forall j | 0 <= j < k :: !PromptFails(steps[j], vars, d, runCount)
    ensures var r := GenerateEmailThread(steps, vars, runCount, base, d, description, render);
            && r.0 == Raised(StepError(steps[k], vars, d, runCount).value)
            && r.1 == Thread(Begin, steps[..k], base, d, description, render).saved && |r.1| <= k
  {
    var i := FailingStep(steps, vars, d, runCount);
    assert i == k;
  }

  /** A thread whose first prompt is plain text raises `AttributeError`, skipped or not, and
      saves nothing. */
  lemma PlainTextPromptRaises(steps: seq<Step>, vars: Prompts.Variables, runCount: int, base: string,
                              d: Personnel.Directory, description: string, render: Time -> string)
    requires |steps| > 0 && steps[0].prompt.Single?
    ensures GenerateEmailThread(steps, vars, runCount, base, d, description, render) == (Raised("AttributeError"), [])
  {
    PromptFailureKeepsEarlierMessages(steps, vars, runCount, base, d, description, render, 0);
  }

  /** In a linked thread the first message has no threading headers. */
  lemma FirstMessageStartsThread(saved: seq<Saved>)
    ensures Linked(saved) && |saved| > 0 ==> saved[0].headers.inReplyTo.None? && saved[0].headers.references.None?
  {
    if Linked(saved) && |saved| > 0 {
      assert LinkedAt(saved, 0);
    }
  }

  /** The statistics gain one email per saved message. */
  lemma {:induction false} ThreadCountsEmails(steps: seq<Step>, st: ThreadState, base: string, d: Personnel.Directory, description: string, render: Time -> string)
    requires st.stats.emails == |st.saved|
    ensures var r := Thread(st, steps, base, d, description, render); r.stats.emails == |r.saved|
    decreases |steps|
  {
    if |steps| > 0 {
      AdvanceSaves(st, steps[0], base, d, description, render);
      ThreadCountsEmails(steps[1..], Advance(st, steps[0], base, d, description, render), base, d, description, render);
    }
  }
}

=== FILE: timestamps.dfy ===
/**
 The timestamp simulator (`generate_realistic_timestamp`) on integer clock values.
 A `Stamp` is a day index, an hour and a minute; day 0 is a Monday, so the weekday is
 `day % 7` with Monday = 0 as in Python's `weekday()`. Seconds are never touched by the
 simulator and are not represented.
 */
module Timestamps {

  import opened Base
  import Text

  datatype Stamp = Stamp(day: int, hour: nat, minute: nat) {
    function Weekday(): nat {
      day % 7
    }
  }

  /** A wall-clock value as a `datetime` holds it. */
  type Time = s: Stamp | s.hour < 24 && s.minute < 60 witness Stamp(0, 0, 0)

  const MinutesPerDay := 1440

  const Friday := 4
  const Saturday := 5

  function ToMinutes(s: Stamp): int {
    s.day * MinutesPerDay + s.hour * 60 + s.minute
  }

  function FromMinutes(m: int): (t: Time)
    ensures ToMinutes(t) == m
  {
    Stamp(m / MinutesPerDay, (m % MinutesPerDay) / 60, m % 60)
  }

  /** `t + timedelta(minutes=delta)`. */
  function AddMinutes(t: Time, delta: int): (r: Time)
    ensures ToMinutes(r) == ToMinutes(t) + delta
    ensures delta >= 0 ==> r.day >= t.day
  {
    var r := FromMinutes(ToMinutes(t) + delta);
    DayMonotone(t, r);
    r
  }

  /** The day index never decreases when the minute count does not. */
  lemma DayMonotone(a: Time, b: Time)
    ensures ToMinutes(a) <= ToMinutes(b) ==> a.day <= b.day
  {
    assert a.day * MinutesPerDay <= ToMinutes(a);
    assert ToMinutes(b) < (b.day + 1) * MinutesPerDay;
  }

  /** A clock value is determined by its minute count. */
  lemma ToMinutesInjective(a: Time, b: Time)
    requires ToMinutes(a) == ToMinutes(b)
    ensures a == b
  {
    DayMonotone(a, b);
    DayMonotone(b, a);
    assert a.hour * 60 + a.minute == b.hour * 60 + b.minute;
  }

  /** `t + timedelta(days=n)` keeps the time of day. */
  lemma AddDays(t: Time, n: int)
    ensures AddMinutes(t, n * MinutesPerDay) == Stamp(t.day + n, t.hour, t.minute)
  {
    var u: Time := Stamp(t.day + n, t.hour, t.minute);
    ToMinutesInjective(AddMinutes(t, n * MinutesPerDay), u);
  }

  /** The independent draws one call consumes: `randint` results come from free naturals,
      `random() < p` tests are booleans. */
  datatype TimestampDraws = TimestampDraws(
    backDays: nat,          // randint(10, 100) days before now when no base date is given
    coolOff: bool,          // random() < 0.3 in a fraud scenario
    longHours: nat,         // randint(24, 72)
    longMinutes: nat,       // randint(0, 59)
    quickMinutes: nat,      // randint(30, 240)
    privilegeHours: nat,    // randint(2, 24)
    privilegeMinutes: nat,  // randint(0, 59)
    jitterMinutes: nat,     // randint(1, 59)
    businessHours: bool,    // random() < 0.8
    earlyMorning: bool,     // random() < 0.5
    snapHour: nat,          // randint of the chosen hour window
    snapMinute: nat,        // randint(0, 59)
    respectWeekend: bool,   // random() < 0.9
    waitForMonday: bool,    // random() < 0.7
    mondayHour: nat,        // randint(8, 10)
    mondayMinute: nat)      // randint(0, 59)

  const FraudKeywords := ["fraud", "hiding", "coverup", "destruction", "shred", "manipulat"]

  predicate IsFraudScenario(description: string) {
    exists k | k in FraudKeywords :: Text.Contains(Text.Lower(description), k)
  }

  predicate IsPrivilegeScenario(description: string) {
    Text.Contains(Text.Lower(description), "privilege") || Text.Contains(Text.Lower(description), "confidential")
  }

  /** Python truthiness of `hours_offset`: `None` and `0` are both false. */
  predicate OffsetGiven(hoursOffset: Option<int>) {
    hoursOffset.Some? && hoursOffset.value != 0
  }

  /** The latest evening hour: 23 for fraud or urgent traffic, 21 otherwise. */
  function EveningEnd(hurried: bool): nat {
    if hurried then 23 else 21
  }

  /** The hour windows the snapping step can produce. */
  predicate InHourWindows(hour: nat, hurried: bool) {
    (8 <= hour <= 18) || (6 <= hour <= 7) || (18 <= hour <= EveningEnd(hurried))
  }

  /** Step 1: the base delta. */
  function Shifted(base: Time, hoursOffset: Option<int>, fraud: bool, privilege: bool, urgent: bool,
                   d: TimestampDraws): (r: Time)
    ensures !OffsetGiven(hoursOffset) ==> r == base
    ensures (urgent || fraud) && !(fraud && d.coolOff) && OffsetGiven(hoursOffset) ==>
              30 <= ToMinutes(r) - ToMinutes(base) <= 240
    ensures fraud && d.coolOff && OffsetGiven(hoursOffset) ==>
              24 * 60 <= ToMinutes(r) - ToMinutes(base) <= 72 * 60 + 59
    ensures !(urgent || fraud) && privilege && OffsetGiven(hoursOffset) ==>
              2 * 60 <= ToMinutes(r) - ToMinutes(base) <= 24 * 60 + 59
    ensures !(urgent || fraud) && !privilege && OffsetGiven(hoursOffset) ==>
              ToMinutes(r) - ToMinutes(base) == hoursOffset.value * 60 + RandInt(1, 59, d.jitterMinutes)
    ensures hoursOffset.None? || hoursOffset.value >= 0 ==> r.day >= base.day
  {
    if !OffsetGiven(hoursOffset) then base
    else if urgent || fraud then
      if fraud && d.coolOff then
        AddMinutes(base, RandInt(24, 72, d.longHours) * 60 + RandInt(0, 59, d.longMinutes))
      else
        AddMinutes(base, RandInt(30, 240, d.quickMinutes))
    else if privilege then
      AddMinutes(base, RandInt(2, 24, d.privilegeHours) * 60 + RandInt(0, 59, d.privilegeMinutes))
    else
      AddMinutes(base, hoursOffset.value * 60 + RandInt(1, 59, d.jitterMinutes))
  }

  /** Step 2: business-hours snapping keeps the date and replaces hour and minute. */
  function Snap(t: Time, hurried: bool, d: TimestampDraws): (r: Time)
    ensures r.day == t.day
    ensures InHourWindows(r.hour, hurried)
    ensures d.businessHours ==> 8 <= r.hour <= 18
    ensures !d.businessHours && d.earlyMorning ==> 6 <= r.hour <= 7
    ensures !d.businessHours && !d.earlyMorning ==> 18 <= r.hour <= EveningEnd(hurried)
  {
    if d.businessHours then Stamp(t.day, RandInt(8, 18, d.snapHour), RandInt(0, 59, d.snapMinute))
    else if d.earlyMorning then Stamp(t.day, RandInt(6, 7, d.snapHour), RandInt(0, 59, d.snapMinute))
    else Stamp(t.day, RandInt(18, EveningEnd(hurried), d.snapHour), RandInt(0, 59, d.snapMinute))
  }

  /** `while new_date.weekday() >= 5: new_date += timedelta(days=1)` on the day index. */
  function RollToWeekday(day: int): (r: int)
    ensures r % 7 < Saturday
    ensures day <= r <= day + 2
    ensures day % 7 < Saturday ==> r == day
    ensures forall k | day <= k < r :: k % 7 >= Saturday
    decreases if day % 7 < Saturday then 0 else 7 - day % 7
  {
    if day % 7 < Saturday then day else RollToWeekday(day + 1)
  }

  /** Step 3: the weekend and Friday-evening rules. */
  function WeekendRule(t: Time, d: TimestampDraws): (r: Time)
    ensures !d.respectWeekend ==> r == t
    ensures d.respectWeekend ==> r.Weekday() < Saturday
    ensures r.day >= t.day
    ensures d.respectWeekend && r.day != RollToWeekday(t.day) ==>
              d.waitForMonday && r.Weekday() == 0 && 8 <= r.hour <= 10
  {
    if !d.respectWeekend then t
    else
      var rolled: Time := Stamp(RollToWeekday(t.day), t.hour, t.minute);
      if rolled.Weekday() == Friday && rolled.hour >= 17 && d.waitForMonday then
        // days_to_add = 7 - weekday() = 3
        Stamp(rolled.day + (7 - rolled.Weekday()), RandInt(8, 10, d.mondayHour), RandInt(0, 59, d.mondayMinute))
      else
        rolled
  }

  /**
   `generate_realistic_timestamp(base_date, hours_offset, scenario_description, is_urgent)`.
   Without a base date the base is `now` minus 10 to 100 days.
   */
  function RealisticTimestamp(base: Option<Time>, now: Time, hoursOffset: Option<int>,
                              description: string, urgent: bool, d: TimestampDraws): (r: Time)
    ensures InHourWindows(r.hour, IsFraudScenario(description) || urgent)
    ensures base.Some? && (hoursOffset.None? || hoursOffset.value >= 0) ==> r.day >= base.value.day
    ensures base.None? && (hoursOffset.None? || hoursOffset.value >= 0) ==> r.day >= now.day - 100
    ensures d.respectWeekend ==> r.Weekday() < Saturday
  {
    var fraud := IsFraudScenario(description);
    var privilege := IsPrivilegeScenario(description);
    var back := RandInt(10, 100, d.backDays);
    var start := if base.Some? then base.value else AddMinutes(now, -back * MinutesPerDay);
    AddDays(now, -back);
    var shifted := Shifted(start, hoursOffset, fraud, privilege, urgent, d);
    var snapped := Snap(shifted, fraud || urgent, d);
    WeekendRule(snapped, d)
  }

  // ---------------------------------------------------------------------------
  // Properties

  /** A Friday result at 17:00 or later that takes the 70% branch moves exactly three days,
      to a Monday between 08:00 and 10:59. */
  lemma FridayEveningMovesToMonday(t: Time, d: TimestampDraws)
    requires d.respectWeekend && d.waitForMonday
    requires t.Weekday() == Friday && t.hour >= 17
    ensures WeekendRule(t, d).day == t.day + 3
    ensures WeekendRule(t, d).Weekday() == 0
    ensures 8 <= WeekendRule(t, d).hour <= 10
  {
  }

  /** A weekend date rolls forward to the Monday after it, keeping the time of day,
      unless the draw ignores weekends. */
  lemma WeekendRollsToMonday(t: Time, d: TimestampDraws)
    requires d.respectWeekend && t.Weekday() >= Saturday
    ensures WeekendRule(t, d).Weekday() == 0
    ensures WeekendRule(t, d).day == t.day + (7 - t.Weekday())
    ensures WeekendRule(t, d).hour == t.hour && WeekendRule(t, d).minute == t.minute
  {
    var r := RollToWeekday(t.day);
    if t.Weekday() == 5 {
      assert RollToWeekday(t.day + 1) == t.day + 2;
    }
  }

  /** The snap can place a reply earlier on its parent's day than the parent: a parent at
      Monday 17:00 and a one-hour offset that snaps to 08:00 gives Monday 08:00. Only the
      calendar date is monotone. */
  lemma ReplyCanPrecedeParent(d: TimestampDraws)
    requires d.businessHours && d.snapHour == 0 && d.snapMinute == 0 && d.jitterMinutes == 0
    ensures var parent: Time := Stamp(0, 17, 0);
            var reply := RealisticTimestamp(Some(parent), parent, Some(1), "", false, d);
            reply.day == parent.day && ToMinutes(reply) < ToMinutes(parent)
  {
    var parent: Time := Stamp(0, 17, 0);
    assert !IsFraudScenario("");
    var shifted := Shifted(parent, Some(1), false, false, false, d);
    assert ToMinutes(shifted) == 17 * 60 + 61;
    assert shifted.day == 0;
  }

  /** A zero offset is treated like no offset at all: only snapping and the weekend rules apply. */
  lemma ZeroOffsetIsNoOffset(base: Time, now: Time, description: string, urgent: bool, d: TimestampDraws)
    ensures RealisticTimestamp(Some(base), now, Some(0), description, urgent, d)
         == RealisticTimestamp(Some(base), now, None, description, urgent, d)
  {
  }
}

=== FILE: webex.dfy ===
/**
 `create_and_save_webex_native`: a Webex API style export with a room, its participants and
 its messages. Times render as `%Y-%m-%dT%H:%M:%S.000Z` of the local time; the conversion
 of a seconds-clock value to calendar fields is the input `calendar`. Message uuids are
 left out.
 */
module Webex {

  import opened Base
  import opened Text
  import opened Identity
  import opened Timestamps
  import opened Chat
  import opened Stats
  import Rsmf

  const IdPrefix := "Y2lzY"
  const UnknownEmail := "unknown@webex.com"
  const UnknownName := "Unknown"

  // ---------------------------------------------------------------------------
  // Room title

  function CaseFrom(c: char, afterLetter: bool): char {
    if !IsAsciiLetter(c) then c else if afterLetter then LowerChar(c) else UpperChar(c)
  }

  /** `str.title()`: a letter that follows a letter is lower-cased, any other letter is
      upper-cased, every other character stays. */
  function Title(s: string): (r: string)
    ensures |r| == |s|
    ensures forall i | 0 <= i < |s| :: r[i] == CaseFrom(s[i], i > 0 && IsAsciiLetter(s[i - 1]))
  {
    TitleFrom(s, false)
  }

  function TitleFrom(s: string, afterLetter: bool): (r: string)
    ensures |r| == |s|
    ensures forall i | 0 <= i < |s| :: r[i] == CaseFrom(s[i], if i == 0 then afterLetter else IsAsciiLetter(s[i - 1]))
  {
    if |s| == 0 then ""
    else
      var rest := TitleFrom(s[1..], IsAsciiLetter(s[0]));
      assert forall i | 1 <= i < |s| :: s[1..][i - 1] == s[i];
      [CaseFrom(s[0], afterLetter)] + rest
  }

  lemma CaseKeepsLetters(c: char, b: bool)
    ensures IsAsciiLetter(CaseFrom(c, b)) == IsAsciiLetter(c)
    ensures CaseFrom(CaseFrom(c, b), b) == CaseFrom(c, b)
  {
  }

  /** Title-casing a title changes nothing. */
  lemma TitleIdempotent(s: string)
    ensures Title(Title(s)) == Title(s)
  {
    var t := Title(s);
    forall i | 0 <= i < |s| ensures Title(t)[i] == t[i] {
      CaseKeepsLetters(s[i], i > 0 && IsAsciiLetter(s[i - 1]));
      if i > 0 {
        CaseKeepsLetters(s[i - 1], i > 1 && IsAsciiLetter(s[i - 2]));
      }
    }
  }

  /** `base_filename.replace('_', ' ').title()`: same length, words capitalised, no `_`. */
  function RoomTitle(base: string): (r: string)
    ensures |r| == |base|
    ensures '_' !in r
    ensures forall i | 0 <= i < |base| :: base[i] == '_' ==> r[i] == ' '
  {
    var spaced := SubstChar(base, '_', " ");
    SubstSingleCharLength(base, '_', ' ');
    var r := Title(spaced);
    forall i | 0 <= i < |r| ensures r[i] != '_' && (base[i] == '_' ==> r[i] == ' ') {
      CaseKeepsLetters(spaced[i], i > 0 && IsAsciiLetter(spaced[i - 1]));
    }
    r
  }

  /** Replacing a character by one character keeps every other position. */
  lemma {:induction false} SubstSingleCharLength(s: string, c: char, d: char)
    requires c != d
    ensures |SubstChar(s, c, [d])| == |s|
    ensures forall i | 0 <= i < |s| :: SubstChar(s, c, [d])[i] == (if s[i] == c then d else s[i])
  {
    if |s| > 0 {
      SubstSingleCharLength(s[1..], c, d);
      var r := SubstChar(s, c, [d]);
      assert r == (if s[0] == c then [d] else [s[0]]) + SubstChar(s[1..], c, [d]);
      assert forall i | 1 <= i < |s| :: s[1..][i - 1] == s[i];
    }
  }

  // ---------------------------------------------------------------------------
  // The export

  datatype WebexParticipant = WebexParticipant(id: string, displayName: string, email: string, created: string)

  datatype WebexMessage = WebexMessage(roomId: string, text: string, personId: string, personEmail: string,
                                       created: string)

  datatype WebexExport = WebexExport(roomId: string, title: string, created: string, lastActivity: string,
                                     participants: seq<WebexParticipant>, messages: seq<WebexMessage>)

  /** `%Y-%m-%dT%H:%M:%S.000Z`. */
  function ApiTime(c: Civil): (r: string)
    ensures StartsWith(r, DateText(c) + "T") && EndsWith(r, ".000Z")
    ensures r[..|r| - 5] == Rsmf.IsoTimestamp(c)
  {
    Rsmf.NoZoneSuffixAdded(c);
    DateText(c) + "T" + ClockText(c) + ".000Z"
  }

  const SecondsPerDay := 86400

  /** Pauses of 5 to 120 seconds, whatever the message length. */
  function WebexGaps(draws: seq<nat>): (gaps: seq<nat>)
    ensures |gaps| == |draws|
    ensures forall i | 0 <= i < |draws| :: 5 <= gaps[i] <= 120 && gaps[i] == RandInt(5, 120, draws[i])
  {
    seq(|draws|, i requires 0 <= i < |draws| => RandInt(5, 120, draws[i]))
  }

  /** The distinct senders, each with its id; all share the `created` time. */
  function Participants(msgs: seq<ChatMessage>, draw: nat -> Suffix, created: string): (r: seq<WebexParticipant>)
    ensures forall i, j | 0 <= i < j < |r| :: r[i].email != r[j].email
    ensures forall i | 0 <= i < |msgs| :: exists k | 0 <= k < |r| :: r[k].email == SenderOf(msgs[i], UnknownEmail)
    ensures forall k | 0 <= k < |r| :: r[k].id == DeterministicId(r[k].email, IdPrefix, draw) && r[k].created == created
  {
    var us := UniqueSenders(msgs, UnknownEmail, UnknownName);
    var ps := seq(|us|, k requires 0 <= k < |us| =>
                    WebexParticipant(DeterministicId(us[k].0, IdPrefix, draw), us[k].1, us[k].0, created));
    forall i | 0 <= i < |msgs|
      ensures exists k | 0 <= k < |ps| :: ps[k].email == SenderOf(msgs[i], UnknownEmail)
    {
      UniqueSendersCover(msgs, UnknownEmail, UnknownName, i);
      var k :| 0 <= k < |us| && us[k].0 == SenderOf(msgs[i], UnknownEmail);
      assert ps[k].email == us[k].0;
    }
    ps
  }

  /** Every participant is a sender, shown with the name of its first message. */
  predicate SendersOnly(msgs: seq<ChatMessage>, ps: seq<WebexParticipant>) {
    forall k | 0 <= k < |ps| ::
      ps[k].email in Senders(msgs, UnknownEmail) && FirstNamed(msgs, UnknownEmail, UnknownName, ps[k].email, ps[k].displayName)
  }

  /** No one but a sender is a participant, and each is shown with the name of the first
      message from its address. */
  lemma ParticipantsAreSenders(msgs: seq<ChatMessage>, draw: nat -> Suffix, created: string)
    ensures SendersOnly(msgs, Participants(msgs, draw, created))
  {
    UniqueSendersNamed(msgs, UnknownEmail, UnknownName);
  }

  /** One message per chat entry, each after a 5 to 120 second pause. */
  function Messages(roomId: string, msgs: seq<ChatMessage>, start: int, draws: seq<nat>,
                    draw: nat -> Suffix, calendar: int -> Civil): (r: seq<WebexMessage>)
    requires |draws| == |msgs|
    ensures |r| == |msgs|
    ensures forall i | 0 <= i < |msgs| ::
              && r[i].roomId == roomId && r[i].text == BodyText(msgs[i])
              && r[i].personEmail == SenderOf(msgs[i], UnknownEmail)
              && r[i].personId == DeterministicId(SenderOf(msgs[i], UnknownEmail), IdPrefix, draw)
              && r[i].created == ApiTime(calendar(Clock(start, WebexGaps(draws))[i]))
  {
    var times := Clock(start, WebexGaps(draws));
    seq(|msgs|, i requires 0 <= i < |msgs| =>
          var e := SenderOf(msgs[i], UnknownEmail);
          WebexMessage(roomId, BodyText(msgs[i]), DeterministicId(e, IdPrefix, draw), e, ApiTime(calendar(times[i]))))
  }

  function WebexExportOf(base: string, msgs: seq<ChatMessage>, start: int, draws: seq<nat>,
                         draw: nat -> Suffix, calendar: int -> Civil): (r: WebexExport)
    requires |draws| == |msgs|
    ensures r.roomId == DeterministicId(base, IdPrefix, draw) && r.title == RoomTitle(base)
    ensures r.created == ApiTime(calendar(start)) && r.lastActivity == ApiTime(calendar(start + 3600))
    ensures r.participants == Participants(msgs, draw, ApiTime(calendar(start - 30 * SecondsPerDay)))
    ensures r.messages == Messages(r.roomId, msgs, start, draws, draw, calendar)
  {
    var roomId := DeterministicId(base, IdPrefix, draw);
    WebexExport(roomId, RoomTitle(base), ApiTime(calendar(start)), ApiTime(calendar(start + 3600)),
                Participants(msgs, draw, ApiTime(calendar(start - 30 * SecondsPerDay))),
                Messages(roomId, msgs, start, draws, draw, calendar))
  }

  /** Message times run strictly forward, at least five seconds apart. */
  lemma WebexClockIncreasing(start: int, draws: seq<nat>)
    ensures forall i, j | 0 <= i < j < |draws| :: Clock(start, WebexGaps(draws))[i] + 5 <= Clock(start, WebexGaps(draws))[j]
  {
    ClockIncreasing(start, WebexGaps(draws), 5);
  }

  /** The statistics of a saved export: the room title as a scenario, one more chat, the start
      date and each message's `sender_email` (`None` when absent) as a custodian. */
  function RecordWebex(s: Stats, base: string, msgs: seq<ChatMessage>, start: Time): (r: Stats)
    ensures Consistent(s) ==> Consistent(r)
    ensures r.rsmfChats == s.rsmfChats + 1 && ("Webex: " + RoomTitle(base)) in r.scenariosTriggered
    ensures forall i | 0 <= i < |msgs| :: msgs[i].senderEmail in r.custodians
  {
    var senders := seq(|msgs|, i requires 0 <= i < |msgs| => msgs[i].senderEmail);
    assert forall i | 0 <= i < |msgs| :: senders[i] == msgs[i].senderEmail;
    RecordChat(s, Some("Webex: " + RoomTitle(base)), start, senders)
  }
}
